=== FILE: README.md ===
# Kent'in Sesi — a Dafny model of the app's core logic

Kent'in Sesi ("the voice of the city") is an Android app in which the
citizens of Hatay report local problems as posts. They discuss the posts in
threaded comments, and officials move each post through the statuses
new → in progress → resolved / rejected. This project models the parts of
the app that decide something, as pure Dafny functions over immutable data,
and proves what they promise:

- **comment threading** (`comment_threading.dfy`, `comment_adapter.dfy`): which comments of a
  thread are shown given the set of expanded comments, how a reply
  expands its parent chain, the per-parent reply counts, reply mode and
  sending, and the depth and indentation rules of each row;
- **the user repository** (`user_repository.dfy`): the user documents and the
  `usernames` registry, username normalisation, the profile-update
  transaction with its one-time username claim, profile creation, role
  reads and writes, listings and search. The central invariant is that every
  stored username is registered to its holder, and that no two users share one;
- **profile set-up** (`setup_profile.dfy`): the avatar-seed history with its
  previous/next buttons and 31-seed capacity, and the order of the form checks;
- **validation and authorisation** (`validation.dfy`, `authorization.dfy`,
  `status_updates.dfy`): field limits, role checks, and the status-update gate;
- **saved filter presets** (`filter_preset_dao.dfy`, `filter_presets_sheet.dfy`):
  the Room DAO's queries over a table with unique ids and names, and the
  preset summary dialog;
- **view models and screens** (`auth_view_model.dfy`, `register_form.dfy`,
  `post_detail.dfy`, `profile_view_model.dfy`, `profile_screen.dfy`,
  `post_adapter.dfy`, `locale_helper.dfy`): the state sequences the login,
  registration and profile-completion flows emit, the register and comment
  forms, post labels, profile statistics, the theme dialog, and the language
  preference.

Shared pieces: `text.dfy` (Kotlin `trim`, `isBlank`, `lowercase`,
`joinToString`, `toString`), `wrappers.dfy` (nullable values and the app's
`Resource`), `constants.dfy`, `sequences.dfy` (filtering, counting,
subsequences), `sorting.dfy` (a stable insertion sort standing in for
Kotlin's `sortedBy`), `model.dfy` (the records), `post_status.dfy` and
`user_role.dfy` (the two enums).

Firestore is modelled as a `Store`, a map of user documents plus the
`usernames` registry. Every repository call takes the store and returns a
`Resource` answer together with the store after its writes. An error
written `Error(None)` is one whose text comes from the platform (an SDK
exception's message), which the model does not know.

## Model

| member | source | states |
|---|---|---|
| CommentThreading.Lookup | app/src/main/java/io/github/thwisse/kentinsesi/ui/post/CommentsFragment.kt:296-300 | The id index built by `associateBy` finds a comment with the id, the last one when ids repeat, and finds nothing exactly when no comment has the id. |
| CommentThreading.IsVisible | app/src/main/java/io/github/thwisse/kentinsesi/ui/post/CommentsFragment.kt:291-313 | The recursive rule `isCommentVisible`: a comment with a null or blank parent id is shown; a reply is shown iff its parent is found, expanded and itself shown. The parent's expansion is tested before the recursive call, so the rule is defined wherever the recursion returns: on every comment whose walk up the chain meets a top-level comment, a missing parent or a collapsed parent, cycles included. `VisibleIffChainOpen` ties it to the ancestor-chain definition. |
| CommentThreading.CollapsedCycleAnswers | app/src/main/java/io/github/thwisse/kentinsesi/ui/post/CommentsFragment.kt:306-312 | Two replies naming each other as parent, one of them collapsed: the chain never ends, yet the rule answers, and the reply is hidden. |
| CommentThreading.VisibleComments | app/src/main/java/io/github/thwisse/kentinsesi/ui/post/CommentsFragment.kt:316-322 | The shown list is an order-preserving subsequence of the fetched list holding exactly the comments the visibility rule accepts. |
| CommentThreading.TopLevelAlwaysVisible | app/src/main/java/io/github/thwisse/kentinsesi/ui/post/CommentsFragment.kt:291-295 | A comment whose parent id is null or blank is shown whatever the expanded set holds. |
| CommentThreading.ReplyVisibility | app/src/main/java/io/github/thwisse/kentinsesi/ui/post/CommentsFragment.kt:297-312 | A reply whose parent is missing or collapsed is hidden; a shown reply has its parent present, expanded and itself shown. |
| CommentThreading.VisibleIffChainOpen | app/src/main/java/io/github/thwisse/kentinsesi/ui/post/CommentsFragment.kt:291-313 | The recursive rule agrees with the chain description: a comment is shown iff every ancestor on its chain that names a parent finds it present and expanded. |
| CommentThreading.Toggle | app/src/main/java/io/github/thwisse/kentinsesi/ui/post/CommentsFragment.kt:260-265 | Toggling flips the membership of that one id and leaves every other id as it was. |
| CommentThreading.ToggleTwice | app/src/main/java/io/github/thwisse/kentinsesi/ui/post/CommentsFragment.kt:260-265 | Toggling the same id twice restores the expanded set. |
| CommentThreading.ExpandParentChain | app/src/main/java/io/github/thwisse/kentinsesi/ui/post/CommentsFragment.kt:170-181 | Expanding a chain only adds ids, and always adds the target's own id. It is defined for every target whose parent chain ends, which is exactly when the recursion at :169-177 returns; stored depths play no part. |
| CommentThreading.ExpandAddsChain | app/src/main/java/io/github/thwisse/kentinsesi/ui/post/CommentsFragment.kt:170-181 | The ids added are exactly the target and its ancestors reachable through present parents; the walk stops at a missing parent. |
| CommentThreading.ExpandRevealsTarget | app/src/main/java/io/github/thwisse/kentinsesi/ui/post/CommentsFragment.kt:160-181 | When the target's whole ancestor chain is present, after expanding it the target and all its direct replies are shown. |
| CommentThreading.ChildCounts | app/src/main/java/io/github/thwisse/kentinsesi/ui/post/CommentsFragment.kt:277-283 | The count kept for a parent id is the number of comments naming it as non-blank parent; ids nobody names have no entry. |
| CommentThreading.ChildCountsSumToReplies | app/src/main/java/io/github/thwisse/kentinsesi/ui/post/CommentsFragment.kt:277-283 | Over the named parents, each counted once, the counts add up to the number of replies; top-level comments contribute nothing. |
| CommentThreading.SendEnabled | app/src/main/java/io/github/thwisse/kentinsesi/ui/post/CommentsFragment.kt:86-88 | The send button is enabled iff the input is not blank. |
| CommentThreading.SendClicked | app/src/main/java/io/github/thwisse/kentinsesi/ui/post/CommentsFragment.kt:90-107 | A blank input sends nothing; otherwise the trimmed text goes out as a reply carrying the target's id, author id and full name when a target is set, else as a top-level comment, and the input is cleared. |
| CommentThreading.EnterReplyMode | app/src/main/java/io/github/thwisse/kentinsesi/ui/post/CommentsFragment.kt:229-235 | Entering reply mode sets the target and shows the banner naming its full name, or username when the full name is blank. |
| CommentThreading.CancelReplyMode | app/src/main/java/io/github/thwisse/kentinsesi/ui/post/CommentsFragment.kt:237-241 | Cancelling clears the target, hides the banner and empties the input. |
| CommentThreading.OffersDelete | app/src/main/java/io/github/thwisse/kentinsesi/ui/post/CommentsFragment.kt:75-79 | A long press offers deletion iff the comment is not already deleted. |
| CommentThreading.ToggleClicked | app/src/main/java/io/github/thwisse/kentinsesi/ui/post/CommentsFragment.kt:72-74 | The replies toggle flips the comment's id and changes nothing else on screen. |
| CommentThreading.ReplySucceeded | app/src/main/java/io/github/thwisse/kentinsesi/ui/post/CommentsFragment.kt:152-190 | A stored reply keeps every expanded id, adds the target's own id, and leaves reply mode with the input cleared. It is defined whenever the target's parent chain ends. |
| CommentThreading.ReplySuccessShowsThread | app/src/main/java/io/github/thwisse/kentinsesi/ui/post/CommentsFragment.kt:152-190 | After a reply to a target with a complete chain succeeds, the target and its direct replies are in the shown list. |
| CommentAdapter.CanReply | app/src/main/java/io/github/thwisse/kentinsesi/ui/post/CommentAdapter.kt:40-41 | Replying is offered iff the depth is below the maximum depth, 4. |
| CommentAdapter.ReplyClicked | app/src/main/java/io/github/thwisse/kentinsesi/ui/post/CommentAdapter.kt:42-44 | The reply callback receives the comment iff replying is allowed. |
| CommentAdapter.IndentLevel | app/src/main/java/io/github/thwisse/kentinsesi/ui/post/CommentAdapter.kt:55-57 | The indent level is the depth clamped to 0..4: never negative, never above 4, the depth itself in range. |
| CommentAdapter.IndentMonotone | app/src/main/java/io/github/thwisse/kentinsesi/ui/post/CommentAdapter.kt:55-57 | A deeper comment is never indented less. |
| CommentAdapter.ReplyingToLabel | app/src/main/java/io/github/thwisse/kentinsesi/ui/post/CommentAdapter.kt:33-38 | The replying-to label is visible iff the replied-to name is non-blank, and its text is empty otherwise. |
| CommentAdapter.ItemIdentity | app/src/main/java/io/github/thwisse/kentinsesi/ui/post/CommentAdapter.kt:68-70 | Item identity is symmetric and requires equal non-blank ids; a blank id never matches, not even itself. |
| CommentAdapter.AreItemsTheSame | app/src/main/java/io/github/thwisse/kentinsesi/ui/post/CommentAdapter.kt:68-70 | The differ's identity: both ids non-blank and equal. Its properties (symmetry, a blank id matches nothing) are stated by `ItemIdentity`. |
| CommentAdapter.AreContentsTheSame | app/src/main/java/io/github/thwisse/kentinsesi/ui/post/CommentAdapter.kt:71 | The differ's content check is record equality; `ContentsImplyIdentity` states that equal contents mean the same item iff the id is not blank. |
| CommentAdapter.ContentsImplyIdentity | app/src/main/java/io/github/thwisse/kentinsesi/ui/post/CommentAdapter.kt:68-71 | Equal records are the same item exactly when their id is not blank. |
| UserRepository.NormalizeUsername | app/src/main/java/io/github/thwisse/kentinsesi/data/repository/UserRepositoryImpl.kt:17-19 | The normalised name is trimmed, no longer than the input, and a name already in the accepted form is left alone. |
| UserRepository.NormalizeDecorated | app/src/main/java/io/github/thwisse/kentinsesi/data/repository/UserRepositoryImpl.kt:17-19 | An accepted name wrapped in blanks and one leading @ normalises back to itself. |
| UserRepository.MatchesUsernamePattern | app/src/main/java/io/github/thwisse/kentinsesi/data/repository/UserRepositoryImpl.kt:56-57 | The regex `^[a-z0-9_]{3,20}$`; `PatternIsCanonical` and `NormalizeFixesPattern` state that a matching name is trimmed, lower case and left alone by normalisation. |
| UserRepository.NormalizeFixesPattern | app/src/main/java/io/github/thwisse/kentinsesi/data/repository/UserRepositoryImpl.kt:17-19 | Normalising a name that matches the username pattern gives the name back. |
| UserRepository.StoredUsername | app/src/main/java/io/github/thwisse/kentinsesi/data/repository/UserRepositoryImpl.kt:65-66 | The stored username as compared is trimmed, and empty exactly when the stored field is blank or absent. |
| UserRepository.MergeProfile | app/src/main/java/io/github/thwisse/kentinsesi/data/repository/UserRepositoryImpl.kt:87-101 | The merge sets the six profile fields (title = sensitive citizen), deletes the legacy fields, keeps every other field and adds no other. |
| UserRepository.MergeKeeps | app/src/main/java/io/github/thwisse/kentinsesi/data/repository/UserRepositoryImpl.kt:87-101 | A field outside the profile and legacy sets reads the same after the merge. |
| UserRepository.Transaction | app/src/main/java/io/github/thwisse/kentinsesi/data/repository/UserRepositoryImpl.kt:61-104 | Changing a set username fails with no writes; claiming a taken name fails with no writes; success happens iff the stored name equals the new one or is blank and the name is free; success merges the profile and, on a first claim only, registers the name. |
| UserRepository.UpdateUserProfile | app/src/main/java/io/github/thwisse/kentinsesi/data/repository/UserRepositoryImpl.kt:53-110 | A name that does not normalise into the accepted form fails as invalid with no writes; any other runs the transaction on the normalised name. |
| UserRepository.ConsistentUnique | app/src/main/java/io/github/thwisse/kentinsesi/data/repository/UserRepositoryImpl.kt:72-85 | In a store where every username is registered to its holder, no two users share a username. |
| UserRepository.TransactionStoresName | app/src/main/java/io/github/thwisse/kentinsesi/data/repository/UserRepositoryImpl.kt:87-101 | After a successful transaction the stored username is the new name. |
| UserRepository.UsernameNeverChanges | app/src/main/java/io/github/thwisse/kentinsesi/data/repository/UserRepositoryImpl.kt:65-70 | Once a user has a username, no update changes it. |
| UserRepository.TransactionClaims | app/src/main/java/io/github/thwisse/kentinsesi/data/repository/UserRepositoryImpl.kt:78-85 | After a successful transaction the name is registered to the writer. |
| UserRepository.TransactionKeepsOtherClaims | app/src/main/java/io/github/thwisse/kentinsesi/data/repository/UserRepositoryImpl.kt:72-85 | A successful transaction keeps every other user's registration. |
| UserRepository.TransactionPreservesConsistent | app/src/main/java/io/github/thwisse/kentinsesi/data/repository/UserRepositoryImpl.kt:61-104 | The transaction keeps every username registered to its holder. |
| UserRepository.UpdatePreservesConsistent | app/src/main/java/io/github/thwisse/kentinsesi/data/repository/UserRepositoryImpl.kt:53-110 | Every profile update keeps every username registered to its holder. |
| UserRepository.GetUserRole | app/src/main/java/io/github/thwisse/kentinsesi/data/repository/UserRepositoryImpl.kt:132-145 | A missing user is an error; otherwise the stored role, or citizen when the field is absent. |
| UserRepository.TransactionKeepsRole | app/src/main/java/io/github/thwisse/kentinsesi/data/repository/UserRepositoryImpl.kt:87-101 | A profile update never changes an existing user's role; a first write makes a citizen. |
| UserRepository.CreateUserProfile | app/src/main/java/io/github/thwisse/kentinsesi/data/repository/UserRepositoryImpl.kt:22-50 | Creating a profile succeeds, replaces only that user's document with a citizen record without a username or legacy fields, and leaves the registry alone. |
| UserRepository.CreatedUserDecodes | app/src/main/java/io/github/thwisse/kentinsesi/data/repository/UserRepositoryImpl.kt:22-30 | The created document decodes to the record's defaults with the given uid, name and email. |
| UserRepository.CreatePreservesConsistent | app/src/main/java/io/github/thwisse/kentinsesi/data/repository/UserRepositoryImpl.kt:22-50 | Creating a profile keeps every username registered to its holder. |
| UserRepository.CreatedUserCanClaim | app/src/main/java/io/github/thwisse/kentinsesi/data/repository/UserRepositoryImpl.kt:22-104 | A freshly created user's update succeeds iff nobody holds the name. |
| UserRepository.GetUser | app/src/main/java/io/github/thwisse/kentinsesi/data/repository/UserRepositoryImpl.kt:113-130 | A missing user is an error ("Kullanıcı bulunamadı."); a present one is always read successfully, as the user decoded from its document with the uid stored in the document's own field, and with the role the role lookup reports. |
| UserRepository.GetCreatedUser | app/src/main/java/io/github/thwisse/kentinsesi/data/repository/UserRepositoryImpl.kt:22-30 | Reading back a created profile gives the record written. |
| UserRepository.UpdateUserRole | app/src/main/java/io/github/thwisse/kentinsesi/data/repository/UserRepositoryImpl.kt:210-220 | A missing user is an error with no write; otherwise the role reads back as the new role and no other user changes. |
| UserRepository.UpdateRolePreservesConsistent | app/src/main/java/io/github/thwisse/kentinsesi/data/repository/UserRepositoryImpl.kt:210-220 | Changing a role keeps every username registered to its holder. |
| UserRepository.UserFromDoc | app/src/main/java/io/github/thwisse/kentinsesi/data/repository/UserRepositoryImpl.kt:156-158 | A decoded user takes the document id as uid and each other field from the document: a string field's value when it holds a string, a number for the points, and otherwise the record's default. `EmptyDocDecodesToDefaults` lists the defaults. |
| UserRepository.EmptyDocDecodesToDefaults | app/src/main/java/io/github/thwisse/kentinsesi/data/model/User.kt:3-17 | An empty document decodes to the record's declared defaults: empty strings, role "citizen", 0 points and the title "Yeni Kullanıcı". |
| UserRepository.DecodeMerged | app/src/main/java/io/github/thwisse/kentinsesi/data/repository/UserRepositoryImpl.kt:87-101 | A merged document decodes to the old record with the written profile fields and the sensitive-citizen title. |
| UserRepository.TransactionProfile | app/src/main/java/io/github/thwisse/kentinsesi/data/repository/UserRepositoryImpl.kt:61-104 | After a successful update the profile read back shows what was written, with the email, role and points it had. |
| UserRepository.GetAllUsers | app/src/main/java/io/github/thwisse/kentinsesi/data/repository/UserRepositoryImpl.kt:148-165 | The listing holds every user of the snapshot (as a multiset), ordered by full name, or email when the name is empty, and the sort is stable: users with equal keys keep the snapshot's order. |
| UserRepository.SortKey | app/src/main/java/io/github/thwisse/kentinsesi/data/repository/UserRepositoryImpl.kt:159 | The sort key `fullName.ifEmpty { email }`; `TiedMeansSameKey` states that two users tie under the listing's order exactly when their keys are equal. |
| UserRepository.TiedMeansSameKey | app/src/main/java/io/github/thwisse/kentinsesi/data/repository/UserRepositoryImpl.kt:159 | Two users are tied under the listing's order iff their sort keys are equal. |
| Sorting.SortByStable | app/src/main/java/io/github/thwisse/kentinsesi/data/repository/UserRepositoryImpl.kt:159 | For any transitive total order, sorting keeps the relative order of every group of tied elements, as `sortedBy` does. |
| UserRepository.GetPrivilegedUsers | app/src/main/java/io/github/thwisse/kentinsesi/data/repository/UserRepositoryImpl.kt:167-182 | The listing is exactly the decoded snapshot documents whose role is admin or official: each such document is listed, every listed user is an official decoded from such a document, the listing keeps snapshot order, and it has one entry per such document. |
| UserRepository.PrivilegedMeansOfficial | app/src/main/java/io/github/thwisse/kentinsesi/data/repository/UserRepositoryImpl.kt:169-171 | The role query selects a document iff its decoded user counts as official. |
| UserRepository.Privileged | app/src/main/java/io/github/thwisse/kentinsesi/data/repository/UserRepositoryImpl.kt:169-171 | The `whereIn("role", [admin, official])` filter on a stored document; `PrivilegedMeansOfficial` relates it to the decoded user. |
| UserRepository.SearchUserByUsername | app/src/main/java/io/github/thwisse/kentinsesi/data/repository/UserRepositoryImpl.kt:184-207 | A normalised name that is not a valid document path (a "//" or an even number of "/"-separated segments, the empty name included) gives the SDK's error, and only such a name does. A valid name that names no registry entry, or whose entry has a blank uid or points at no user document, gives "Böyle bir kullanıcı yok". Otherwise the answer is the user decoded from the registered uid's document; a success is always that user, registered under the name. |
| UserRepository.FindRegistered | app/src/main/java/io/github/thwisse/kentinsesi/data/repository/UserRepositoryImpl.kt:188-202 | The registry step: an entry that is missing, holds a blank uid or names no user document gives "Böyle bir kullanıcı yok", and only such an entry does; otherwise the answer is the user decoded from the named document, registered under the key. |
| UserRepository.SlashedQueryFails | app/src/main/java/io/github/thwisse/kentinsesi/data/repository/UserRepositoryImpl.kt:186-205 | The query "a/b" makes the document lookup throw, so the search answers with the SDK's error whatever the store holds. |
| UserRepository.PatternNameIsKey | app/src/main/java/io/github/thwisse/kentinsesi/data/repository/UserRepositoryImpl.kt:184-187 | A name the username pattern accepts is a valid one-segment path, so the search looks up exactly that registry entry. |
| UserRepository.SearchFindsUpdatedUser | app/src/main/java/io/github/thwisse/kentinsesi/data/repository/UserRepositoryImpl.kt:53-207 | After a successful update, searching any spelling that normalises to the same name finds that user. |
| SetupProfile.Setup | app/src/main/java/io/github/thwisse/kentinsesi/ui/auth/SetupProfileFragment.kt:66-73 | Set-up starts an empty history with exactly one seed and the cursor on it, and leaves a filled history alone. |
| SetupProfile.Previous | app/src/main/java/io/github/thwisse/kentinsesi/ui/auth/SetupProfileFragment.kt:78-84 | Previous moves the cursor back only when it is above 0 and never alters the history. |
| SetupProfile.Next | app/src/main/java/io/github/thwisse/kentinsesi/ui/auth/SetupProfileFragment.kt:90-104 | Next before the end only advances the cursor; at the end it evicts the oldest seed when 31 are held, appends the new seed and moves onto it. |
| SetupProfile.PreviousEnabledMoves | app/src/main/java/io/github/thwisse/kentinsesi/ui/auth/SetupProfileFragment.kt:107-109 | The previous button is enabled exactly when pressing it moves the cursor. |
| SetupProfile.PreviousAfterNext | app/src/main/java/io/github/thwisse/kentinsesi/ui/auth/SetupProfileFragment.kt:78-104 | Previous after Next shows the seed that was on screen before, eviction included. |
| SetupProfile.Run | app/src/main/java/io/github/thwisse/kentinsesi/ui/auth/SetupProfileFragment.kt:78-104 | Any series of presses keeps 0 <= cursor < size <= 31; previous presses alone never alter the history. |
| SetupProfile.RunFromSetup | app/src/main/java/io/github/thwisse/kentinsesi/ui/auth/SetupProfileFragment.kt:66-104 | From set-up, every series of presses keeps the history bounds. |
| SetupProfile.SelectedSeed | app/src/main/java/io/github/thwisse/kentinsesi/ui/auth/SetupProfileFragment.kt:150 | The seed saved is the one under the cursor. |
| SetupProfile.Save | app/src/main/java/io/github/thwisse/kentinsesi/ui/auth/SetupProfileFragment.kt:114-154 | The checks run in order (name, username present, username pattern, district); the first failure is reported, and the profile is submitted iff all pass, trimmed and with the normalised name. |
| SetupProfile.SubmittedNameAccepted | app/src/main/java/io/github/thwisse/kentinsesi/ui/auth/SetupProfileFragment.kt:114-154 | A submitted name is a fixed point of normalisation and is never refused by the repository as malformed. |
| Validation.GetValidationError | app/src/main/java/io/github/thwisse/kentinsesi/util/ValidationUtils.kt:25-34 | For each known field the error is absent iff the field's limit holds (password >= 6; title, description, comment non-blank and <= 100, 500, 200), and an unknown field never has an error. |
| Validation.ErrorMatchesValidator | app/src/main/java/io/github/thwisse/kentinsesi/util/ValidationUtils.kt:9-34 | The error lookup agrees with the four validators. |
| Validation.IsValidPassword | app/src/main/java/io/github/thwisse/kentinsesi/util/ValidationUtils.kt:9-11 | At least six characters, blanks counted; `ErrorMatchesValidator` ties it to the password message. |
| Validation.IsValidPostTitle | app/src/main/java/io/github/thwisse/kentinsesi/util/ValidationUtils.kt:13-15 | Not blank and at most the title limit; `ValidTextSurvivesTrim` and `ErrorMatchesValidator` are about it. |
| Validation.IsValidPostDescription | app/src/main/java/io/github/thwisse/kentinsesi/util/ValidationUtils.kt:17-19 | Not blank and at most the description limit; `ValidTextSurvivesTrim` and `ErrorMatchesValidator` are about it. |
| Validation.IsValidComment | app/src/main/java/io/github/thwisse/kentinsesi/util/ValidationUtils.kt:21-23 | Not blank and at most 200 characters; `CommentLimitInclusive` pins the bound. |
| Validation.CommentLimitInclusive | app/src/main/java/io/github/thwisse/kentinsesi/util/ValidationUtils.kt:21-23 | The comment limit is inclusive: 200 characters pass, 201 fail. |
| Validation.ValidTextSurvivesTrim | app/src/main/java/io/github/thwisse/kentinsesi/util/ValidationUtils.kt:13-23 | An accepted title, description or comment is not emptied by trimming. |
| Authorization.IsOfficial | app/src/main/java/io/github/thwisse/kentinsesi/util/AuthorizationUtils.kt:13-20 | Official means role official or admin, and false with no user. |
| Authorization.IsAdmin | app/src/main/java/io/github/thwisse/kentinsesi/util/AuthorizationUtils.kt:27-29 | Admin means role admin, and false with no user. |
| Authorization.IsCitizen | app/src/main/java/io/github/thwisse/kentinsesi/util/AuthorizationUtils.kt:36-38 | A citizen is a present user whose role is neither official nor admin (unknown roles read as citizen). |
| Authorization.CanUpdatePostStatus | app/src/main/java/io/github/thwisse/kentinsesi/util/AuthorizationUtils.kt:46-48 | Status updates are allowed exactly to officials, admins included. |
| Authorization.CanDeletePost | app/src/main/java/io/github/thwisse/kentinsesi/util/AuthorizationUtils.kt:58-61 | No user or no author id means no deletion; otherwise the author or an admin may delete. |
| Authorization.CanCreatePost | app/src/main/java/io/github/thwisse/kentinsesi/util/AuthorizationUtils.kt:69-71 | Posting needs a present user with a non-empty uid. |
| Authorization.AdminIsOfficial | app/src/main/java/io/github/thwisse/kentinsesi/util/AuthorizationUtils.kt:13-29 | Every admin counts as official. |
| Authorization.RolesPartition | app/src/main/java/io/github/thwisse/kentinsesi/util/AuthorizationUtils.kt:18-71 | A present user is exactly one of citizen and official; with no user every check is false. |
| StatusUpdates.CanUpdateAsWritten | app/src/main/java/io/github/thwisse/kentinsesi/ui/post/StatusUpdatesFragment.kt:64-67 | The check as written: a signed-in user passes iff official, admin or author; with no user it passes iff there is no post or no author id. |
| StatusUpdates.AsWrittenLetsAnonymousIn | app/src/main/java/io/github/thwisse/kentinsesi/ui/post/StatusUpdatesFragment.kt:64-67 | With no user and no post the check as written passes. |
| StatusUpdates.CanUpdate | app/src/main/java/io/github/thwisse/kentinsesi/ui/post/StatusUpdatesFragment.kt:64-67 | The corrected check: false with no user; otherwise official or admin, or the post's author. |
| StatusUpdates.CorrectionOnlyAffectsSignedOut | app/src/main/java/io/github/thwisse/kentinsesi/ui/post/StatusUpdatesFragment.kt:64-67 | The correction agrees with the code for every signed-in user and only ever refuses more. |
| StatusUpdates.DefaultDialogStatus | app/src/main/java/io/github/thwisse/kentinsesi/ui/post/StatusUpdatesFragment.kt:80-81 | The dialog starts on the post's status, or New with no post. |
| StatusUpdates.UpdateStatusSelectedAsWritten | app/src/main/java/io/github/thwisse/kentinsesi/ui/post/StatusUpdatesFragment.kt:60-78 | The handler as written: the dialog opens iff `CanUpdateAsWritten` holds, on the post's status or New; otherwise the refusal message is shown. |
| StatusUpdates.AsWrittenMenuOpensForAnonymous | app/src/main/java/io/github/thwisse/kentinsesi/ui/post/StatusUpdatesFragment.kt:64-70 | With no user and no post the handler as written opens the dialog on New, while the corrected handler refuses. |
| StatusUpdates.UpdateStatusSelected | app/src/main/java/io/github/thwisse/kentinsesi/ui/post/StatusUpdatesFragment.kt:60-78 | The corrected handler, built on `CanUpdate`: the dialog opens iff a signed-in official, admin or author asks, on the default status; otherwise the refusal message is shown, and with nobody signed in it is always refused. It differs from the source only there (`HandlersAgreeSignedIn`). |
| StatusUpdates.HandlersAgreeSignedIn | app/src/main/java/io/github/thwisse/kentinsesi/ui/post/StatusUpdatesFragment.kt:60-78 | For every signed-in user and every post, the corrected handler gives the same outcome as the handler as written. |
| StatusUpdates.CitizenNonAuthorRefused | app/src/main/java/io/github/thwisse/kentinsesi/ui/post/StatusUpdatesFragment.kt:66-73 | A citizen who did not write the post is refused by both handlers, and no dialog opens. |
| StatusUpdates.DialogStartsOnPostStatus | app/src/main/java/io/github/thwisse/kentinsesi/ui/post/StatusUpdatesFragment.kt:69-81 | Whenever the handler as written opens the dialog for a loaded post, the dialog starts on the post's own status. |
| StatusUpdates.ShowUpdates | app/src/main/java/io/github/thwisse/kentinsesi/ui/post/StatusUpdatesFragment.kt:119-134 | Exactly one of the empty state and the list is visible; the empty state shows iff there are no updates, and the list then receives them. |
| PostStatus.FromString | app/src/main/java/io/github/thwisse/kentinsesi/data/model/PostStatus.kt:9-13 | Parsing is total: a string that is some status's value gives that status, any other gives New. |
| PostStatus.FromStringValue | app/src/main/java/io/github/thwisse/kentinsesi/data/model/PostStatus.kt:3-13 | Parsing a status's value gives the status back. |
| PostStatus.ValueInjective | app/src/main/java/io/github/thwisse/kentinsesi/data/model/PostStatus.kt:4-7 | The four values are pairwise distinct. |
| UserRole.FromString | app/src/main/java/io/github/thwisse/kentinsesi/data/model/UserRole.kt:8-12 | Parsing is total: a role's value gives that role, any other string gives Citizen. |
| UserRole.FromStringValue | app/src/main/java/io/github/thwisse/kentinsesi/data/model/UserRole.kt:3-12 | Parsing a role's value gives the role back. |
| UserRole.ValueInjective | app/src/main/java/io/github/thwisse/kentinsesi/data/model/UserRole.kt:4-6 | The three values are distinct. |
| FilterPresetDao.Insert | app/src/main/java/io/github/thwisse/kentinsesi/data/local/db/FilterPresetDao.kt:27-28 | Insert aborts, leaving the table unchanged, iff the id or the name is already taken; otherwise the row is appended. |
| FilterPresetDao.InsertKeepsKeys | app/src/main/java/io/github/thwisse/kentinsesi/data/local/db/FilterPresetEntity.kt:10-15 | A successful insert keeps ids and names unique. |
| FilterPresetDao.DeleteById | app/src/main/java/io/github/thwisse/kentinsesi/data/local/db/FilterPresetDao.kt:30-31 | Delete keeps exactly the rows with another id, in their order. |
| FilterPresetDao.DeleteKeepsKeys | app/src/main/java/io/github/thwisse/kentinsesi/data/local/db/FilterPresetDao.kt:30-31 | Deleting keeps the keys unique and leaves no row with the id. |
| FilterPresetDao.ClearDefault | app/src/main/java/io/github/thwisse/kentinsesi/data/local/db/FilterPresetDao.kt:33-34 | Clearing unmarks every row and changes nothing else. |
| FilterPresetDao.SetDefault | app/src/main/java/io/github/thwisse/kentinsesi/data/local/db/FilterPresetDao.kt:36-37 | Setting marks the row with the id and changes nothing else. |
| FilterPresetDao.SetDefaultAbsent | app/src/main/java/io/github/thwisse/kentinsesi/data/local/db/FilterPresetDao.kt:36-37 | Setting an id no row has is a no-op. |
| FilterPresetDao.ClearThenSetSingleDefault | app/src/main/java/io/github/thwisse/kentinsesi/data/local/db/FilterPresetDao.kt:33-37 | Clearing then setting leaves at most one default row, the row with the id. |
| FilterPresetDao.GetById | app/src/main/java/io/github/thwisse/kentinsesi/data/local/db/FilterPresetDao.kt:18-19 | Returns a row with the id, or none iff no row has it. |
| FilterPresetDao.GetDefault | app/src/main/java/io/github/thwisse/kentinsesi/data/local/db/FilterPresetDao.kt:21-22 | Returns a default row, or none iff no row is default. |
| FilterPresetDao.GetSystemDefault | app/src/main/java/io/github/thwisse/kentinsesi/data/local/db/FilterPresetDao.kt:24-25 | Returns a system-default row, or none iff no row is one. |
| FilterPresetDao.DefaultAfterSet | app/src/main/java/io/github/thwisse/kentinsesi/data/local/db/FilterPresetDao.kt:21-37 | After clearing and setting an id, the default lookup returns that row. |
| FilterPresetDao.ObserveAll | app/src/main/java/io/github/thwisse/kentinsesi/data/local/db/FilterPresetDao.kt:12-16 | The listing is a permutation of the table ordered system default first, then default, then by name ignoring ASCII case. |
| FilterPresetDao.ObserveAllGroups | app/src/main/java/io/github/thwisse/kentinsesi/data/local/db/FilterPresetDao.kt:12-16 | In the listing no system-default row follows an ordinary one, and no default row follows a row that is neither. |
| LocaleHelper.PersistedLanguage | app/src/main/java/io/github/thwisse/kentinsesi/util/LocaleHelper.kt:27-30 | The stored preference, or "system" when none is stored. |
| LocaleHelper.SetPersistedLanguage | app/src/main/java/io/github/thwisse/kentinsesi/util/LocaleHelper.kt:35-38 | After a write, reading the preference gives back exactly the language written. |
| LocaleHelper.SystemLocale | app/src/main/java/io/github/thwisse/kentinsesi/util/LocaleHelper.kt:59-66 | The device locale maps to Turkish iff its language is "tr", else English. |
| LocaleHelper.EffectiveLocale | app/src/main/java/io/github/thwisse/kentinsesi/util/LocaleHelper.kt:45-53 | "tr" gives Turkish, "en" English, and "system" or anything else the device-derived locale; the result is always one of the two. |
| LocaleHelper.DisplayName | app/src/main/java/io/github/thwisse/kentinsesi/util/LocaleHelper.kt:110-116 | The Turkish label iff "tr" is stored, the English label iff "en", the system label otherwise. |
| LocaleHelper.ChosenLocaleApplied | app/src/main/java/io/github/thwisse/kentinsesi/util/LocaleHelper.kt:35-53 | After persisting a locale's code, that locale is applied whatever the device says. |
| LocaleHelper.SystemChoiceFollowsDevice | app/src/main/java/io/github/thwisse/kentinsesi/util/LocaleHelper.kt:35-66 | After persisting "system", the device decides the locale. |
| LocaleHelper.LabelMatchesLocale | app/src/main/java/io/github/thwisse/kentinsesi/util/LocaleHelper.kt:45-116 | The label shown never disagrees with the locale applied. |
| AuthViewModel.Login | app/src/main/java/io/github/thwisse/kentinsesi/ui/auth/AuthViewModel.kt:43-65 | Loading first; success with data signs in, success without data and errors become errors with the fixed fallback messages; a loading answer adds nothing. |
| AuthViewModel.Register | app/src/main/java/io/github/thwisse/kentinsesi/ui/auth/AuthViewModel.kt:68-112 | Loading first; a profile (uid, empty name, email) is requested iff the account call returns a user; success iff both calls succeed; each failure maps to its message or fallback. |
| AuthViewModel.CompleteProfile | app/src/main/java/io/github/thwisse/kentinsesi/ui/auth/AuthViewModel.kt:115-129 | Loading first, then the repository's answer and store for the signed-in user, or a no-session error with no write. |
| AuthViewModel.CompletePreservesConsistent | app/src/main/java/io/github/thwisse/kentinsesi/ui/auth/AuthViewModel.kt:115-129 | Completing a profile keeps every username registered to its holder. |
| AuthViewModel.NewAccountCompletesProfile | app/src/main/java/io/github/thwisse/kentinsesi/ui/auth/AuthViewModel.kt:68-129 | A newly registered account whose set-up form is accepted completes its profile whenever the chosen name is free. |
| RegisterForm.Submit | app/src/main/java/io/github/thwisse/kentinsesi/ui/auth/RegisterFragment.kt:50-83 | Both inputs are trimmed; the first failing check of email empty, email malformed, password empty, password short is reported; registration is requested iff all pass, with the trimmed values. |
| RegisterForm.RegisteredPasswordIsTrimmedAndLong | app/src/main/java/io/github/thwisse/kentinsesi/ui/auth/RegisterFragment.kt:51-82 | A sent password is trimmed and at least 6 long; a password shorter than 6 once trimmed is never sent. |
| RegisterForm.ControlsFor | app/src/main/java/io/github/thwisse/kentinsesi/ui/auth/RegisterFragment.kt:94-97 | The progress bar shows iff loading, and both buttons are enabled iff not loading. |
| RegisterForm.ButtonsFollowRegistration | app/src/main/java/io/github/thwisse/kentinsesi/ui/auth/RegisterFragment.kt:94-97 | The buttons are disabled while registration runs and enabled again once it answers. |
| PostDetail.SendClicked | app/src/main/java/io/github/thwisse/kentinsesi/ui/post/PostDetailFragment.kt:151-177 | The trimmed text is refused if empty, then if the comment validator fails, then if the post id is missing; otherwise the trimmed text is sent and the input and its error are cleared. |
| PostDetail.SentCommentIsValid | app/src/main/java/io/github/thwisse/kentinsesi/ui/post/PostDetailFragment.kt:151-177 | Every sent comment is trimmed and 1..200 long; blank or over-long text is never sent. |
| PostDetail.OwnerMenu | app/src/main/java/io/github/thwisse/kentinsesi/ui/post/PostDetailFragment.kt:56-59 | For a signed-in user the owner menu is installed iff they wrote the post. |
| PostDetail.OwnerMenuSignedOut | app/src/main/java/io/github/thwisse/kentinsesi/ui/post/PostDetailFragment.kt:57-59 | With nobody signed in the menu is installed iff the post has no author id. |
| PostDetail.StatusTextInjective | app/src/main/java/io/github/thwisse/kentinsesi/ui/post/PostDetailFragment.kt:215-220 | The status texts are total over the four statuses and tell them apart. |
| PostDetail.StatusText | app/src/main/java/io/github/thwisse/kentinsesi/ui/post/PostDetailFragment.kt:215-220 | One Turkish text per status; `StatusTextInjective` states the texts are distinct. |
| PostDetail.DistrictText | app/src/main/java/io/github/thwisse/kentinsesi/ui/post/PostDetailFragment.kt:129 | The district, or "İlçe Yok" when absent. |
| ProfileViewModel.IsResolvedMeansStatus | app/src/main/java/io/github/thwisse/kentinsesi/ui/profile/ProfileViewModel.kt:50 | A post counts as resolved exactly when its status parses to Resolved. |
| ProfileViewModel.IsResolved | app/src/main/java/io/github/thwisse/kentinsesi/ui/profile/ProfileViewModel.kt:50 | The count's test `status == "resolved"`; `IsResolvedMeansStatus` states it agrees with the parsed status. |
| ProfileViewModel.LoadUserPosts | app/src/main/java/io/github/thwisse/kentinsesi/ui/profile/ProfileViewModel.kt:38-55 | With no user nothing happens; otherwise on success the total is the number of posts and the resolved count the number with status resolved, on failure the counts stay, and the list ends holding the answer. |
| ProfileViewModel.LoadKeepsCoherent | app/src/main/java/io/github/thwisse/kentinsesi/ui/profile/ProfileViewModel.kt:38-55 | Every load keeps the counters set together with resolved <= total. |
| ProfileScreen.LocationText | app/src/main/java/io/github/thwisse/kentinsesi/ui/profile/ProfileFragment.kt:135-141 | The placeholder when both are empty, the one given when only one is; `LocationShowsBoth` pins the text when both are given. |
| ProfileScreen.LocationShowsBoth | app/src/main/java/io/github/thwisse/kentinsesi/ui/profile/ProfileFragment.kt:135-141 | The text starts with a given city and ends with a given district; when both are given, a comma and a space separate them and nothing else is added. |
| ProfileScreen.ShowProfile | app/src/main/java/io/github/thwisse/kentinsesi/ui/profile/ProfileFragment.kt:126-158 | A loaded user shows the name (or placeholder) and location; a missing user or an error shows the placeholders; loading changes nothing. |
| ProfileScreen.ThemeIndex | app/src/main/java/io/github/thwisse/kentinsesi/ui/profile/ProfileFragment.kt:90-92 | The checked option is the stored mode's position, or 0 when absent or unknown. |
| ProfileScreen.ThemeSelection | app/src/main/java/io/github/thwisse/kentinsesi/ui/profile/ProfileFragment.kt:96-97 | A pick stores its option's value, and an out-of-range pick stores "system". |
| ProfileScreen.NightModeFor | app/src/main/java/io/github/thwisse/kentinsesi/ui/profile/ProfileFragment.kt:100-104 | "light" gives night mode off and "dark" on; anything else follows the system. |
| ProfileScreen.ThemeRoundTrip | app/src/main/java/io/github/thwisse/kentinsesi/ui/profile/ProfileFragment.kt:90-104 | Reopening the dialog checks the option just picked, and the three options give three different night modes. |
| ProfileScreen.AdminButtonVisible | app/src/main/java/io/github/thwisse/kentinsesi/ui/profile/ProfileFragment.kt:47-55 | A loaded profile shows the admin button iff the user is admin; other answers leave it. |
| PostAdapter.StatusLabel | app/src/main/java/io/github/thwisse/kentinsesi/ui/home/PostAdapter.kt:36-41 | The three known codes are translated and any other status, rejected included, is shown raw. |
| PostAdapter.FeedAndDetailLabels | app/src/main/java/io/github/thwisse/kentinsesi/ui/home/PostAdapter.kt:36-41 | The feed and detail texts agree only for new and resolved posts. |
| PostAdapter.LocationLabel | app/src/main/java/io/github/thwisse/kentinsesi/ui/home/PostAdapter.kt:33 | "Hatay, " followed by the district, or by a dash when there is none. |
| PostAdapter.UpvoteLabel | app/src/main/java/io/github/thwisse/kentinsesi/ui/home/PostAdapter.kt:31 | The decimal count followed by " Destek". |
| PostAdapter.UpvoteLabelInjective | app/src/main/java/io/github/thwisse/kentinsesi/ui/home/PostAdapter.kt:31 | Equal support labels mean equal counts. |
| PostAdapter.DiffIsEquivalence | app/src/main/java/io/github/thwisse/kentinsesi/ui/home/PostAdapter.kt:58-59 | Item identity is id equality, an equivalence, and equal contents imply the same item. |
| PostAdapter.SameItem | app/src/main/java/io/github/thwisse/kentinsesi/ui/home/PostAdapter.kt:58 | The differ's identity is id equality, blank ids included; `DiffIsEquivalence` states it is an equivalence. |
| PostAdapter.SameContents | app/src/main/java/io/github/thwisse/kentinsesi/ui/home/PostAdapter.kt:59 | The content check is record equality over every field the screens read, image and map position included; `DiffIsEquivalence` states it implies the same item, and `NewImageOrPlaceRedraws` that a changed image or position is redrawn. |
| PostAdapter.NewImageOrPlaceRedraws | app/src/main/java/io/github/thwisse/kentinsesi/ui/home/PostAdapter.kt:44-59 | A post whose image URL or location changed is still the same item but not the same contents, so the feed redraws it. |
| FilterPresetsSheet.StatusDisplay | app/src/main/java/io/github/thwisse/kentinsesi/ui/home/FilterPresetsBottomSheetFragment.kt:18-22 | The three known codes map to their labels and any other code is kept raw. |
| FilterPresetsSheet.StatusesDisplay | app/src/main/java/io/github/thwisse/kentinsesi/ui/home/FilterPresetsBottomSheetFragment.kt:52-53 | Each status code is shown as its label, in order. |
| FilterPresetsSheet.ListValueAll | app/src/main/java/io/github/thwisse/kentinsesi/ui/home/FilterPresetsBottomSheetFragment.kt:58-60 | A list shows the "all" label iff it is empty or a single blank entry, else the comma-joined list. |
| FilterPresetsSheet.ListValue | app/src/main/java/io/github/thwisse/kentinsesi/ui/home/FilterPresetsBottomSheetFragment.kt:58-60 | `joinToString().ifBlank { all }`; `ListValueAll` states when the "all" label appears. |
| FilterPresetsSheet.YesNo | app/src/main/java/io/github/thwisse/kentinsesi/ui/home/FilterPresetsBottomSheetFragment.kt:55 | The yes label for true, the no label for false, shown on the fourth line of the summary. |
| FilterPresetsSheet.Summary | app/src/main/java/io/github/thwisse/kentinsesi/ui/home/FilterPresetsBottomSheetFragment.kt:57-66 | The summary is trimmed and no longer than its four lines. |
| FilterPresetsSheet.SummaryIsFourLines | app/src/main/java/io/github/thwisse/kentinsesi/ui/home/FilterPresetsBottomSheetFragment.kt:55-66 | With ordinary labels the summary is the four lines (districts, categories, statuses, only-mine yes/no) in order, minus the final newline. |


## Left out

- Android plumbing: fragments' view binding, navigation, toasts, keyboard handling, coroutine scopes and LiveData delivery. Each screen is modelled as a function from the state it reads to the state it shows.
- Firestore and Firebase Auth I/O: network failures, transaction retries and exceptions from the SDK. They become inputs (`Resource` answers) or `Error(None)` results.
- `FieldValue.serverTimestamp()` and every `createdAt`/`updatedAt` field: clocks are not modelled.
- A Firestore field holding a value of the wrong type where the code calls `getString` or `toObject` (a number in a string field, or a string in `points`): the SDK throws there, and the source answers with the exception's message. The model's documents hold strings and numbers, and it reads a value of the wrong type as an absent field instead, so `UserRepository.UserFromDoc` decodes it to the record's default (a string in `points` reads as 0):
- UserRepository.GetUserRole: a numeric `role` field gives "citizen" in the model; the source answers with the SDK's error.
- UserRepository.Transaction: a numeric `username` field reads as no username, so the model lets the user claim one; the source answers with the SDK's error.
- UserRepository.SearchUserByUsername: a numeric `uid` in the registry reads as blank ("Böyle bir kullanıcı yok"), and a mistyped field of the user document decodes to its default; the source answers with the SDK's error in both cases. A registered uid that is not a valid document id also makes the source throw; the model reads it as a missing document.
- UserRepository.GetUser: a mistyped field of the user document decodes to its default; the source's `toObject` throws and it answers with the SDK's error.
- UserRepository.GetAllUsers, UserRepository.GetPrivilegedUsers: the source decodes each document with `toObject` inside the `mapNotNull`, so one mistyped document in the snapshot makes the whole listing answer with the SDK's error. The model's listings always succeed and hold that user with the defaulted field.
- Firestore's server-side document-id rules (ids "." and "..", and ids of the form `__…__`) are not modelled. The client-side path check is modelled for the search's username lookup only.
- UserRepository.UserFromDoc: `User.kt` declares no `avatarSeed`, so `toObject` drops the stored seed. The model's record carries it, decoded like the other string fields, so what `DecodeMerged` and `TransactionProfile` say about a decoded user's seed is about the stored field, which the app's `User` does not expose.
- UserRepository.GetUser, UserRepository.GetUserRole, UserRepository.CreateUserProfile, UserRepository.UpdateUserRole and UserRepository.Transaction: a uid that is empty or not a valid document id (an even number of "/"-separated segments, or "//") makes `document(uid)` throw, and the source answers with the SDK's error. The model treats such a uid as an ordinary key: it reads as a missing user, or it is written. The app passes these calls Firebase Auth uids or ids of listed documents, which are valid ids.
- Query order: the order of a snapshot is an input. `LIMIT 1` in the DAO returns the first matching row in table order.
- Unicode: whitespace, lowercasing and SQLite's `NOCASE` are modelled on ASCII. Lengths count characters (Kotlin counts UTF-16 units). String order (`Sorting.LexLe`, which orders the user listing) compares characters, while Kotlin compares UTF-16 code units: the two agree on the Basic Multilingual Plane, and a character beyond it (an emoji, say) sorts after every character of the plane in the model but before U+E000–U+FFFF in Kotlin.
- The email check (`Patterns.EMAIL_ADDRESS`) is a parameter of the register form.
- UUIDs for avatar seeds and comment ids are inputs.
- Pixel density and date formatting in the comment row are not modelled; the indent level is.
- CommentThreading.VisibleComments: requires that no comment's parent chain runs in a cycle. On a cyclic list the source either stops at a collapsed comment or recurses until the stack overflows, and what it shows then is not modelled.
- CommentThreading.ExpandRevealsTarget: requires the same acyclic list as `VisibleComments`, because it speaks of the shown list.
- CommentThreading.ReplySuccessShowsThread: requires the same acyclic list as `VisibleComments`, because it speaks of the shown list.
- `Comment.kt` documents a maximum depth of 2, while the adapter reads `Constants.MAX_COMMENT_DEPTH` = 4. The model uses 4.
- Fields the record types carry but the modelled code never decides on (`isDeleted` is kept for the delete offer; `avatarSeed`, `authorUsername`, `onlyMyPosts` are kept as data only). `FilterCriteria.kt` in the repository has no `onlyMyPosts` field, which the presets dialog reads; the model gives the criteria that field.
- The `UserRepository` interface file declares an older signature set; the model follows `UserRepositoryImpl.kt`.
- `ProfileFragment` observes `viewModel.userProfile`, which `ProfileViewModel.kt` does not declare. The screen side is modelled as taking that profile as an input.
- UserRepository.GetUser: the branch where `toObject` returns null ("Kullanıcı verisi okunamadı.") is not modelled, because a present document always decodes in the model.
- AuthViewModel.Register: the branch "Kayıt başarılı ancak veri alınamadı" cannot be reached, because a user is only found when the account data is present. The model has no such state.
- LocaleHelper: `applyLocale`'s `Locale.setDefault`, configuration updates and the activity restart are side effects and are not modelled; which locale is applied is.
- The theme dialog's `recreate()` and the sign-out call are side effects and are not modelled.
- PostAdapter.SameContents: `Post.kt` is not part of this model, so the post record holds the ten fields the screens read (`imageUrl` and `location` included); any further field of the app's `Post`, which `oldItem == newItem` also compares, is not modelled.
- Post.kt, the map screen, the authentication repository, the Room type converters, the post repository and the other screens are not part of this model.

## Findings

| source | as written | input that shows it | evidently intended | confidence | as-written member | corrected member |
|---|---|---|---|---|---|---|
| app/src/main/java/io/github/thwisse/kentinsesi/ui/post/StatusUpdatesFragment.kt:64-67 | the author test `post?.authorId == user?.uid` is true when both sides are null, so with nobody signed in the status dialog opens whenever the post or its author id is missing | no signed-in user and no loaded post | only a signed-in official, admin or the post's author may open the dialog | not executed | StatusUpdates.CanUpdateAsWritten, StatusUpdates.UpdateStatusSelectedAsWritten (StatusUpdates.AsWrittenLetsAnonymousIn, StatusUpdates.AsWrittenMenuOpensForAnonymous) | StatusUpdates.CanUpdate, StatusUpdates.UpdateStatusSelected |

Two related label differences are recorded but are not bugs. The feed
(`PostAdapter.StatusLabel`) shows a rejected post's raw status code, while
the detail screen shows "Reddedildi" (`PostAdapter.FeedAndDetailLabels`). The
owner menu on the detail screen uses the same nullable equality
(`PostDetail.OwnerMenuSignedOut`): with nobody signed in, a post without an
author id gets the owner menu.

=== FILE: auth_view_model.dfy ===
/** The sign-in, registration and profile-completion flows of the auth
    view model. Each flow publishes a short sequence of states; the
    repository calls it makes are inputs (their results) or outputs (the
    requests it issues). */
module AuthViewModel {
  import opened Wrappers
  import opened UserRepository
  import SetupProfile

  /** What a successful sign-in returns; only the signed-in account's uid
      is read, and it may be absent. */
  datatype AuthResult = AuthResult(user: Option<string>)

  /** The states the sign-in and registration screens observe. */
  datatype AuthState = Idle | Loading | Success(authResult: AuthResult) | Error(message: string)

  const LoginNoData: string := "Giriş başarılı ancak veri alınamadı"
  const LoginFailed: string := "Giriş hatası"
  const ProfileFailed: string := "Profil hatası"
  const NoUserData: string := "Kullanıcı verisi alınamadı."
  const RegisterFailed: string := "Kayıt hatası"
  const NoSession: string := "Kullanıcı oturumu bulunamadı."

  /** Sign-in: `Loading` is published, then the repository's answer is
      mapped; an answer that is itself `Loading` publishes nothing more. */
  function Login(result: Resource<AuthResult>): (states: seq<AuthState>)
    ensures 1 <= |states| <= 2 && states[0] == AuthState.Loading
    ensures |states| == 1 <==> result.Loading?
    ensures (states[|states| - 1].Success?) <==> result.Success? && result.data.Some?
    ensures result.Success? && result.data.Some? ==> states[1] == AuthState.Success(result.data.value)
    ensures result == Resource.Success(None) ==> states[1] == AuthState.Error(LoginNoData)
    ensures result.Error? ==> states[1] == AuthState.Error(result.message.GetOr(LoginFailed))
  {
    match result
    case Success(Some(a)) => [AuthState.Loading, AuthState.Success(a)]
    case Success(None) => [AuthState.Loading, AuthState.Error(LoginNoData)]
    case Error(m) => [AuthState.Loading, AuthState.Error(m.GetOr(LoginFailed))]
    case Loading => [AuthState.Loading]
  }

  /** The profile document registration asks for. */
  datatype ProfileRequest = ProfileRequest(uid: string, fullName: string, email: string)

  /** The states registration publishes and the profile creation it asked
      for, if any. */
  datatype Registration = Registration(states: seq<AuthState>, request: Option<ProfileRequest>)

  /** Registration: `Loading`, then the account is created; with an account
      in hand its profile is created with an empty name, and the flow
      succeeds only when both steps do. The branch for a success without
      data after profile creation cannot be reached, because a user was
      read from that very data; it is left out. */
  function Register(email: string, authResult: Resource<AuthResult>, profileResult: Resource<()>): (r: Registration)
    ensures 1 <= |r.states| <= 2 && r.states[0] == AuthState.Loading
    ensures (r.request.Some?
             <==> authResult.Success? && authResult.data.Some? && authResult.data.value.user.Some?)
    ensures r.request.Some? ==> r.request.value == ProfileRequest(authResult.data.value.user.value, "", email)
    ensures r.states[|r.states| - 1].Success? <==> r.request.Some? && profileResult.Success?
    ensures r.states[|r.states| - 1].Success? ==> r.states[1] == AuthState.Success(authResult.data.value)
    ensures authResult.Error? ==> r.states == [AuthState.Loading, AuthState.Error(authResult.message.GetOr(RegisterFailed))]
    ensures (authResult.Success? && r.request.None?) ==> r.states == [AuthState.Loading, AuthState.Error(NoUserData)]
    ensures (r.request.Some? && profileResult.Error?
             ==> r.states == [AuthState.Loading, AuthState.Error(profileResult.message.GetOr(ProfileFailed))])
  {
    match authResult
    case Success(Some(a)) =>
      (match a.user
       case Some(uid) =>
         var req := Some(ProfileRequest(uid, "", email));
         (match profileResult
          case Success(_) => Registration([AuthState.Loading, AuthState.Success(a)], req)
          case Error(m) => Registration([AuthState.Loading, AuthState.Error(m.GetOr(ProfileFailed))], req)
          case Loading => Registration([AuthState.Loading], req))
       case None => Registration([AuthState.Loading, AuthState.Error(NoUserData)], None))
    case Success(None) => Registration([AuthState.Loading, AuthState.Error(NoUserData)], None)
    case Error(m) => Registration([AuthState.Loading, AuthState.Error(m.GetOr(RegisterFailed))], None)
    case Loading => Registration([AuthState.Loading], None)
  }

  /** The states profile completion publishes and the store after it. */
  datatype Completion = Completion(states: seq<Resource<()>>, store: Store)

  /** Profile completion: `Loading`, then the repository's answer for the
      signed-in user, or an error and no write when nobody is signed in. */
  function CompleteProfile(currentUser: Option<string>, st: Store, fullName: string, username: string,
                           city: string, district: string, avatarSeed: string): (c: Completion)
    ensures |c.states| == 2 && c.states[0] == Resource.Loading
    ensures currentUser.None? ==> c.states[1] == Fail(NoSession) && c.store == st
    ensures (currentUser.Some?
             ==> var o := UpdateUserProfile(st, currentUser.value, username,
                                            ProfileInput(fullName, city, district, avatarSeed));
                 c.states[1] == o.result && c.store == o.store)
  {
    match currentUser
    case None => Completion([Resource.Loading, Fail(NoSession)], st)
    case Some(uid) =>
      var o := UpdateUserProfile(st, uid, username, ProfileInput(fullName, city, district, avatarSeed));
      Completion([Resource.Loading, o.result], o.store)
  }

  /** Completing a profile keeps every username registered to its owner. */
  lemma CompletePreservesConsistent(currentUser: Option<string>, st: Store, fullName: string, username: string,
                                    city: string, district: string, avatarSeed: string)
    requires Consistent(st)
    ensures Consistent(CompleteProfile(currentUser, st, fullName, username, city, district, avatarSeed).store)
  {
    if currentUser.Some? {
      UpdatePreservesConsistent(st, currentUser.value, username, ProfileInput(fullName, city, district, avatarSeed));
    }
  }

  /** A new account whose set-up form is accepted completes its profile,
      provided nobody else holds the chosen name: registration creates a
      document without a username, and the form only submits names the
      repository accepts. */
  lemma {:induction false} NewAccountCompletesProfile(st: Store, email: string, a: AuthResult,
                                                      f: SetupProfile.Form, av: SetupProfile.Avatar, spare: string)
    requires a.user.Some?
    requires SetupProfile.Save(f, av, spare).Submit?
    requires SetupProfile.Save(f, av, spare).username !in st.usernames
    ensures var reg := Register(email, Done(a), Done(()));
      var req := reg.request.value;
      var st' := CreateUserProfile(st, req.uid, req.fullName, req.email).store;
      var s := SetupProfile.Save(f, av, spare);
      CompleteProfile(Some(req.uid), st', s.fullName, s.username, s.city, s.district, s.avatarSeed).states[1]
        == Done(())
  {
    var req := Register(email, Done(a), Done(())).request.value;
    var s := SetupProfile.Save(f, av, spare);
    var st' := CreateUserProfile(st, req.uid, req.fullName, req.email).store;
    SetupProfile.SubmittedNameAccepted(f, av, spare, st', req.uid);
    CreatedUserCanClaim(st, req.uid, req.fullName, req.email, s.username,
                        ProfileInput(s.fullName, s.city, s.district, s.avatarSeed));
  }
}

=== FILE: authorization.dfy ===
/** Role-based permission checks over a possibly absent current user. */
module Authorization {
  import opened Wrappers
  import opened Constants
  import opened Model
  import UserRole

  /** Official or admin; false without a user. */
  function IsOfficial(user: Option<User>): (r: bool)
    ensures r <==> user.Some? && (user.value.role == RoleOfficial || user.value.role == RoleAdmin)
  {
    user.Some? && user.value.IsOfficial()
  }

  function IsAdmin(user: Option<User>): (r: bool)
    ensures r <==> user.Some? && user.value.role == RoleAdmin
  {
    user.Some? && user.value.IsAdmin()
  }

  /** A citizen is any user whose role is neither official nor admin. */
  function IsCitizen(user: Option<User>): (r: bool)
    ensures r <==> user.Some? && user.value.role != RoleOfficial && user.value.role != RoleAdmin
  {
    user.Some? && user.value.RoleEnum() == UserRole.Citizen
  }

  /** Only officials and admins may change a post's status. */
  function CanUpdatePostStatus(user: Option<User>): (r: bool)
    ensures r <==> IsOfficial(user)
    ensures IsAdmin(user) ==> r
  {
    IsOfficial(user)
  }

  /** The author may delete their own post and an admin any post; nobody may
      when the user or the author is unknown. */
  function CanDeletePost(user: Option<User>, postAuthorId: Option<string>): (r: bool)
    ensures user.None? || postAuthorId.None? ==> !r
    ensures user.Some? && postAuthorId.Some? ==> (r <==> user.value.uid == postAuthorId.value || IsAdmin(user))
  {
    if user.None? || postAuthorId.None? then false
    else user.value.uid == postAuthorId.value || IsAdmin(user)
  }

  /** Any signed-in user with a uid may post. */
  function CanCreatePost(user: Option<User>): (r: bool)
    ensures r <==> user.Some? && user.value.uid != []
  {
    user.Some? && |user.value.uid| > 0
  }

  /** Admins count as officials. */
  lemma AdminIsOfficial(user: Option<User>)
    ensures IsAdmin(user) ==> IsOfficial(user)
  {
  }

  /** A present user is exactly one of citizen and official; an absent one is
      neither and may do nothing. */
  lemma RolesPartition(user: Option<User>)
    ensures user.Some? ==> (IsCitizen(user) <==> !IsOfficial(user))
    ensures user.None? ==>
              !IsCitizen(user) && !IsOfficial(user) && !IsAdmin(user) && !CanCreatePost(user) && !CanUpdatePostStatus(user)
  {
  }
}

=== FILE: comment_adapter.dfy ===
/** The comment list row: reply gating by depth, indentation, the
    "replying to" label and list identity. */
module CommentAdapter {
  import opened Wrappers
  import opened Text
  import opened Model
  import Constants

  /** The reply button is offered below the maximum depth. */
  function CanReply(c: Comment): (b: bool)
    ensures b <==> c.depth < Constants.MaxCommentDepth
  {
    c.depth < Constants.MaxCommentDepth
  }

  /** Tapping reply hands the comment to the reply callback only when
      replying is allowed. */
  function ReplyClicked(c: Comment): (r: Option<Comment>)
    ensures r.Some? <==> CanReply(c)
    ensures r.Some? ==> r.value == c
  {
    if CanReply(c) then Some(c) else None
  }

  /** The indentation level: the depth clamped to 0..MaxCommentDepth
      (`coerceIn`). */
  function IndentLevel(depth: int): (r: nat)
    ensures r <= Constants.MaxCommentDepth
    ensures 0 <= depth <= Constants.MaxCommentDepth ==> r == depth
    ensures depth < 0 ==> r == 0
    ensures depth > Constants.MaxCommentDepth ==> r == Constants.MaxCommentDepth
  {
    if depth < 0 then 0
    else if depth > Constants.MaxCommentDepth then Constants.MaxCommentDepth
    else depth
  }

  /** Deeper comments are never indented less. */
  lemma IndentMonotone(a: int, b: int)
    requires a <= b
    ensures IndentLevel(a) <= IndentLevel(b)
  {
  }

  /** The "replying to" label: shown with the author's name when that name
      is not blank, hidden and empty otherwise. */
  function ReplyingToLabel(c: Comment): (r: (bool, string))
    ensures r.0 <==> c.replyToAuthorName.Some? && !IsBlank(c.replyToAuthorName.value)
    ensures r.0 ==> r.1 == c.replyToAuthorName.value + " kişisine yanıt"
    ensures !r.0 ==> r.1 == []
  {
    match c.replyToAuthorName
    case Some(n) =>
      if IsBlank(n) then (false, []) else (true, n + " kişisine yanıt")
    case None => (false, [])
  }

  /** List identity: both ids non-blank and equal. */
  function AreItemsTheSame(a: Comment, b: Comment): bool {
    !IsBlank(a.id) && !IsBlank(b.id) && a.id == b.id
  }

  /** Content sameness is record equality. */
  function AreContentsTheSame(a: Comment, b: Comment): bool {
    a == b
  }

  /** Identity is symmetric, and a comment is the same item as itself
      exactly when its id is not blank: blank ids never match. */
  lemma ItemIdentity(a: Comment, b: Comment)
    ensures AreItemsTheSame(a, b) <==> AreItemsTheSame(b, a)
    ensures AreItemsTheSame(a, a) <==> !IsBlank(a.id)
    ensures AreItemsTheSame(a, b) ==> a.id == b.id
    ensures IsBlank(a.id) ==> !AreItemsTheSame(a, b)
  {
  }

  /** Equal contents imply the same item unless the id is blank. */
  lemma ContentsImplyIdentity(a: Comment, b: Comment)
    requires AreContentsTheSame(a, b)
    ensures AreItemsTheSame(a, b) <==> !IsBlank(a.id)
  {
  }
}

=== FILE: comment_threading.dfy ===
/** The comment thread screen: which comments are shown given the set of
    expanded comment ids, how many replies each comment has, how a reply
    chain is expanded after posting a reply, and the reply-mode composer. */
module CommentThreading {
  import opened Wrappers
  import opened Text
  import opened Model
  import opened Sequences

  // ---------------------------------------------------------------------
  // Parent lookup
  // ---------------------------------------------------------------------

  /** The comment names a parent: its parent id is neither null nor blank. */
  predicate HasParentRef(c: Comment) {
    c.parentCommentId.Some? && !IsBlank(c.parentCommentId.value)
  }

  /** The id-to-comment index built with `associateBy`: when several
      comments share an id, the LAST one wins. */
  function Lookup(cs: seq<Comment>, id: string): (r: Option<nat>)
    ensures r.Some? ==> r.value < |cs| && cs[r.value].id == id
    ensures r.Some? ==> forall k :: r.value < k < |cs| ==> cs[k].id != id
    ensures r.None? <==> forall k :: 0 <= k < |cs| ==> cs[k].id != id
  {
    if |cs| == 0 then None
    else if cs[|cs| - 1].id == id then Some(|cs| - 1)
    else Lookup(cs[..|cs| - 1], id)
  }

  /** Position of the comment that `c`'s parent reference resolves to. */
  function Parent(cs: seq<Comment>, c: Comment): (r: Option<nat>)
    ensures r.Some? ==> r.value < |cs|
  {
    if HasParentRef(c) then Lookup(cs, c.parentCommentId.value) else None
  }

  /** The number of parent steps from `c` until its chain ends, counting at
      most `fuel` steps. */
  function Height(cs: seq<Comment>, c: Comment, fuel: nat): nat
    decreases fuel
  {
    if fuel == 0 then 0
    else
      match Parent(cs, c)
      case None => 0
      case Some(j) => 1 + Height(cs, cs[j], fuel - 1)
  }

  /** `c`'s parent chain ends: within `|cs| + 1` steps it reaches a comment
      naming no parent or a parent missing from the list. A chain that runs
      longer visits some comment of the list twice, so it is a cycle, and
      the screen's recursion along it never returns. */
  predicate ChainEnds(cs: seq<Comment>, c: Comment) {
    AncestorAt(cs, c, |cs| + 1).None?
  }

  /** No parent chain of the fetched list runs in a cycle. */
  predicate WellFormed(cs: seq<Comment>) {
    forall c | c in cs :: ChainEnds(cs, c)
  }

  /** Once a chain has ended it stays ended. */
  lemma {:induction false} EndedStaysEnded(cs: seq<Comment>, c: Comment, m: nat)
    requires AncestorAt(cs, c, m).None?
    ensures AncestorAt(cs, c, m + 1).None?
    decreases m
  {
    if m > 0 {
      match Parent(cs, c)
      case None =>
      case Some(j) => EndedStaysEnded(cs, cs[j], m - 1);
    }
  }

  /** Past the end of the chain, more fuel does not change the height. */
  lemma {:induction false} HeightStable(cs: seq<Comment>, c: Comment, m: nat, f: nat)
    requires AncestorAt(cs, c, m).None? && m <= f
    ensures Height(cs, c, f) == Height(cs, c, m)
    decreases m
  {
    if m > 0 {
      match Parent(cs, c)
      case None =>
      case Some(j) => HeightStable(cs, cs[j], m - 1, f - 1);
    }
  }

  /** One step up a chain that ends: the parent's chain ends too, and it is
      strictly shorter. This is the termination argument of every walk up
      the chain. */
  lemma ParentStep(cs: seq<Comment>, c: Comment, j: nat)
    requires ChainEnds(cs, c) && Parent(cs, c) == Some(j)
    ensures ChainEnds(cs, cs[j])
    ensures Height(cs, cs[j], |cs| + 1) < Height(cs, c, |cs| + 1)
  {
    var n := |cs| + 1;
    assert AncestorAt(cs, cs[j], n - 1) == AncestorAt(cs, c, n);
    EndedStaysEnded(cs, cs[j], n - 1);
    HeightStable(cs, cs[j], n - 1, n);
  }

  // ---------------------------------------------------------------------
  // Visibility
  // ---------------------------------------------------------------------

  /** Walking up from `c`, within `fuel` calls the screen's recursion meets
      a comment naming no parent, a parent missing from the list, or a
      collapsed parent: a place where it answers without recursing. */
  predicate StopsWithin(cs: seq<Comment>, expanded: set<string>, c: Comment, fuel: nat)
    decreases fuel
  {
    fuel > 0 &&
    (!HasParentRef(c) ||
     match Parent(cs, c)
     case None => true
     case Some(j) => cs[j].id !in expanded || StopsWithin(cs, expanded, cs[j], fuel - 1))
  }

  /** The recursion of the visibility rule returns on `c`. Every call past
      the first is on a comment of the list, so a walk that has not stopped
      after `|cs| + 1` calls has repeated a comment and runs in a cycle of
      expanded comments for ever. A chain that ends always stops. */
  predicate Returns(cs: seq<Comment>, expanded: set<string>, c: Comment) {
    ChainEnds(cs, c) || StopsWithin(cs, expanded, c, |cs| + 1)
  }

  /** The number of recursive calls the visibility rule makes on `c`,
      counting at most `fuel`. */
  function StopHeight(cs: seq<Comment>, expanded: set<string>, c: Comment, fuel: nat): nat
    decreases fuel
  {
    if fuel == 0 || !HasParentRef(c) then 0
    else
      match Parent(cs, c)
      case None => 0
      case Some(j) => if cs[j].id !in expanded then 0 else 1 + StopHeight(cs, expanded, cs[j], fuel - 1)
  }

  lemma {:induction false} StopsMonotone(cs: seq<Comment>, expanded: set<string>, c: Comment, m: nat)
    requires StopsWithin(cs, expanded, c, m)
    ensures StopsWithin(cs, expanded, c, m + 1)
    decreases m
  {
    if HasParentRef(c) {
      match Parent(cs, c)
      case None =>
      case Some(j) =>
        if cs[j].id in expanded {
          StopsMonotone(cs, expanded, cs[j], m - 1);
        }
    }
  }

  lemma {:induction false} StopHeightStable(cs: seq<Comment>, expanded: set<string>, c: Comment, m: nat, f: nat)
    requires StopsWithin(cs, expanded, c, m) && m <= f
    ensures StopHeight(cs, expanded, c, f) == StopHeight(cs, expanded, c, m)
    decreases m
  {
    if HasParentRef(c) {
      match Parent(cs, c)
      case None =>
      case Some(j) =>
        if cs[j].id in expanded {
          StopHeightStable(cs, expanded, cs[j], m - 1, f - 1);
        }
    }
  }

  /** A chain that ends within `k` steps stops the recursion within `k` calls. */
  lemma {:induction false} EndedStops(cs: seq<Comment>, expanded: set<string>, c: Comment, k: nat)
    requires AncestorAt(cs, c, k).None?
    ensures StopsWithin(cs, expanded, c, k)
    decreases k
  {
    match Parent(cs, c)
    case None =>
    case Some(j) =>
      if cs[j].id in expanded {
        EndedStops(cs, expanded, cs[j], k - 1);
      }
  }

  /** One recursive call of the visibility rule: the recursion still returns
      on the expanded parent, after strictly fewer calls. */
  lemma ReturnStep(cs: seq<Comment>, expanded: set<string>, c: Comment, j: nat)
    requires Returns(cs, expanded, c) && HasParentRef(c) && Parent(cs, c) == Some(j) && cs[j].id in expanded
    ensures StopsWithin(cs, expanded, cs[j], |cs| + 1)
    ensures StopHeight(cs, expanded, cs[j], |cs| + 1) < StopHeight(cs, expanded, c, |cs| + 1)
  {
    var n := |cs| + 1;
    if ChainEnds(cs, c) {
      EndedStops(cs, expanded, c, n);
    }
    assert StopsWithin(cs, expanded, cs[j], n - 1);
    StopsMonotone(cs, expanded, cs[j], n - 1);
    StopHeightStable(cs, expanded, cs[j], n - 1, n);
  }

  /** The screen's visibility rule: a top-level comment is always shown; a
      reply is shown when its parent exists, is expanded and is shown. The
      parent's expansion is tested before the recursive call, so a chain that
      runs into a collapsed comment is answered even when it is a cycle. */
  function IsVisible(cs: seq<Comment>, expanded: set<string>, c: Comment): bool
    requires Returns(cs, expanded, c)
    decreases StopHeight(cs, expanded, c, |cs| + 1)
  {
    if !HasParentRef(c) then true
    else
      match Parent(cs, c)
      case None => false
      case Some(j) =>
        if cs[j].id !in expanded then false
        else
          ReturnStep(cs, expanded, c, j);
          IsVisible(cs, expanded, cs[j])
  }

  /** Two replies naming each other, one of them collapsed: the chain is a
      cycle, yet the rule answers that the reply is hidden. */
  lemma CollapsedCycleAnswers(cs: seq<Comment>, expanded: set<string>, a: Comment, b: Comment)
    requires cs == [a, b] && a.id != b.id && !IsBlank(a.id) && !IsBlank(b.id)
    requires a.parentCommentId == Some(b.id) && b.parentCommentId == Some(a.id)
    requires b.id !in expanded
    ensures !ChainEnds(cs, a)
    ensures Returns(cs, expanded, a) && !IsVisible(cs, expanded, a)
  {
    assert Lookup(cs, b.id) == Some(1);
    assert Lookup(cs[..1], a.id) == Some(0);
    assert Lookup(cs, a.id) == Some(0);
    assert Parent(cs, a) == Some(1) && Parent(cs, b) == Some(0);
    assert AncestorAt(cs, a, 1) == AncestorAt(cs, b, 0);
    assert AncestorAt(cs, b, 1) == AncestorAt(cs, a, 0);
    assert AncestorAt(cs, a, 2) == AncestorAt(cs, b, 1);
    assert AncestorAt(cs, a, 3) == AncestorAt(cs, b, 2);
    assert AncestorAt(cs, b, 2) == AncestorAt(cs, a, 1);
  }

  /** The visible comments among the first `n` of the list, in list order. */
  function VisibleIn(cs: seq<Comment>, expanded: set<string>, n: nat): (r: seq<Comment>)
    requires WellFormed(cs) && n <= |cs|
    ensures IsSubsequence(r, cs[..n])
    ensures forall c :: c in r ==> c in cs[..n]
    ensures forall i :: 0 <= i < n ==> (cs[i] in r <==> IsVisible(cs, expanded, cs[i]))
  {
    if n == 0 then []
    else
      var pre := VisibleIn(cs, expanded, n - 1);
      var c := cs[n - 1];
      assert cs[..n] == cs[..n - 1] + [c];
      SubsequenceSnoc(pre, cs[..n - 1], c);
      if IsVisible(cs, expanded, c) then pre + [c] else pre
  }

  /** `updateCommentList`'s filter: the visible comments, in fetched order. */
  function VisibleComments(cs: seq<Comment>, expanded: set<string>): (r: seq<Comment>)
    requires WellFormed(cs)
    ensures IsSubsequence(r, cs)
    ensures forall c :: c in r <==> c in cs && IsVisible(cs, expanded, c)
  {
    var r := VisibleIn(cs, expanded, |cs|);
    assert cs[..|cs|] == cs;
    r
  }

  /** A top-level comment is shown whatever the expanded set holds. */
  lemma TopLevelAlwaysVisible(cs: seq<Comment>, expanded: set<string>, c: Comment)
    requires WellFormed(cs) && c in cs && !HasParentRef(c)
    ensures IsVisible(cs, expanded, c)
    ensures c in VisibleComments(cs, expanded)
  {
  }

  /** No two comments in the list share an id. */
  predicate UniqueIds(cs: seq<Comment>) {
    forall i, j :: 0 <= i < j < |cs| ==> cs[i].id != cs[j].id
  }

  /** A reply is hidden when its parent is missing or collapsed; when it is
      shown, some entry carrying its parent id is shown. With unique ids the
      rule is an equivalence: shown iff the parent is present, expanded and
      itself shown. */
  lemma ReplyVisibility(cs: seq<Comment>, expanded: set<string>, c: Comment)
    requires WellFormed(cs) && c in cs && HasParentRef(c)
    ensures (forall k :: 0 <= k < |cs| ==> cs[k].id != c.parentCommentId.value) ==> !IsVisible(cs, expanded, c)
    ensures c.parentCommentId.value !in expanded ==> !IsVisible(cs, expanded, c)
    ensures IsVisible(cs, expanded, c) ==>
      exists j :: 0 <= j < |cs| && cs[j].id == c.parentCommentId.value && IsVisible(cs, expanded, cs[j])
    ensures UniqueIds(cs) ==>
      (IsVisible(cs, expanded, c) <==>
        exists j :: 0 <= j < |cs| && cs[j].id == c.parentCommentId.value
                    && c.parentCommentId.value in expanded && IsVisible(cs, expanded, cs[j]))
  {
    match Parent(cs, c)
    case None =>
    case Some(j) =>
      assert cs[j].id == c.parentCommentId.value;
      if IsVisible(cs, expanded, c) {
        assert IsVisible(cs, expanded, cs[j]);
      }
  }

  // ---------------------------------------------------------------------
  // The ancestor chain: an independent description of visibility
  // ---------------------------------------------------------------------

  /** The `k`-th ancestor of `c` (0 is `c` itself), or `None` once the chain
      reaches a top-level comment or a parent missing from the list. */
  function AncestorAt(cs: seq<Comment>, c: Comment, k: nat): Option<Comment>
    decreases k
  {
    if k == 0 then Some(c)
    else
      match Parent(cs, c)
      case None => None
      case Some(j) => AncestorAt(cs, cs[j], k - 1)
  }

  /** `a` names no parent, or its parent is present and expanded. */
  predicate ParentOpen(cs: seq<Comment>, expanded: set<string>, a: Comment) {
    !HasParentRef(a) || (Parent(cs, a).Some? && cs[Parent(cs, a).value].id in expanded)
  }

  /** Every ancestor of `c` (and `c` itself) that names a parent has that
      parent present and expanded. */
  ghost predicate ChainOpen(cs: seq<Comment>, expanded: set<string>, c: Comment) {
    forall k: nat :: AncestorAt(cs, c, k).Some? ==> ParentOpen(cs, expanded, AncestorAt(cs, c, k).value)
  }

  /** Every ancestor of `c` that names a parent finds it in the list. */
  ghost predicate ChainComplete(cs: seq<Comment>, c: Comment) {
    forall k: nat :: AncestorAt(cs, c, k).Some? && HasParentRef(AncestorAt(cs, c, k).value) ==>
      Parent(cs, AncestorAt(cs, c, k).value).Some?
  }

  /** `x` is the id of `c` or of one of its ancestors. */
  ghost predicate InChain(cs: seq<Comment>, c: Comment, x: string) {
    exists k: nat :: AncestorAt(cs, c, k).Some? && AncestorAt(cs, c, k).value.id == x
  }

  /** The recursive rule agrees with the chain description: a comment is
      visible exactly when every ancestor step is present and expanded. */
  lemma {:induction false} VisibleIffChainOpen(cs: seq<Comment>, expanded: set<string>, c: Comment)
    requires ChainEnds(cs, c)
    ensures IsVisible(cs, expanded, c) <==> ChainOpen(cs, expanded, c)
    decreases Height(cs, c, |cs| + 1)
  {
    assert AncestorAt(cs, c, 0) == Some(c);
    if !HasParentRef(c) {
      forall k: nat | AncestorAt(cs, c, k).Some?
        ensures ParentOpen(cs, expanded, AncestorAt(cs, c, k).value)
      {
        assert k == 0;
      }
    } else {
      match Parent(cs, c)
      case None =>
      case Some(j) =>
        var p := cs[j];
        ParentStep(cs, c, j);
        VisibleIffChainOpen(cs, expanded, p);
        forall k: nat ensures AncestorAt(cs, c, k + 1) == AncestorAt(cs, p, k) {
        }
        if IsVisible(cs, expanded, c) {
          forall k: nat | AncestorAt(cs, c, k).Some?
            ensures ParentOpen(cs, expanded, AncestorAt(cs, c, k).value)
          {
            if k > 0 {
              assert AncestorAt(cs, c, k) == AncestorAt(cs, p, k - 1);
            }
          }
        }
        if ChainOpen(cs, expanded, c) {
          forall k: nat | AncestorAt(cs, p, k).Some?
            ensures ParentOpen(cs, expanded, AncestorAt(cs, p, k).value)
          {
            assert AncestorAt(cs, c, k + 1) == AncestorAt(cs, p, k);
          }
        }
    }
  }

  /** One more step up the chain is the parent of the current ancestor. */
  lemma {:induction false} AncestorStep(cs: seq<Comment>, c: Comment, k: nat)
    requires AncestorAt(cs, c, k).Some?
    decreases k
    ensures AncestorAt(cs, c, k + 1) ==
      (match Parent(cs, AncestorAt(cs, c, k).value)
       case None => None
       case Some(j) => Some(cs[j]))
  {
    if k > 0 {
      match Parent(cs, c)
      case None =>
      case Some(j) => AncestorStep(cs, cs[j], k - 1);
    }
  }

  // ---------------------------------------------------------------------
  // Expanding and collapsing
  // ---------------------------------------------------------------------

  /** `toggleCommentExpansion`: flips the membership of one id. */
  function Toggle(expanded: set<string>, id: string): (r: set<string>)
    ensures id in r <==> id !in expanded
    ensures forall x :: x != id ==> (x in r <==> x in expanded)
  {
    if id in expanded then expanded - {id} else expanded + {id}
  }

  /** Toggling the same id twice restores the set. */
  lemma ToggleTwice(expanded: set<string>, id: string)
    ensures Toggle(Toggle(expanded, id), id) == expanded
  {
  }

  /** `expandParentChain`: adds the comment's id, then walks up through
      parents found in the list, stopping quietly at a missing parent. The
      starting comment need not be in the list. */
  function ExpandParentChain(cs: seq<Comment>, expanded: set<string>, c: Comment): (r: set<string>)
    requires ChainEnds(cs, c)
    ensures expanded <= r && c.id in r
    decreases Height(cs, c, |cs| + 1)
  {
    var e := expanded + {c.id};
    match Parent(cs, c)
    case None => e
    case Some(j) =>
      ParentStep(cs, c, j);
      ExpandParentChain(cs, e, cs[j])
  }

  /** What `expandParentChain` adds is exactly the ids on the chain. */
  lemma {:induction false} ExpandAddsChain(cs: seq<Comment>, expanded: set<string>, c: Comment)
    requires ChainEnds(cs, c)
    ensures forall x :: x in ExpandParentChain(cs, expanded, c) <==> x in expanded || InChain(cs, c, x)
    decreases Height(cs, c, |cs| + 1)
  {
    var e := expanded + {c.id};
    assert AncestorAt(cs, c, 0) == Some(c);
    match Parent(cs, c)
    case None =>
      forall x | InChain(cs, c, x) ensures x == c.id {
        var k: nat :| AncestorAt(cs, c, k).Some? && AncestorAt(cs, c, k).value.id == x;
        assert k == 0;
      }
    case Some(j) =>
      var p := cs[j];
      ParentStep(cs, c, j);
      ExpandAddsChain(cs, e, p);
      forall x ensures InChain(cs, c, x) <==> x == c.id || InChain(cs, p, x) {
        if InChain(cs, p, x) {
          var k: nat :| AncestorAt(cs, p, k).Some? && AncestorAt(cs, p, k).value.id == x;
          assert AncestorAt(cs, c, k + 1) == AncestorAt(cs, p, k);
        }
        if InChain(cs, c, x) && x != c.id {
          var k: nat :| AncestorAt(cs, c, k).Some? && AncestorAt(cs, c, k).value.id == x;
          assert k > 0 && AncestorAt(cs, c, k) == AncestorAt(cs, p, k - 1);
        }
      }
  }

  /** `c` is a direct reply to `t`: its parent reference resolves to `t`. */
  predicate IsChildOf(cs: seq<Comment>, c: Comment, t: Comment) {
    match Parent(cs, c)
    case Some(j) => cs[j] == t
    case None => false
  }

  /** The purpose of `expandParentChain`: once the whole chain above the
      reply target is in the list, the target and all its direct replies
      are visible after expanding. */
  lemma ExpandRevealsTarget(cs: seq<Comment>, expanded: set<string>, t: Comment)
    requires WellFormed(cs) && t in cs && ChainComplete(cs, t)
    ensures IsVisible(cs, ExpandParentChain(cs, expanded, t), t)
    ensures forall c | c in cs && IsChildOf(cs, c, t) :: IsVisible(cs, ExpandParentChain(cs, expanded, t), c)
  {
    var e := ExpandParentChain(cs, expanded, t);
    ExpandAddsChain(cs, expanded, t);
    forall k: nat | AncestorAt(cs, t, k).Some?
      ensures ParentOpen(cs, e, AncestorAt(cs, t, k).value)
    {
      var a := AncestorAt(cs, t, k).value;
      if HasParentRef(a) {
        var j := Parent(cs, a).value;
        AncestorStep(cs, t, k);
        assert InChain(cs, t, cs[j].id);
      }
    }
    VisibleIffChainOpen(cs, e, t);
    assert AncestorAt(cs, t, 0) == Some(t);
    assert InChain(cs, t, t.id);
  }

  // ---------------------------------------------------------------------
  // Child counts
  // ---------------------------------------------------------------------

  /** Number of comments whose (non-blank) parent id is `p`. */
  function CountChildren(cs: seq<Comment>, p: string): nat {
    if |cs| == 0 then 0
    else
      var c := cs[|cs| - 1];
      CountChildren(cs[..|cs| - 1], p) + (if HasParentRef(c) && c.parentCommentId.value == p then 1 else 0)
  }

  /** Number of comments that name a parent. */
  function Replies(cs: seq<Comment>): nat {
    if |cs| == 0 then 0
    else Replies(cs[..|cs| - 1]) + (if HasParentRef(cs[|cs| - 1]) then 1 else 0)
  }

  /** `childCountMap`: per parent id, how many comments name it. Ids nobody
      names are absent. */
  function ChildCounts(cs: seq<Comment>): (m: map<string, nat>)
    ensures forall p :: p in m <==> CountChildren(cs, p) > 0
    ensures forall p :: p in m ==> m[p] == CountChildren(cs, p)
  {
    if |cs| == 0 then map[]
    else
      var m := ChildCounts(cs[..|cs| - 1]);
      var c := cs[|cs| - 1];
      if HasParentRef(c) then
        var p := c.parentCommentId.value;
        m[p := (if p in m then m[p] else 0) + 1]
      else m
  }

  /** The parent ids named in the list, each once, in order of first use. */
  function ParentIds(cs: seq<Comment>): seq<string> {
    if |cs| == 0 then []
    else
      var ks := ParentIds(cs[..|cs| - 1]);
      var c := cs[|cs| - 1];
      if HasParentRef(c) && c.parentCommentId.value !in ks then ks + [c.parentCommentId.value] else ks
  }

  ghost predicate Distinct<T>(xs: seq<T>) {
    forall i, j :: 0 <= i < j < |xs| ==> xs[i] != xs[j]
  }

  /** Sum of `m`'s values over the keys `ks`. */
  function SumValues(m: map<string, nat>, ks: seq<string>): nat
    requires forall k :: k in ks ==> k in m
  {
    if |ks| == 0 then 0 else SumValues(m, ks[..|ks| - 1]) + m[ks[|ks| - 1]]
  }

  /** Sum of the child counts over the ids `ks`. */
  function SumCounts(cs: seq<Comment>, ks: seq<string>): nat {
    if |ks| == 0 then 0 else SumCounts(cs, ks[..|ks| - 1]) + CountChildren(cs, ks[|ks| - 1])
  }

  function Occurrences(ks: seq<string>, p: string): nat {
    if |ks| == 0 then 0 else Occurrences(ks[..|ks| - 1], p) + (if ks[|ks| - 1] == p then 1 else 0)
  }

  lemma {:induction false} OccurrencesDistinct(ks: seq<string>, p: string)
    requires Distinct(ks)
    ensures Occurrences(ks, p) == if p in ks then 1 else 0
  {
    if |ks| > 0 {
      var pre := ks[..|ks| - 1];
      assert ks == pre + [ks[|ks| - 1]];
      OccurrencesDistinct(pre, p);
    }
  }

  /** Appending one comment adds its parent's occurrences to the sum. */
  lemma {:induction false} SumCountsSnoc(cs: seq<Comment>, ks: seq<string>)
    requires |cs| > 0
    ensures var c := cs[|cs| - 1];
      SumCounts(cs, ks) == SumCounts(cs[..|cs| - 1], ks)
        + (if HasParentRef(c) then Occurrences(ks, c.parentCommentId.value) else 0)
  {
    if |ks| > 0 {
      SumCountsSnoc(cs, ks[..|ks| - 1]);
    }
  }

  lemma {:induction false} SumValuesIsSumCounts(cs: seq<Comment>, ks: seq<string>)
    requires forall k :: k in ks ==> k in ChildCounts(cs)
    ensures SumValues(ChildCounts(cs), ks) == SumCounts(cs, ks)
  {
    if |ks| > 0 {
      SumValuesIsSumCounts(cs, ks[..|ks| - 1]);
    }
  }

  lemma {:induction false} ParentIdsCount(cs: seq<Comment>)
    ensures Distinct(ParentIds(cs))
    ensures forall p :: p in ParentIds(cs) <==> CountChildren(cs, p) > 0
    ensures SumCounts(cs, ParentIds(cs)) == Replies(cs)
  {
    if |cs| > 0 {
      var pre := cs[..|cs| - 1];
      var c := cs[|cs| - 1];
      var ks := ParentIds(pre);
      ParentIdsCount(pre);
      SumCountsSnoc(cs, ParentIds(cs));
      if HasParentRef(c) {
        var q := c.parentCommentId.value;
        if q in ks {
          OccurrencesDistinct(ks, q);
        } else {
          var ks' := ks + [q];
          assert ks'[..|ks'| - 1] == ks;
          SumCountsSnoc(cs, ks);
          OccurrencesDistinct(ks, q);
          OccurrencesDistinct(ks', q);
        }
      }
    }
  }

  /** The child counts cover each named parent once and add up to the
      number of replies: top-level comments contribute nothing. */
  lemma ChildCountsSumToReplies(cs: seq<Comment>)
    ensures Distinct(ParentIds(cs))
    ensures forall p :: p in ParentIds(cs) <==> p in ChildCounts(cs)
    ensures SumValues(ChildCounts(cs), ParentIds(cs)) == Replies(cs)
  {
    ParentIdsCount(cs);
    SumValuesIsSumCounts(cs, ParentIds(cs));
  }

  // ---------------------------------------------------------------------
  // The composer and reply mode
  // ---------------------------------------------------------------------

  /** The screen state this module tracks: the text field, the comment being
      replied to, the reply banner and the expanded ids. */
  datatype Screen = Screen(
    input: string,
    replyingTo: Option<Comment>,
    bannerVisible: bool,
    bannerText: string,
    expanded: set<string>)

  /** A call the screen makes to the post view-model. */
  datatype SendRequest =
    | NoRequest
    | AddComment(postId: string, text: string)
    | AddReply(postId: string, text: string, parentCommentId: string,
               replyToAuthorId: string, replyToAuthorFullName: string)

  /** The send button is enabled while the text is not blank. */
  function SendEnabled(s: Screen): (b: bool)
    ensures b <==> Trim(s.input) != []
  {
    !IsBlank(s.input)
  }

  /** Tapping send: the trimmed text goes out as a reply when a target is
      set and as a top-level comment otherwise; empty text sends nothing. */
  function SendClicked(s: Screen, postId: string): (r: (SendRequest, Screen))
    ensures r.0.NoRequest? <==> IsBlank(s.input)
    ensures r.0.NoRequest? ==> r.1 == s
    ensures !r.0.NoRequest? ==>
      r.0.postId == postId && r.0.text == Trim(s.input) && r.0.text != [] && Trimmed(r.0.text)
      && r.1 == s.(input := [])
    ensures r.0.AddReply? <==> !IsBlank(s.input) && s.replyingTo.Some?
    ensures r.0.AddReply? ==>
      r.0.parentCommentId == s.replyingTo.value.id
      && r.0.replyToAuthorId == s.replyingTo.value.authorId
      && r.0.replyToAuthorFullName == s.replyingTo.value.authorFullName
  {
    var text := Trim(s.input);
    if text == [] then (NoRequest, s)
    else
      var req := match s.replyingTo
        case Some(t) => AddReply(postId, text, t.id, t.authorId, t.authorFullName)
        case None => AddComment(postId, text);
      (req, s.(input := []))
  }

  /** Tapping a comment enters reply mode and names its author (full name,
      or the username when the full name is blank) in the banner. */
  function EnterReplyMode(s: Screen, c: Comment): (r: Screen)
    ensures r.replyingTo == Some(c) && r.bannerVisible
    ensures r.bannerText == (if IsBlank(c.authorFullName) then c.authorUsername else c.authorFullName) + " kişisine yanıt"
    ensures r.input == s.input && r.expanded == s.expanded
  {
    var name := if IsBlank(c.authorFullName) then c.authorUsername else c.authorFullName;
    s.(replyingTo := Some(c), bannerVisible := true, bannerText := name + " kişisine yanıt")
  }

  /** Cancelling reply mode clears the target, hides the banner and empties
      the text field. */
  function CancelReplyMode(s: Screen): (r: Screen)
    ensures r.replyingTo.None? && !r.bannerVisible && r.input == []
    ensures r.expanded == s.expanded && r.bannerText == s.bannerText
  {
    s.(replyingTo := None, bannerVisible := false, input := [])
  }

  /** A long press opens the delete dialog only for a comment not already
      deleted. */
  function OffersDelete(c: Comment): (b: bool)
    ensures b <==> !c.isDeleted
  {
    !c.isDeleted
  }

  /** Tapping a thread's replies toggle. */
  function ToggleClicked(s: Screen, c: Comment): (r: Screen)
    ensures r.expanded == Toggle(s.expanded, c.id)
    ensures r.input == s.input && r.replyingTo == s.replyingTo
  {
    s.(expanded := Toggle(s.expanded, c.id))
  }

  /** A reply was stored: expand the chain above the target in the current
      list, then leave reply mode. */
  function ReplySucceeded(s: Screen, cs: seq<Comment>): (r: Screen)
    requires s.replyingTo.Some? ==> ChainEnds(cs, s.replyingTo.value)
    ensures s.expanded <= r.expanded
    ensures r.replyingTo.None? && !r.bannerVisible && r.input == []
    ensures s.replyingTo.Some? ==> s.replyingTo.value.id in r.expanded
    ensures s.replyingTo.None? ==> r.expanded == s.expanded
  {
    var e := match s.replyingTo
      case Some(t) => ExpandParentChain(cs, s.expanded, t)
      case None => s.expanded;
    CancelReplyMode(s.(expanded := e))
  }

  /** After a reply to `t` succeeds, `t` and its direct replies are shown,
      provided the chain above `t` is in the list. */
  lemma ReplySuccessShowsThread(s: Screen, cs: seq<Comment>, t: Comment)
    requires WellFormed(cs) && s.replyingTo == Some(t) && t in cs && ChainComplete(cs, t)
    ensures IsVisible(cs, ReplySucceeded(s, cs).expanded, t)
    ensures t in VisibleComments(cs, ReplySucceeded(s, cs).expanded)
    ensures forall c | c in cs && IsChildOf(cs, c, t) :: c in VisibleComments(cs, ReplySucceeded(s, cs).expanded)
  {
    ExpandRevealsTarget(cs, s.expanded, t);
  }
}

=== FILE: constants.dfy ===
/** The application-wide constants the modelled code reads. */
module Constants {
  const RoleCitizen: string := "citizen"
  const RoleOfficial: string := "official"
  const RoleAdmin: string := "admin"

  const StatusNew: string := "new"
  const StatusInProgress: string := "in_progress"
  const StatusResolved: string := "resolved"
  const StatusRejected: string := "rejected"

  const TitleNewUser: string := "Yeni Kullanıcı"
  const TitleSensitiveCitizen: string := "Duyarlı Vatandaş"

  const MinPasswordLength: nat := 6
  const MaxPostTitleLength: nat := 100
  const MaxPostDescriptionLength: nat := 500
  const MaxCommentLength: nat := 200

  /** Deepest reply level; the comment model's own doc comment says 2, this
      constant (4) is what the adapter reads. */
  const MaxCommentDepth: nat := 4

  /** Capacity of the avatar seed history on the profile set-up screen. */
  const MaxAvatarHistory: nat := 31
}

=== FILE: filter_preset_dao.dfy ===
/** The saved-filter table and the statements run against it. Rows are kept
    in insertion order; the table's keys are the `id` (primary key) and the
    `name` (unique index). */
module FilterPresetDao {
  import opened Wrappers
  import opened Text
  import opened Sorting
  import opened Sequences

  datatype Row = Row(
    id: string,
    name: string,
    districts: seq<string>,
    categories: seq<string>,
    statuses: seq<string>,
    onlyMyPosts: bool,
    isSystemDefault: bool,
    isDefault: bool,
    createdAt: int)

  type Table = seq<Row>

  /** No two rows share an id or a name. */
  predicate WellKeyed(t: Table) {
    forall i, j :: 0 <= i < j < |t| ==> t[i].id != t[j].id && t[i].name != t[j].name
  }

  /** Some row holds `row`'s id or name. */
  predicate Conflicts(t: Table, row: Row) {
    exists i :: 0 <= i < |t| && (t[i].id == row.id || t[i].name == row.name)
  }

  /** `insert` with the abort strategy: `None` when a key is already taken,
      and then the table is unchanged. */
  function Insert(t: Table, row: Row): (r: Option<Table>)
    ensures r.None? <==> Conflicts(t, row)
    ensures r.Some? ==> |r.value| == |t| + 1 && r.value[..|t|] == t && r.value[|t|] == row
  {
    if Conflicts(t, row) then None else Some(t + [row])
  }

  /** An insert that succeeds keeps the keys unique. */
  lemma InsertKeepsKeys(t: Table, row: Row)
    requires WellKeyed(t)
    ensures Insert(t, row).Some? ==> WellKeyed(Insert(t, row).value)
  {
    if !Conflicts(t, row) {
      var u := t + [row];
      forall i, j | 0 <= i < j < |u| ensures u[i].id != u[j].id && u[i].name != u[j].name {
        if j == |t| {
          assert !(t[i].id == row.id || t[i].name == row.name);
        }
      }
    }
  }

  /** `deleteById`: the rows with another id, in their order. */
  function DeleteById(t: Table, id: string): (r: Table)
    ensures IsSubsequence(r, t)
    ensures forall row :: row in r <==> row in t && row.id != id
  {
    Filter(t, (row: Row) => row.id != id)
  }

  /** Deleting keeps the keys unique and removes every row with the id. */
  lemma DeleteKeepsKeys(t: Table, id: string)
    requires WellKeyed(t)
    ensures WellKeyed(DeleteById(t, id))
    ensures forall i :: 0 <= i < |DeleteById(t, id)| ==> DeleteById(t, id)[i].id != id
  {
    var r := DeleteById(t, id);
    forall i, j | 0 <= i < j < |r| ensures r[i].id != r[j].id && r[i].name != r[j].name {
      SubsequenceDistinct(r, t, i, j);
    }
  }

  /** Two positions of a subsequence of a well-keyed table hold rows from two
      different positions of the table. */
  lemma {:induction false} SubsequenceDistinct(r: Table, t: Table, i: nat, j: nat)
    requires IsSubsequence(r, t) && WellKeyed(t) && i < j < |r|
    ensures r[i].id != r[j].id && r[i].name != r[j].name
    decreases |t|
  {
    var last := t[|t| - 1];
    if r[|r| - 1] == last && IsSubsequence(r[..|r| - 1], t[..|t| - 1]) {
      if j == |r| - 1 {
        SubsequenceElement(r[..|r| - 1], t[..|t| - 1], i);
        var k :| 0 <= k < |t| - 1 && t[k] == r[i];
        assert t[k].id != t[|t| - 1].id && t[k].name != t[|t| - 1].name;
      } else {
        assert WellKeyed(t[..|t| - 1]);
        SubsequenceDistinct(r[..|r| - 1], t[..|t| - 1], i, j);
      }
    } else {
      assert WellKeyed(t[..|t| - 1]);
      SubsequenceDistinct(r, t[..|t| - 1], i, j);
    }
  }

  lemma {:induction false} SubsequenceElement(r: Table, t: Table, i: nat)
    requires IsSubsequence(r, t) && i < |r|
    ensures exists k :: 0 <= k < |t| && t[k] == r[i]
    decreases |t|
  {
    if r[|r| - 1] == t[|t| - 1] && IsSubsequence(r[..|r| - 1], t[..|t| - 1]) {
      if i == |r| - 1 {
        assert t[|t| - 1] == r[i];
      } else {
        SubsequenceElement(r[..|r| - 1], t[..|t| - 1], i);
        var k :| 0 <= k < |t| - 1 && t[..|t| - 1][k] == r[i];
        assert t[k] == r[i];
      }
    } else {
      SubsequenceElement(r, t[..|t| - 1], i);
      var k :| 0 <= k < |t| - 1 && t[..|t| - 1][k] == r[i];
      assert t[k] == r[i];
    }
  }

  /** `clearDefaultFlag`: every row loses the default mark; nothing else
      changes. */
  function ClearDefault(t: Table): (r: Table)
    ensures |r| == |t|
    ensures forall i :: 0 <= i < |t| ==> !r[i].isDefault && r[i].(isDefault := t[i].isDefault) == t[i]
  {
    seq(|t|, i requires 0 <= i < |t| => t[i].(isDefault := false))
  }

  /** `setDefaultFlag(id)`: the row with `id` gets the default mark; nothing
      else changes. */
  function SetDefault(t: Table, id: string): (r: Table)
    ensures |r| == |t|
    ensures forall i :: 0 <= i < |t| ==> (t[i].id == id ==> r[i].isDefault) && r[i].(isDefault := t[i].isDefault) == t[i]
    ensures forall i :: 0 <= i < |t| && t[i].id != id ==> r[i] == t[i]
  {
    seq(|t|, i requires 0 <= i < |t| => if t[i].id == id then t[i].(isDefault := true) else t[i])
  }

  /** Setting the default on an id no row has changes nothing. */
  lemma SetDefaultAbsent(t: Table, id: string)
    requires forall i :: 0 <= i < |t| ==> t[i].id != id
    ensures SetDefault(t, id) == t
  {
  }

  /** Clearing and then setting leaves exactly the rows with `id` marked,
      so in a well-keyed table at most one row is the default. */
  lemma ClearThenSetSingleDefault(t: Table, id: string)
    requires WellKeyed(t)
    ensures var r := SetDefault(ClearDefault(t), id);
      (forall i :: 0 <= i < |r| ==> (r[i].isDefault <==> t[i].id == id))
      && forall i, j :: 0 <= i < |r| && 0 <= j < |r| && r[i].isDefault && r[j].isDefault ==> i == j
  {
  }

  /** `getById`: a row with the id, if any. */
  function GetById(t: Table, id: string): (r: Option<Row>)
    ensures r.Some? ==> r.value in t && r.value.id == id
    ensures r.None? <==> forall i :: 0 <= i < |t| ==> t[i].id != id
  {
    match FirstWhere(t, (row: Row) => row.id == id)
    case None => None
    case Some(k) => Some(t[k])
  }

  /** `getDefault`: a row marked default, if any. */
  function GetDefault(t: Table): (r: Option<Row>)
    ensures r.Some? ==> r.value in t && r.value.isDefault
    ensures r.None? <==> forall i :: 0 <= i < |t| ==> !t[i].isDefault
  {
    match FirstWhere(t, (row: Row) => row.isDefault)
    case None => None
    case Some(k) => Some(t[k])
  }

  /** `getSystemDefault`: a row marked system default, if any. */
  function GetSystemDefault(t: Table): (r: Option<Row>)
    ensures r.Some? ==> r.value in t && r.value.isSystemDefault
    ensures r.None? <==> forall i :: 0 <= i < |t| ==> !t[i].isSystemDefault
  {
    match FirstWhere(t, (row: Row) => row.isSystemDefault)
    case None => None
    case Some(k) => Some(t[k])
  }

  /** After making `id` the default, the default row is the row with `id`. */
  lemma DefaultAfterSet(t: Table, id: string, row: Row)
    requires WellKeyed(t) && row in t && row.id == id
    ensures GetDefault(SetDefault(ClearDefault(t), id)) == Some(row.(isDefault := true))
  {
    var r := SetDefault(ClearDefault(t), id);
    var k :| 0 <= k < |t| && t[k] == row;
    ClearThenSetSingleDefault(t, id);
    assert r[k].isDefault;
    var d := GetDefault(r);
    var m :| 0 <= m < |r| && r[m] == d.value;
    assert m == k;
  }

  /** The listing order: system default first, then default, then by name
      with ASCII letters compared case-insensitively. */
  predicate ListedBefore(a: Row, b: Row) {
    if a.isSystemDefault != b.isSystemDefault then a.isSystemDefault
    else if a.isDefault != b.isDefault then a.isDefault
    else LexLe(ToLower(a.name), ToLower(b.name))
  }

  lemma ListedBeforeTotal()
    ensures Total(ListedBefore)
  {
    forall a: Row, b: Row ensures ListedBefore(a, b) || ListedBefore(b, a) {
      LexTotal(ToLower(a.name), ToLower(b.name));
    }
  }

  lemma ListedBeforeTransitive()
    ensures forall a, b, c :: ListedBefore(a, b) && ListedBefore(b, c) ==> ListedBefore(a, c)
  {
    forall a: Row, b: Row, c: Row | ListedBefore(a, b) && ListedBefore(b, c)
      ensures ListedBefore(a, c)
    {
      if a.isSystemDefault == b.isSystemDefault == c.isSystemDefault && a.isDefault == b.isDefault == c.isDefault {
        LexTrans(ToLower(a.name), ToLower(b.name), ToLower(c.name));
      }
    }
  }

  /** `observeAll`: every row, system default first, then default, then by
      name. */
  function ObserveAll(t: Table): (r: Table)
    ensures multiset(r) == multiset(t)
    ensures forall i :: 0 <= i < |r| - 1 ==> ListedBefore(r[i], r[i + 1])
  {
    ListedBeforeTotal();
    SortBy(t, ListedBefore)
  }

  /** In the listing, no system-default row follows an ordinary one, and
      among rows with the same system-default mark no default row follows a
      non-default one. */
  lemma ObserveAllGroups(t: Table, i: nat, j: nat)
    requires i <= j < |ObserveAll(t)|
    ensures var r := ObserveAll(t);
      (r[j].isSystemDefault ==> r[i].isSystemDefault)
      && (r[i].isSystemDefault == r[j].isSystemDefault && r[j].isDefault ==> r[i].isDefault)
  {
    var r := ObserveAll(t);
    ListedBeforeTransitive();
    forall a: Row ensures ListedBefore(a, a) {
      LexTotal(ToLower(a.name), ToLower(a.name));
    }
    SortedPairs(r, ListedBefore, i, j);
  }
}

=== FILE: filter_presets_sheet.dfy ===
/** The long-press summary of a saved filter in the presets sheet. The
    labels are string resources and are passed in. */
module FilterPresetsSheet {
  import opened Text
  import opened Model

  /** The string resources the summary reads. */
  datatype Labels = Labels(
    statusNew: string, statusInProgress: string, statusResolved: string,
    yes: string, no: string, all: string,
    districts: string, categories: string, statuses: string, onlyMine: string)

  /** Kotlin's default `joinToString` separator. */
  const Separator: string := ", "

  /** A status code's label: the three known codes are translated, any
      other code is kept. */
  function StatusDisplay(labels: Labels, code: string): (r: string)
    ensures code == "new" ==> r == labels.statusNew
    ensures code == "in_progress" ==> r == labels.statusInProgress
    ensures code == "resolved" ==> r == labels.statusResolved
    ensures code !in ["new", "in_progress", "resolved"] ==> r == code
  {
    if code == "new" then labels.statusNew
    else if code == "in_progress" then labels.statusInProgress
    else if code == "resolved" then labels.statusResolved
    else code
  }

  /** The labels of a list of codes, in order. */
  function StatusesDisplay(labels: Labels, codes: seq<string>): (r: seq<string>)
    ensures |r| == |codes|
    ensures forall i :: 0 <= i < |codes| ==> r[i] == StatusDisplay(labels, codes[i])
  {
    if |codes| == 0 then [] else [StatusDisplay(labels, codes[0])] + StatusesDisplay(labels, codes[1..])
  }

  /** A list joined with commas, or the "all" label when that text is blank. */
  function ListValue(xs: seq<string>, all: string): string {
    var joined := Join(xs, Separator);
    if IsBlank(joined) then all else joined
  }

  /** The "all" label stands for an empty list, or a single blank entry;
      every other list is shown joined. */
  lemma ListValueAll(xs: seq<string>, all: string)
    ensures |xs| == 0 || (|xs| == 1 && IsBlank(xs[0])) ==> ListValue(xs, all) == all
    ensures !(|xs| == 0 || (|xs| == 1 && IsBlank(xs[0]))) ==> ListValue(xs, all) == Join(xs, Separator)
  {
    assert Separator[0] == ',' && !IsBlank(Separator);
    JoinBlank(xs, Separator);
  }

  function YesNo(labels: Labels, b: bool): string {
    if b then labels.yes else labels.no
  }

  /** The four lines before the final trim, each ended by a newline. */
  function Body(labels: Labels, c: FilterCriteria): string {
    labels.districts + " " + ListValue(c.districts, labels.all) + "\n"
    + labels.categories + " " + ListValue(c.categories, labels.all) + "\n"
    + labels.statuses + " " + ListValue(StatusesDisplay(labels, c.statuses), labels.all) + "\n"
    + labels.onlyMine + " " + YesNo(labels, c.onlyMyPosts) + "\n"
  }

  /** The summary: the four lines, trimmed as a whole. */
  function Summary(labels: Labels, c: FilterCriteria): (r: string)
    ensures Trimmed(r) && |r| <= |Body(labels, c)|
  {
    Trim(Body(labels, c))
  }

  /** With ordinary labels (the first one not starting with a space, the
      yes and no labels not ending with one) the trim removes only the last
      newline, so the summary is the four lines in order. */
  lemma {:induction false} SummaryIsFourLines(labels: Labels, c: FilterCriteria)
    requires |labels.districts| > 0 && !IsWhitespace(labels.districts[0])
    requires |labels.yes| > 0 && !IsWhitespace(labels.yes[|labels.yes| - 1])
    requires |labels.no| > 0 && !IsWhitespace(labels.no[|labels.no| - 1])
    ensures Summary(labels, c) + "\n" == Body(labels, c)
  {
    var body := Body(labels, c);
    var x := body[..|body| - 1];
    assert body == x + "\n";
    var v := YesNo(labels, c.onlyMyPosts);
    assert x[|x| - 1] == v[|v| - 1];
    assert x[0] == labels.districts[0];
    assert IsBlank("\n");
    assert IsBlank([]);
    TrimPadded([], x, "\n");
    assert [] + x + "\n" == body;
  }
}

=== FILE: locale_helper.dfy ===
/** The app's language preference: a stored choice among Turkish, English
    and "follow the system", resolved to one of the two locales the app
    ships strings for. */
module LocaleHelper {
  import opened Wrappers

  const LanguageTurkish: string := "tr"
  const LanguageEnglish: string := "en"
  const LanguageSystem: string := "system"

  /** The only two locales the app ever applies. */
  datatype Locale = Turkish | English {
    function Language(): string {
      match this
      case Turkish => LanguageTurkish
      case English => LanguageEnglish
    }
  }

  /** The label resource shown for the current preference. */
  datatype DisplayLabel = TurkishLabel | EnglishLabel | SystemLabel

  /** The stored preference, or "system" when nothing (or null) is stored. */
  function PersistedLanguage(stored: Option<string>): (r: string)
    ensures stored.Some? ==> r == stored.value
    ensures stored.None? ==> r == LanguageSystem
  {
    stored.GetOr(LanguageSystem)
  }

  /** Writing a preference stores exactly that string. */
  function SetPersistedLanguage(stored: Option<string>, language: string): (r: Option<string>)
    ensures PersistedLanguage(r) == language
  {
    Some(language)
  }

  /** The device locale folded onto the two supported ones: Turkish only
      when the device language is "tr". */
  function SystemLocale(systemLanguage: string): (r: Locale)
    ensures r == Turkish <==> systemLanguage == LanguageTurkish
  {
    if systemLanguage == LanguageTurkish then Turkish else English
  }

  /** The locale applied at start-up: an explicit "tr" or "en" wins, and
      "system" or any unrecognised value follows the device. */
  function EffectiveLocale(stored: Option<string>, systemLanguage: string): (r: Locale)
    ensures PersistedLanguage(stored) == LanguageTurkish ==> r == Turkish
    ensures PersistedLanguage(stored) == LanguageEnglish ==> r == English
    ensures (PersistedLanguage(stored) !in {LanguageTurkish, LanguageEnglish}
             ==> r == SystemLocale(systemLanguage))
  {
    var language := PersistedLanguage(stored);
    if language == LanguageSystem then SystemLocale(systemLanguage)
    else if language == LanguageTurkish then Turkish
    else if language == LanguageEnglish then English
    else SystemLocale(systemLanguage)
  }

  /** The label of the current preference: anything but "tr" and "en" is
      shown as the system option. */
  function DisplayName(stored: Option<string>): (r: DisplayLabel)
    ensures r == TurkishLabel <==> PersistedLanguage(stored) == LanguageTurkish
    ensures r == EnglishLabel <==> PersistedLanguage(stored) == LanguageEnglish
  {
    var language := PersistedLanguage(stored);
    if language == LanguageTurkish then TurkishLabel
    else if language == LanguageEnglish then EnglishLabel
    else SystemLabel
  }

  /** Choosing a locale explicitly and restarting applies that locale,
      whatever the device language and whatever was stored before. */
  lemma ChosenLocaleApplied(stored: Option<string>, l: Locale, systemLanguage: string)
    ensures EffectiveLocale(SetPersistedLanguage(stored, l.Language()), systemLanguage) == l
  {
  }

  /** Choosing "system" makes the app follow the device language. */
  lemma SystemChoiceFollowsDevice(stored: Option<string>, systemLanguage: string)
    ensures EffectiveLocale(SetPersistedLanguage(stored, LanguageSystem), systemLanguage)
              == SystemLocale(systemLanguage)
  {
  }

  /** The label never disagrees with the applied locale: a language label
      names the locale in use, and the system label means the device
      decides. */
  lemma LabelMatchesLocale(stored: Option<string>, systemLanguage: string)
    ensures DisplayName(stored) == TurkishLabel ==> EffectiveLocale(stored, systemLanguage) == Turkish
    ensures DisplayName(stored) == EnglishLabel ==> EffectiveLocale(stored, systemLanguage) == English
    ensures (DisplayName(stored) == SystemLabel
             ==> EffectiveLocale(stored, systemLanguage) == SystemLocale(systemLanguage))
  {
  }
}

=== FILE: model.dfy ===
/** The app's records: comments, users, posts and filter criteria. Fields the
    screens read but the record declarations lack (`isDeleted` and
    `authorUsername` on a comment, `avatarSeed` on a user, `onlyMyPosts` on
    the criteria) are included. */
module Model {
  import opened Wrappers
  import UserRole
  import PostStatus

  /** A comment or reply on a post. `parentCommentId` is `None` (or blank)
      for a top-level comment; `depth` is 0 for top level and grows by one
      per reply level. `createdAt` is the server timestamp, kept abstract. */
  datatype Comment = Comment(
    id: string,
    postId: string,
    authorId: string,
    authorName: string,
    authorFullName: string,
    authorUsername: string,
    authorCity: string,
    authorDistrict: string,
    authorTitle: string,
    text: string,
    parentCommentId: Option<string>,
    rootCommentId: Option<string>,
    depth: int,
    replyCount: int,
    replyToAuthorId: Option<string>,
    replyToAuthorName: Option<string>,
    replyToAuthorFullName: Option<string>,
    isDeleted: bool,
    createdAt: Option<int>)

  /** A user profile. The role is stored as a string; the derived role
      predicates read it through `UserRole.FromString`. */
  datatype User = User(
    uid: string,
    email: string,
    fullName: string,
    username: string,
    city: string,
    district: string,
    role: string,
    points: int,
    title: string,
    avatarSeed: string)
  {
    function RoleEnum(): UserRole.Role {
      UserRole.FromString(role)
    }

    predicate IsAdmin() {
      RoleEnum() == UserRole.Admin
    }

    /** Official means official or admin. */
    predicate IsOfficial() {
      RoleEnum() == UserRole.Official || RoleEnum() == UserRole.Admin
    }
  }

  /** A map position, as Firestore's `GeoPoint` stores it. */
  datatype GeoPoint = GeoPoint(latitude: real, longitude: real)

  /** The fields of a reported post that the app's screens read: the feed
      row and the detail screen show all of them, the image and the map pin
      included. */
  datatype Post = Post(
    id: string,
    authorId: Option<string>,
    title: string,
    description: string,
    category: string,
    district: Option<string>,
    status: string,
    upvoteCount: int,
    imageUrl: Option<string>,
    location: Option<GeoPoint>)
  {
    function StatusEnum(): PostStatus.Status {
      PostStatus.FromString(status)
    }
  }

  /** What the home feed is filtered by. */
  datatype FilterCriteria = FilterCriteria(
    districts: seq<string>,
    categories: seq<string>,
    statuses: seq<string>,
    onlyMyPosts: bool)

  /** A saved filter as the screens see it. */
  datatype FilterPreset = FilterPreset(
    id: string,
    name: string,
    criteria: FilterCriteria,
    isSystemDefault: bool,
    isDefault: bool)
}

=== FILE: post_adapter.dfy ===
/** The rows of the post feed: the status, location and support labels,
    and the identity the list differ uses. */
module PostAdapter {
  import opened Wrappers
  import opened Text
  import opened Model
  import PostStatus
  import PostDetail

  const StatusNewLabel: string := "Yeni"
  const StatusInProgressLabel: string := "İşlemde"
  const StatusResolvedLabel: string := "Çözüldü"

  /** The status label: the three known codes are translated and anything
      else, "rejected" included, is shown as stored. */
  function StatusLabel(status: string): (r: string)
    ensures status == PostStatus.Value(PostStatus.New) ==> r == StatusNewLabel
    ensures status == PostStatus.Value(PostStatus.InProgress) ==> r == StatusInProgressLabel
    ensures status == PostStatus.Value(PostStatus.Resolved) ==> r == StatusResolvedLabel
    ensures status !in ["new", "in_progress", "resolved"] ==> r == status
  {
    if status == "new" then StatusNewLabel
    else if status == "in_progress" then StatusInProgressLabel
    else if status == "resolved" then StatusResolvedLabel
    else status
  }

  /** The feed and the detail screen agree on the text of a new and of a
      resolved post only: the feed says "İşlemde" where the detail screen
      says "İşleme Alındı", and shows a rejected post's raw code. */
  lemma FeedAndDetailLabels(s: PostStatus.Status)
    ensures StatusLabel(PostStatus.Value(s)) == PostDetail.StatusText(s) <==> s == PostStatus.New || s == PostStatus.Resolved
  {
  }

  /** The location line: the fixed city, then the district or a dash. */
  function LocationLabel(post: Post): (r: string)
    ensures |r| >= 7 && r[..7] == "Hatay, "
    ensures post.district.Some? ==> r[7..] == post.district.value
    ensures post.district.None? ==> r[7..] == "-"
  {
    "Hatay, " + post.district.GetOr("-")
  }

  /** The support line: the count in decimal, then the word "Destek". */
  function UpvoteLabel(post: Post): (r: string)
    ensures |r| > 7 && r[|r| - 7..] == " Destek"
    ensures r[..|r| - 7] == IntToString(post.upvoteCount)
  {
    IntToString(post.upvoteCount) + " Destek"
  }

  /** Two posts with the same support line have the same count. */
  lemma UpvoteLabelInjective(a: Post, b: Post)
    requires UpvoteLabel(a) == UpvoteLabel(b)
    ensures a.upvoteCount == b.upvoteCount
  {
    IntToStringInjective(a.upvoteCount, b.upvoteCount);
  }

  /** The differ's identity: the same id. */
  predicate SameItem(a: Post, b: Post) {
    a.id == b.id
  }

  /** The differ's content check: the same record. */
  predicate SameContents(a: Post, b: Post) {
    a == b
  }

  /** Unlike comments, posts match on the id alone, blank ids included, so
      identity is an equivalence and equal contents imply the same item. */
  lemma DiffIsEquivalence(a: Post, b: Post, c: Post)
    ensures SameItem(a, a)
    ensures SameItem(a, b) ==> SameItem(b, a)
    ensures SameItem(a, b) && SameItem(b, c) ==> SameItem(a, c)
    ensures SameContents(a, b) ==> SameItem(a, b)
  {
  }

  /** A post whose image or map position changed is redrawn, even though
      it is the same item. */
  lemma NewImageOrPlaceRedraws(p: Post, imageUrl: Option<string>, location: Option<GeoPoint>)
    requires p.imageUrl != imageUrl || p.location != location
    ensures SameItem(p, p.(imageUrl := imageUrl, location := location))
    ensures !SameContents(p, p.(imageUrl := imageUrl, location := location))
  {
  }
}

=== FILE: post_detail.dfy ===
/** The post detail screen: the comment box's send button, the condition
    for installing the owner menu, and the status and district texts. */
module PostDetail {
  import opened Wrappers
  import opened Text
  import opened Validation
  import opened Model
  import PostStatus
  import opened Constants

  const CommentEmpty: string := "Yorum boş olamaz"
  const NoPostId: string := "Post ID bulunamadı"
  const NoDistrict: string := "İlçe Yok"

  /** The comment input: its text and the error shown under it. */
  datatype CommentBox = CommentBox(text: string, error: Option<string>)

  /** An error under the input, a notice that the post is unknown, or the
      comment handed to the view model. */
  datatype SendOutcome = InputError(message: string) | MissingPost | AddComment(postId: string, text: string)

  /** The send button. The text is trimmed; an empty text, then a text the
      comment validator refuses, then a missing post id stop the send, in
      that order. A sent comment clears the input and its error. */
  function SendClicked(box: CommentBox, postId: Option<string>): (r: (SendOutcome, CommentBox))
    ensures Trim(box.text) == [] ==> r == (InputError(CommentEmpty), box.(error := Some(CommentEmpty)))
    ensures (Trim(box.text) != [] && !IsValidComment(Trim(box.text))
             ==> r == (InputError(CommentMessage()), box.(error := Some(CommentMessage()))))
    ensures IsValidComment(Trim(box.text)) && postId.None? ==> r == (MissingPost, box)
    ensures r.0.AddComment? <==> IsValidComment(Trim(box.text)) && postId.Some?
    ensures r.0.AddComment? ==> r.0 == AddComment(postId.value, Trim(box.text)) && r.1 == CommentBox("", None)
  {
    var text := Trim(box.text);
    var commentError := GetValidationError("comment", text, (s: string) => false);
    if text == [] then (InputError(CommentEmpty), box.(error := Some(CommentEmpty)))
    else if commentError.Some? then (InputError(commentError.value), box.(error := commentError))
    else if postId.None? then (MissingPost, box)
    else (AddComment(postId.value, text), CommentBox("", None))
  }

  /** Every comment sent is trimmed, non-empty and within the limit; text
      that is blank or too long once trimmed never leaves the screen. */
  lemma {:induction false} SentCommentIsValid(box: CommentBox, postId: Option<string>)
    ensures var o := SendClicked(box, postId).0;
      o.AddComment? ==> Trimmed(o.text) && 1 <= |o.text| <= MaxCommentLength
    ensures (IsBlank(box.text) || |Trim(box.text)| > MaxCommentLength) ==> !SendClicked(box, postId).0.AddComment?
  {
    var o := SendClicked(box, postId).0;
    if o.AddComment? {
      assert o.text == Trim(box.text) && IsValidComment(o.text);
      ValidTextSurvivesTrim(o.text);
    }
  }

  /** The owner menu is installed when the signed-in user's id equals the
      post's author id, compared as nullable values. */
  function OwnerMenu(currentUserId: Option<string>, post: Post): (installed: bool)
    ensures currentUserId.Some? ==> (installed <==> post.authorId == Some(currentUserId.value))
  {
    currentUserId == post.authorId
  }

  /** With nobody signed in the menu is still installed on a post without
      an author id; its items remain governed by the separate status and
      delete permissions. */
  lemma OwnerMenuSignedOut(post: Post)
    ensures OwnerMenu(None, post) <==> post.authorId.None?
  {
  }

  /** The status text of the detail screen, one per status. */
  function StatusText(s: PostStatus.Status): string {
    match s
    case New => "Yeni"
    case InProgress => "İşleme Alındı"
    case Resolved => "Çözüldü"
    case Rejected => "Reddedildi"
  }

  /** Each status has its own text, so the text tells the status apart. */
  lemma StatusTextInjective(a: PostStatus.Status, b: PostStatus.Status)
    ensures StatusText(a) == StatusText(b) <==> a == b
  {
  }

  /** The district line: the district, or a placeholder when there is none. */
  function DistrictText(post: Post): (r: string)
    ensures post.district.Some? ==> r == post.district.value
    ensures post.district.None? ==> r == NoDistrict
  {
    post.district.GetOr(NoDistrict)
  }
}

=== FILE: post_status.dfy ===
/** The four states of a reported post and their stored string values. */
module PostStatus {

  datatype Status = New | InProgress | Resolved | Rejected

  /** The string stored in the document for each status. */
  function Value(s: Status): string {
    match s
    case New => "new"
    case InProgress => "in_progress"
    case Resolved => "resolved"
    case Rejected => "rejected"
  }

  /** The status whose value is `v`; any other string reads as `New`.
      Total: every string yields a status. */
  function FromString(v: string): (r: Status)
    ensures Value(r) == v || r == New
    ensures (forall s: Status :: Value(s) != v) ==> r == New
  {
    if v == "in_progress" then InProgress
    else if v == "resolved" then Resolved
    else if v == "rejected" then Rejected
    else New
  }

  /** Parsing a status's own value gives the status back. */
  lemma FromStringValue(s: Status)
    ensures FromString(Value(s)) == s
  {
  }

  /** The four values are pairwise distinct. */
  lemma ValueInjective(a: Status, b: Status)
    ensures Value(a) == Value(b) <==> a == b
  {
  }
}

=== FILE: profile_screen.dfy ===
/** The profile screen: the name and location lines, the theme dialog and
    the admin-panel button. */
module ProfileScreen {
  import opened Wrappers
  import opened Model
  import Authorization

  const NoName: string := "İsim Belirtilmemiş"
  const NoLocation: string := "Konum Belirtilmemiş"
  const UnknownUser: string := "Kullanıcı"

  /** "city, district" when both are given, the one given otherwise, and a
      placeholder when neither is. */
  function LocationText(city: string, district: string): (r: string)
    ensures city == [] && district == [] ==> r == NoLocation
    ensures city != [] && district == [] ==> r == city
    ensures city == [] && district != [] ==> r == district
  {
    if city != [] && district != [] then city + ", " + district
    else if city != [] then city
    else if district != [] then district
    else NoLocation
  }

  /** The text starts with the city and ends with the district whenever
      they are given; when both are, the comma and space between them are
      all there is besides. */
  lemma LocationShowsBoth(city: string, district: string)
    ensures city != [] ==> |city| <= |LocationText(city, district)| && LocationText(city, district)[..|city|] == city
    ensures (district != []
             ==> var t := LocationText(city, district);
                 |district| <= |t| && t[|t| - |district|..] == district)
    ensures (city != [] && district != []
             ==> LocationText(city, district)[|city|..|city| + 2] == ", ")
    ensures (city != [] && district != []
             ==> |LocationText(city, district)| == |city| + 2 + |district|)
  {
  }

  /** The name line and the location line. */
  datatype UserInfo = UserInfo(name: string, location: string)

  /** The two lines for a profile answer: a loaded user's name (or a
      placeholder) and location; placeholders for a missing user or an
      error; a load in progress changes nothing. */
  function ShowProfile(resource: Resource<User>, shown: UserInfo): (r: UserInfo)
    ensures resource.Loading? ==> r == shown
    ensures resource.Error? || resource == Success(None) ==> r == UserInfo(UnknownUser, NoLocation)
    ensures (resource.Success? && resource.data.Some?
             ==> var u := resource.data.value;
                 r.location == LocationText(u.city, u.district)
                 && (u.fullName == [] ==> r.name == NoName)
                 && (u.fullName != [] ==> r.name == u.fullName))
  {
    match resource
    case Success(Some(u)) =>
      UserInfo(if u.fullName == [] then NoName else u.fullName, LocationText(u.city, u.district))
    case Success(None) => UserInfo(UnknownUser, NoLocation)
    case Error(_) => UserInfo(UnknownUser, NoLocation)
    case Loading => shown
  }

  /** The stored theme values, in the order the dialog lists them. */
  const ThemeValues: seq<string> := ["system", "light", "dark"]

  /** The option checked when the dialog opens: the stored value's position,
      or the first option when nothing or an unknown value is stored. */
  function ThemeIndex(stored: Option<string>): (i: nat)
    ensures i < |ThemeValues|
    ensures stored.Some? && stored.value in ThemeValues ==> ThemeValues[i] == stored.value
    ensures stored.None? || stored.value !in ThemeValues ==> i == 0
  {
    var current := stored.GetOr("system");
    if current == "light" then 1 else if current == "dark" then 2 else 0
  }

  /** The value stored for the option picked; an out-of-range pick is the
      system option. */
  function ThemeSelection(which: int): (v: string)
    ensures v in ThemeValues
    ensures 0 <= which < |ThemeValues| ==> v == ThemeValues[which]
    ensures !(0 <= which < |ThemeValues|) ==> v == "system"
  {
    if 0 <= which < |ThemeValues| then ThemeValues[which] else "system"
  }

  /** The platform's night-mode setting. */
  datatype NightMode = FollowSystem | NightNo | NightYes

  /** The night mode applied for a stored value. */
  function NightModeFor(selected: string): (m: NightMode)
    ensures m == NightNo <==> selected == "light"
    ensures m == NightYes <==> selected == "dark"
  {
    if selected == "light" then NightNo
    else if selected == "dark" then NightYes
    else FollowSystem
  }

  /** Reopening the dialog after a pick checks the option that was picked,
      and the three options give three different night modes. */
  lemma ThemeRoundTrip(which: int)
    ensures 0 <= which < |ThemeValues| ==> ThemeIndex(Some(ThemeSelection(which))) == which
    ensures !(0 <= which < |ThemeValues|) ==> ThemeIndex(Some(ThemeSelection(which))) == 0
    ensures forall i, j :: 0 <= i < j < |ThemeValues| ==> NightModeFor(ThemeValues[i]) != NightModeFor(ThemeValues[j])
  {
  }

  /** The admin-panel button: a loaded profile shows it exactly for an
      admin; any other answer leaves it as it was. */
  function AdminButtonVisible(resource: Resource<User>, visible: bool): (r: bool)
    ensures resource.Success? ==> (r <==> Authorization.IsAdmin(resource.data))
    ensures !resource.Success? ==> r == visible
  {
    if resource.Success? then resource.data.Some? && resource.data.value.IsAdmin() else visible
  }
}

=== FILE: profile_view_model.dfy ===
/** The profile screen's statistics: how many posts the signed-in user
    has, and how many of them are resolved. */
module ProfileViewModel {
  import opened Wrappers
  import opened Constants
  import opened Model
  import opened Sequences
  import PostStatus

  /** The three observable values; `None` is a value never set. */
  datatype Stats = Stats(userPosts: Option<Resource<seq<Post>>>, total: Option<int>, resolved: Option<int>)

  predicate IsResolved(p: Post) {
    p.status == StatusResolved
  }

  /** A post counts as resolved exactly when its status parses to the
      resolved status. */
  lemma IsResolvedMeansStatus(p: Post)
    ensures IsResolved(p) <==> p.StatusEnum() == PostStatus.Resolved
  {
  }

  /** The counters always come together, and the resolved count never
      exceeds the total. */
  predicate Coherent(s: Stats) {
    (s.total.Some? <==> s.resolved.Some?)
    && (s.total.Some? ==> 0 <= s.resolved.value <= s.total.value)
  }

  /** Loading the user's posts: with nobody signed in nothing happens and
      no request is made; otherwise the user's posts are requested, a
      success (an absent list read as empty) recomputes both counters, a
      failure leaves them, and the list value ends up holding the answer. */
  function LoadUserPosts(currentUser: Option<string>, s: Stats, result: Resource<seq<Post>>)
    : (r: (Stats, Option<string>))
    ensures currentUser.None? ==> r == (s, None)
    ensures currentUser.Some? ==> r.1 == currentUser && r.0.userPosts == Some(result)
    ensures (currentUser.Some? && result.Success?
             ==> r.0.total == Some(|result.data.GetOr([])|)
                 && r.0.resolved == Some(|Filter(result.data.GetOr([]), IsResolved)|))
    ensures (currentUser.Some? && !result.Success?
             ==> r.0.total == s.total && r.0.resolved == s.resolved)
  {
    match currentUser
    case None => (s, None)
    case Some(uid) =>
      if result.Success? then
        var posts := result.data.GetOr([]);
        CountIsFilterLength(posts, IsResolved);
        (Stats(Some(result), Some(|posts|), Some(Count(posts, IsResolved))), Some(uid))
      else
        (s.(userPosts := Some(result)), Some(uid))
  }

  /** Every load keeps the counters coherent. */
  lemma LoadKeepsCoherent(currentUser: Option<string>, s: Stats, result: Resource<seq<Post>>)
    requires Coherent(s)
    ensures Coherent(LoadUserPosts(currentUser, s, result).0)
  {
  }
}

=== FILE: register_form.dfy ===
/** The registration screen: the ordered checks of the register button and
    the controls shown while registration runs. */
module RegisterForm {
  import opened Wrappers
  import opened Text
  import opened Validation
  import AuthViewModel

  /** The text shown under a field: one of the two "required" resources, or
      the validator's message. */
  datatype FieldError = EmailRequired | PasswordRequired | Message(text: string)

  /** Which input the error is shown under. */
  datatype Input = EmailInput | PasswordInput

  /** A refusal under one input, or the trimmed credentials handed to the
      view model. */
  datatype Outcome = Refused(input: Input, error: FieldError) | Registered(email: string, password: string)

  /** The register button: both inputs are trimmed, then checked in the
      order email present, email well formed, password present, password
      long enough; the first failure is shown and nothing is sent. */
  function Submit(emailText: string, passwordText: string, isEmail: string -> bool): (r: Outcome)
    ensures Trim(emailText) == [] ==> r == Refused(EmailInput, EmailRequired)
    ensures (Trim(emailText) != [] && !isEmail(Trim(emailText))
             ==> r == Refused(EmailInput, Message(EmailMessage)))
    ensures (Trim(emailText) != [] && isEmail(Trim(emailText)) && Trim(passwordText) == []
             ==> r == Refused(PasswordInput, PasswordRequired))
    ensures (Trim(emailText) != [] && isEmail(Trim(emailText)) && Trim(passwordText) != []
             && !IsValidPassword(Trim(passwordText))
             ==> r == Refused(PasswordInput, Message(PasswordMessage())))
    ensures (r.Registered?
             <==> Trim(emailText) != [] && isEmail(Trim(emailText)) && IsValidPassword(Trim(passwordText)))
    ensures r.Registered? ==> r.email == Trim(emailText) && r.password == Trim(passwordText)
  {
    var email := Trim(emailText);
    var password := Trim(passwordText);
    var emailError := GetValidationError("email", email, isEmail);
    var passwordError := GetValidationError("password", password, isEmail);
    if email == [] then Refused(EmailInput, EmailRequired)
    else if emailError.Some? then Refused(EmailInput, Message(emailError.value))
    else if password == [] then Refused(PasswordInput, PasswordRequired)
    else if passwordError.Some? then Refused(PasswordInput, Message(passwordError.value))
    else Registered(email, password)
  }

  /** Surrounding spaces are never part of a registered password, and no
      password shorter than the minimum once trimmed is ever sent. */
  lemma RegisteredPasswordIsTrimmedAndLong(emailText: string, passwordText: string, isEmail: string -> bool)
    ensures var r := Submit(emailText, passwordText, isEmail);
      r.Registered? ==> Trimmed(r.password) && |r.password| >= 6
    ensures |Trim(passwordText)| < 6 ==> !Submit(emailText, passwordText, isEmail).Registered?
  {
  }

  /** What the screen shows for a registration state. */
  datatype Controls = Controls(progressVisible: bool, registerEnabled: bool, loginLinkEnabled: bool)

  function ControlsFor(state: AuthViewModel.AuthState): (c: Controls)
    ensures c.progressVisible <==> state.Loading?
    ensures c.registerEnabled == c.loginLinkEnabled == !c.progressVisible
  {
    Controls(state.Loading?, !state.Loading?, !state.Loading?)
  }

  /** While a registration is in flight the buttons are disabled, and they
      come back as soon as the flow publishes its answer. */
  lemma {:induction false} ButtonsFollowRegistration(email: string, authResult: Resource<AuthViewModel.AuthResult>,
                                                     profileResult: Resource<()>)
    ensures var states := AuthViewModel.Register(email, authResult, profileResult).states;
      !ControlsFor(states[0]).registerEnabled
      && (|states| == 2 ==> ControlsFor(states[1]).registerEnabled && ControlsFor(states[1]).loginLinkEnabled)
  {
    var states := AuthViewModel.Register(email, authResult, profileResult).states;
    assert |states| == 2 ==> !states[1].Loading?;
  }
}

=== FILE: sequences.dfy ===
/** Order-preserving subsequences, filtering and first-match search. */
module Sequences {
  import opened Wrappers

  /** `r` is an order-preserving subsequence of `xs`. */
  ghost predicate IsSubsequence<T>(r: seq<T>, xs: seq<T>) {
    if |r| == 0 then true
    else if |xs| == 0 then false
    else (r[|r| - 1] == xs[|xs| - 1] && IsSubsequence(r[..|r| - 1], xs[..|xs| - 1]))
         || IsSubsequence(r, xs[..|xs| - 1])
  }

  lemma SubsequenceSnoc<T>(r: seq<T>, xs: seq<T>, x: T)
    requires IsSubsequence(r, xs)
    ensures IsSubsequence(r + [x], xs + [x])
    ensures IsSubsequence(r, xs + [x])
  {
    assert (r + [x])[..|r|] == r;
    assert (xs + [x])[..|xs|] == xs;
  }

  /** The elements of `xs` that satisfy `keep`, in order. */
  function Filter<T(!new)>(xs: seq<T>, keep: T -> bool): (r: seq<T>)
    ensures IsSubsequence(r, xs)
    ensures forall x :: x in r <==> x in xs && keep(x)
    ensures |r| <= |xs|
  {
    if |xs| == 0 then []
    else
      var pre := Filter(xs[..|xs| - 1], keep);
      var x := xs[|xs| - 1];
      assert xs == xs[..|xs| - 1] + [x];
      SubsequenceSnoc(pre, xs[..|xs| - 1], x);
      if keep(x) then pre + [x] else pre
  }

  /** The position of the first element satisfying `p`. */
  function FirstWhere<T>(xs: seq<T>, p: T -> bool): (r: Option<nat>)
    ensures r.Some? ==> r.value < |xs| && p(xs[r.value]) && forall j :: 0 <= j < r.value ==> !p(xs[j])
    ensures r.None? <==> forall j :: 0 <= j < |xs| ==> !p(xs[j])
  {
    if |xs| == 0 then None
    else if p(xs[0]) then Some(0)
    else match FirstWhere(xs[1..], p)
      case None => None
      case Some(k) => Some(k + 1)
  }

  /** The number of elements of `xs` that satisfy `p`. */
  function Count<T>(xs: seq<T>, p: T -> bool): (n: nat)
    ensures n <= |xs|
  {
    if |xs| == 0 then 0
    else Count(xs[..|xs| - 1], p) + (if p(xs[|xs| - 1]) then 1 else 0)
  }

  /** Counting is the length of the filtered sequence. */
  lemma {:induction false} CountIsFilterLength<T(!new)>(xs: seq<T>, p: T -> bool)
    ensures Count(xs, p) == |Filter(xs, p)|
  {
    if |xs| > 0 {
      CountIsFilterLength(xs[..|xs| - 1], p);
    }
  }
}

=== FILE: setup_profile.dfy ===
/** The profile set-up screen: a bounded history of generated avatar seeds
    with a cursor, and the ordered checks run when the profile is saved. */
module SetupProfile {
  import opened Wrappers
  import opened Text
  import opened Constants
  import opened UserRepository

  /** Seeds generated so far, oldest first, and the position shown. */
  datatype Avatar = Avatar(history: seq<string>, index: int)

  /** The screen's state before set-up: no seed, cursor at 0. */
  const Initial: Avatar := Avatar([], 0)

  /** The cursor points into a history of at most 31 seeds. */
  predicate Valid(a: Avatar) {
    0 <= a.index < |a.history| <= MaxAvatarHistory
  }

  /** The seed on screen. */
  function Current(a: Avatar): string
    requires Valid(a)
  {
    a.history[a.index]
  }

  /** Set-up puts a first seed into an empty history and leaves a filled one
      alone. */
  function Setup(a: Avatar, seed: string): (r: Avatar)
    ensures a.history == [] ==> r == Avatar([seed], 0) && Valid(r) && Current(r) == seed
    ensures a.history != [] ==> r == a
  {
    if |a.history| == 0 then Avatar([seed], 0) else a
  }

  /** The previous button is enabled when the cursor is not at the start. */
  predicate PreviousEnabled(a: Avatar) {
    a.index > 0
  }

  /** "Previous" moves the cursor back when it can; the history never
      changes. */
  function Previous(a: Avatar): (r: Avatar)
    ensures r.history == a.history
    ensures PreviousEnabled(a) ==> r.index == a.index - 1
    ensures !PreviousEnabled(a) ==> r == a
    ensures Valid(a) ==> Valid(r)
  {
    if a.index > 0 then a.(index := a.index - 1) else a
  }

  /** "Next" moves forward through the history; at its end it evicts the
      oldest seed when the history is full, appends `seed` and shows it. */
  function Next(a: Avatar, seed: string): (r: Avatar)
    ensures a.index < |a.history| - 1 ==> r == a.(index := a.index + 1)
    ensures a.index >= |a.history| - 1 ==>
      var kept := if |a.history| >= MaxAvatarHistory then a.history[1..] else a.history;
      r.history == kept + [seed] && r.index == |kept|
    ensures Valid(a) ==> Valid(r)
    ensures Valid(a) && a.index >= |a.history| - 1 ==> Current(r) == seed
  {
    if a.index < |a.history| - 1 then a.(index := a.index + 1)
    else
      var kept := if |a.history| >= MaxAvatarHistory then a.history[1..] else a.history;
      Avatar(kept + [seed], |kept|)
  }

  /** The previous button works exactly when "Previous" moves the cursor. */
  lemma PreviousEnabledMoves(a: Avatar)
    requires Valid(a)
    ensures PreviousEnabled(a) <==> Previous(a) != a
  {
  }

  /** "Previous" after "Next" returns to the seed that was on screen, also
      when "Next" generated a new seed and evicted the oldest. */
  lemma PreviousAfterNext(a: Avatar, seed: string)
    requires Valid(a)
    ensures Valid(Previous(Next(a, seed))) && Current(Previous(Next(a, seed))) == Current(a)
  {
    var r := Next(a, seed);
    if a.index >= |a.history| - 1 {
      var kept := if |a.history| >= MaxAvatarHistory then a.history[1..] else a.history;
      assert r.history[|kept| - 1] == kept[|kept| - 1] == a.history[a.index];
    }
  }

  /** A button press on the avatar picker. */
  datatype Press = PressPrevious | PressNext(seed: string)

  /** The state after a series of presses. */
  function Run(a: Avatar, presses: seq<Press>): (r: Avatar)
    ensures Valid(a) ==> Valid(r)
    ensures (forall i :: 0 <= i < |presses| ==> presses[i].PressPrevious?) ==> r.history == a.history
    decreases |presses|
  {
    if |presses| == 0 then a
    else
      var b := match presses[0]
        case PressPrevious => Previous(a)
        case PressNext(seed) => Next(a, seed);
      Run(b, presses[1..])
  }

  /** From set-up, any series of presses keeps the cursor inside a history
      of at most 31 seeds. */
  lemma RunFromSetup(seed: string, presses: seq<Press>)
    ensures Valid(Run(Setup(Initial, seed), presses))
  {
  }

  const FullNameEmpty: string := "İsim boş bırakılamaz"
  const UsernameEmpty: string := "Kullanıcı adı boş bırakılamaz"
  const UsernameMalformed: string := "Kullanıcı adı 3-20 karakter olmalı (a-z, 0-9, _)"
  const DistrictEmpty: string := "Lütfen ilçe seçiniz"

  /** The texts of the form's four fields as typed. */
  datatype Form = Form(fullName: string, username: string, city: string, district: string)

  /** A rejection with the message shown under the offending field, or the
      profile passed on for completion. */
  datatype SaveOutcome =
    | Rejected(message: string)
    | Submit(fullName: string, username: string, city: string, district: string, avatarSeed: string)

  /** The seed under the cursor, or `spare` when the cursor is outside the
      history. */
  function SelectedSeed(a: Avatar, spare: string): (r: string)
    ensures Valid(a) ==> r == Current(a)
  {
    if 0 <= a.index < |a.history| then a.history[a.index] else spare
  }

  /** The save button: the fields are trimmed, the username is brought to its
      stored form, and the checks run in order (full name, username present,
      username pattern, district). The first failure stops the save. */
  function Save(f: Form, a: Avatar, spare: string): (r: SaveOutcome)
    ensures Trim(f.fullName) == [] ==> r == Rejected(FullNameEmpty)
    ensures Trim(f.fullName) != [] && IsBlank(NormalizeUsername(f.username)) ==> r == Rejected(UsernameEmpty)
    ensures (Trim(f.fullName) != [] && !IsBlank(NormalizeUsername(f.username))
             && !MatchesUsernamePattern(NormalizeUsername(f.username))) ==> r == Rejected(UsernameMalformed)
    ensures (Trim(f.fullName) != [] && MatchesUsernamePattern(NormalizeUsername(f.username))
             && Trim(f.district) == []) ==> r == Rejected(DistrictEmpty)
    ensures r.Submit? <==> Trim(f.fullName) != [] && MatchesUsernamePattern(NormalizeUsername(f.username)) && Trim(f.district) != []
    ensures r.Submit? ==> (r.fullName == Trim(f.fullName) && r.username == NormalizeUsername(f.username)
                           && r.city == Trim(f.city) && r.district == Trim(f.district))
    ensures r.Submit? && Valid(a) ==> r.avatarSeed == Current(a)
  {
    var fullName := Trim(f.fullName);
    var username := NormalizeUsername(f.username);
    var district := Trim(f.district);
    if fullName == [] then Rejected(FullNameEmpty)
    else if IsBlank(username) then Rejected(UsernameEmpty)
    else if !MatchesUsernamePattern(username) then Rejected(UsernameMalformed)
    else if district == [] then Rejected(DistrictEmpty)
    else Submit(fullName, username, Trim(f.city), district, SelectedSeed(a, spare))
  }

  /** A profile the form submits passes the repository's username check
      unchanged: normalising it again gives it back and it matches the
      pattern, so the update is never refused as malformed. */
  lemma SubmittedNameAccepted(f: Form, a: Avatar, spare: string, st: Store, uid: string)
    requires Save(f, a, spare).Submit?
    ensures var r := Save(f, a, spare);
      NormalizeUsername(r.username) == r.username
      && UpdateUserProfile(st, uid, r.username, ProfileInput(r.fullName, r.city, r.district, r.avatarSeed)).result
         != Fail(InvalidUsername)
  {
    var r := Save(f, a, spare);
    var o := UpdateUserProfile(st, uid, r.username, ProfileInput(r.fullName, r.city, r.district, r.avatarSeed));
    var e := StoredUsername(UserDoc(st, uid));
    assert o.result.Error? ==> o.result == Fail(UsernameImmutable) || o.result == Fail(UsernameTaken);
  }
}

=== FILE: sorting.dfy ===
/** Stable insertion sort by a caller-supplied "less or equal", and the
    lexicographic order on strings by character. Kotlin's `compareTo`
    compares UTF-16 code units; the two orders agree on the Basic
    Multilingual Plane and may differ once a string holds a character
    beyond it. */
module Sorting {

  /** Lexicographic order by character code. */
  predicate LexLe(a: string, b: string) {
    if |a| == 0 then true
    else if |b| == 0 then false
    else if a[0] != b[0] then a[0] < b[0]
    else LexLe(a[1..], b[1..])
  }

  lemma {:induction false} LexTotal(a: string, b: string)
    ensures LexLe(a, b) || LexLe(b, a)
  {
    if |a| > 0 && |b| > 0 && a[0] == b[0] {
      LexTotal(a[1..], b[1..]);
    }
  }

  lemma {:induction false} LexTrans(a: string, b: string, c: string)
    requires LexLe(a, b) && LexLe(b, c)
    ensures LexLe(a, c)
  {
    if |a| > 0 && |b| > 0 && |c| > 0 && a[0] == b[0] && b[0] == c[0] {
      LexTrans(a[1..], b[1..], c[1..]);
    }
  }

  /** Only equal strings are ordered both ways. */
  lemma {:induction false} LexAntisymmetric(a: string, b: string)
    requires LexLe(a, b) && LexLe(b, a)
    ensures a == b
  {
    if |a| > 0 && |b| > 0 {
      LexAntisymmetric(a[1..], b[1..]);
      assert a == [a[0]] + a[1..];
      assert b == [b[0]] + b[1..];
    }
  }

  ghost predicate Total<T(!new)>(le: (T, T) -> bool) {
    forall a, b :: le(a, b) || le(b, a)
  }

  /** Each element is at most its successor. */
  ghost predicate Sorted<T>(s: seq<T>, le: (T, T) -> bool) {
    forall i :: 0 <= i < |s| - 1 ==> le(s[i], s[i + 1])
  }

  /** Inserts `x` in front of the first element it is at most. */
  function InsertBy<T(!new)>(x: T, s: seq<T>, le: (T, T) -> bool): (r: seq<T>)
    ensures multiset(r) == multiset(s) + multiset{x}
    ensures |r| > 0 && (r[0] == x || (|s| > 0 && r[0] == s[0]))
    ensures Total(le) && Sorted(s, le) ==> Sorted(r, le)
  {
    if |s| == 0 then [x]
    else if le(x, s[0]) then [x] + s
    else
      var rest := InsertBy(x, s[1..], le);
      assert s == [s[0]] + s[1..];
      assert Total(le) && Sorted(s, le) ==> Sorted(s[1..], le) && le(s[0], x);
      [s[0]] + rest
  }

  /** Insertion sort: a permutation of `s`, sorted when `le` is total.
      Elements `le` ranks equal keep their original order. */
  function SortBy<T(!new)>(s: seq<T>, le: (T, T) -> bool): (r: seq<T>)
    ensures multiset(r) == multiset(s) && |r| == |s|
    ensures Total(le) ==> Sorted(r, le)
  {
    if |s| == 0 then []
    else
      assert s == [s[0]] + s[1..];
      InsertBy(s[0], SortBy(s[1..], le), le)
  }

  ghost predicate Transitive<T(!new)>(le: (T, T) -> bool) {
    forall a, b, c :: le(a, b) && le(b, c) ==> le(a, c)
  }

  /** `le` ranks `a` and `b` equal. */
  predicate Tied<T>(le: (T, T) -> bool, a: T, b: T) {
    le(a, b) && le(b, a)
  }

  /** The elements of `s` that `le` ranks equal to `k`, in order. */
  function Ties<T>(s: seq<T>, le: (T, T) -> bool, k: T): seq<T> {
    if |s| == 0 then []
    else TieOf(le, s[0], k) + Ties(s[1..], le, k)
  }

  /** The ties of a sequence with a known first element. */
  lemma TiesCons<T>(a: T, s: seq<T>, le: (T, T) -> bool, k: T)
    ensures Ties([a] + s, le, k) == TieOf(le, a, k) + Ties(s, le, k)
  {
    assert ([a] + s)[0] == a && ([a] + s)[1..] == s;
  }

  /** The singleton `[a]` when `a` is ranked equal to `k`, else empty. */
  function TieOf<T>(le: (T, T) -> bool, a: T, k: T): seq<T> {
    if Tied(le, a, k) then [a] else []
  }

  /** Inserting `x` puts it in front of every element ranked equal to it. */
  lemma {:induction false} InsertByTies<T(!new)>(x: T, s: seq<T>, le: (T, T) -> bool, k: T)
    requires Transitive(le)
    ensures Ties(InsertBy(x, s, le), le, k) == TieOf(le, x, k) + Ties(s, le, k)
  {
    if |s| == 0 || le(x, s[0]) {
      assert InsertBy(x, s, le) == [x] + s;
      TiesCons(x, s, le, k);
    } else {
      var rest := InsertBy(x, s[1..], le);
      assert InsertBy(x, s, le) == [s[0]] + rest;
      InsertByTies(x, s[1..], le, k);
      TiesCons(s[0], rest, le, k);
      TiesCons(s[0], s[1..], le, k);
      assert s == [s[0]] + s[1..];
      SwapTies(le, x, s[0], k);
    }
  }

  /** An element that is not ranked at most `b` is not tied with `b` via `k`,
      so the two singletons commute. */
  lemma SwapTies<T(!new)>(le: (T, T) -> bool, x: T, b: T, k: T)
    requires Transitive(le) && !le(x, b)
    ensures TieOf(le, b, k) + TieOf(le, x, k) == TieOf(le, x, k) + TieOf(le, b, k)
  {
    if Tied(le, x, k) {
      assert !Tied(le, b, k);
    }
  }

  /** The sort is stable: the elements ranked equal to any `k` come out in
      the order they went in. */
  lemma {:induction false} SortByStable<T(!new)>(s: seq<T>, le: (T, T) -> bool, k: T)
    requires Transitive(le)
    ensures Ties(SortBy(s, le), le, k) == Ties(s, le, k)
  {
    if |s| > 0 {
      SortByStable(s[1..], le, k);
      InsertByTies(s[0], SortBy(s[1..], le), le, k);
    }
  }

  /** With a transitive order, sorted neighbours give sorted pairs. */
  lemma {:induction false} SortedPairs<T>(s: seq<T>, le: (T, T) -> bool, i: nat, j: nat)
    requires Sorted(s, le) && i <= j < |s|
    requires forall a, b, c :: le(a, b) && le(b, c) ==> le(a, c)
    requires forall a :: le(a, a)
    ensures le(s[i], s[j])
    decreases j - i
  {
    if i < j {
      SortedPairs(s, le, i + 1, j);
    }
  }
}

=== FILE: status_updates.dfy ===
/** The status-update screen: who may open the update dialog, which status
    the dialog starts on, and when the empty state shows. */
module StatusUpdates {
  import opened Wrappers
  import opened Constants
  import opened Model
  import PostStatus
  import Authorization

  function RoleOf(user: Option<User>): Option<string> {
    if user.Some? then Some(user.value.role) else None
  }

  function UidOf(user: Option<User>): Option<string> {
    if user.Some? then Some(user.value.uid) else None
  }

  function AuthorOf(post: Option<Post>): Option<string> {
    if post.Some? then post.value.authorId else None
  }

  /** The permission check as the screen writes it: nullable role compared
      with "official" and "admin", and the nullable author id compared with
      the nullable uid. Two absent values compare equal, so with no user
      signed in the check passes whenever the post, or its author, is
      absent. */
  function CanUpdateAsWritten(user: Option<User>, post: Option<Post>): (r: bool)
    ensures user.Some? ==> (r <==> user.value.role == RoleOfficial || user.value.role == RoleAdmin
                                   || (post.Some? && post.value.authorId == Some(user.value.uid)))
    ensures user.None? ==> (r <==> post.None? || post.value.authorId.None?)
  {
    RoleOf(user) == Some(RoleOfficial) || RoleOf(user) == Some(RoleAdmin) || AuthorOf(post) == UidOf(user)
  }

  /** No user and no post loaded: the check as written lets the dialog
      open. */
  lemma AsWrittenLetsAnonymousIn()
    ensures CanUpdateAsWritten(None, None)
  {
  }

  /** The intended check: a signed-in official or admin, or the signed-in
      author of the loaded post. */
  function CanUpdate(user: Option<User>, post: Option<Post>): (r: bool)
    ensures user.None? ==> !r
    ensures r <==> Authorization.CanUpdatePostStatus(user)
                   || (user.Some? && post.Some? && post.value.authorId == Some(user.value.uid))
  {
    user.Some? && (RoleOf(user) == Some(RoleOfficial) || RoleOf(user) == Some(RoleAdmin) || AuthorOf(post) == UidOf(user))
  }

  /** The two checks agree whenever a user is signed in: the correction
      changes only the signed-out case. */
  lemma CorrectionOnlyAffectsSignedOut(user: Option<User>, post: Option<Post>)
    ensures user.Some? ==> CanUpdate(user, post) == CanUpdateAsWritten(user, post)
    ensures CanUpdate(user, post) ==> CanUpdateAsWritten(user, post)
  {
  }

  /** The status the dialog starts on: the loaded post's, else `New`. */
  function DefaultDialogStatus(post: Option<Post>): (r: PostStatus.Status)
    ensures post.None? ==> r == PostStatus.New
    ensures post.Some? ==> PostStatus.Value(r) == post.value.status || r == PostStatus.New
  {
    if post.Some? then post.value.StatusEnum() else PostStatus.New
  }

  const NotAllowed: string := "Durum güncellemek için yetkiniz yok"

  /** Choosing "update status" from the menu. */
  datatype MenuOutcome = OpenDialog(initial: PostStatus.Status) | Refused(message: string)

  /** The menu handler as the screen writes it, on the check as written. */
  function UpdateStatusSelectedAsWritten(user: Option<User>, post: Option<Post>): (r: MenuOutcome)
    ensures r.OpenDialog? <==> CanUpdateAsWritten(user, post)
    ensures r.OpenDialog? ==> r.initial == DefaultDialogStatus(post)
    ensures r.Refused? ==> r.message == NotAllowed
  {
    if CanUpdateAsWritten(user, post) then OpenDialog(DefaultDialogStatus(post)) else Refused(NotAllowed)
  }

  /** With nobody signed in and no post loaded, the handler as written opens
      the dialog on `New`, where the corrected handler refuses. */
  lemma AsWrittenMenuOpensForAnonymous()
    ensures UpdateStatusSelectedAsWritten(None, None) == OpenDialog(PostStatus.New)
    ensures UpdateStatusSelected(None, None) == Refused(NotAllowed)
  {
  }

  /** The menu handler on the corrected check: only a signed-in official,
      admin or author gets the dialog. */
  function UpdateStatusSelected(user: Option<User>, post: Option<Post>): (r: MenuOutcome)
    ensures r.OpenDialog? <==> CanUpdate(user, post)
    ensures user.None? ==> r == Refused(NotAllowed)
    ensures r.OpenDialog? ==> r.initial == DefaultDialogStatus(post)
    ensures r.Refused? ==> r.message == NotAllowed
  {
    if CanUpdate(user, post) then OpenDialog(DefaultDialogStatus(post)) else Refused(NotAllowed)
  }

  /** For a signed-in user the two handlers agree. */
  lemma HandlersAgreeSignedIn(user: User, post: Option<Post>)
    ensures UpdateStatusSelected(Some(user), post) == UpdateStatusSelectedAsWritten(Some(user), post)
  {
    CorrectionOnlyAffectsSignedOut(Some(user), post);
  }

  /** A citizen who did not write the post is refused, by the handler as
      written and by the corrected one. */
  lemma CitizenNonAuthorRefused(user: User, post: Post)
    requires user.role != RoleOfficial && user.role != RoleAdmin
    requires post.authorId != Some(user.uid)
    ensures UpdateStatusSelectedAsWritten(Some(user), Some(post)) == Refused(NotAllowed)
    ensures UpdateStatusSelected(Some(user), Some(post)) == Refused(NotAllowed)
  {
  }

  /** The dialog opened on a post starts on the post's own status whenever
      that status is one of the four known values. */
  lemma DialogStartsOnPostStatus(user: Option<User>, post: Post, s: PostStatus.Status)
    requires post.status == PostStatus.Value(s)
    requires CanUpdateAsWritten(user, Some(post))
    ensures UpdateStatusSelectedAsWritten(user, Some(post)) == OpenDialog(s)
  {
    PostStatus.FromStringValue(s);
  }

  /** What a successful load shows: the empty-state text or the list, and
      the list handed to the adapter (nothing when it is empty). */
  datatype UpdatesView<T> = UpdatesView(emptyStateVisible: bool, listVisible: bool, submitted: Option<seq<T>>)

  function ShowUpdates<T>(data: Option<seq<T>>): (r: UpdatesView<T>)
    ensures r.emptyStateVisible <==> !r.listVisible
    ensures r.emptyStateVisible <==> data.None? || |data.value| == 0
    ensures r.listVisible ==> r.submitted == data
    ensures r.emptyStateVisible ==> r.submitted.None?
  {
    var updates := data.GetOr([]);
    if |updates| == 0 then UpdatesView(true, false, None) else UpdatesView(false, true, Some(updates))
  }
}

=== FILE: text.dfy ===
/** Kotlin string helpers the app relies on (`trim`, `isBlank`, `lowercase`,
    `removePrefix`, `joinToString`, `toString` of integers), restricted to
    ASCII where the platform's definition is Unicode-wide. */
module Text {

  /** Java's `Character.isWhitespace` on the ASCII range: space, tab, line
      feed, vertical tab, form feed, carriage return and the four
      information separators U+001C..U+001F. */
  predicate IsWhitespace(c: char) {
    c == ' ' || c == '\t' || c == '\n' || c == '\U{B}' || c == '\U{C}' || c == '\r'
    || ('\U{1C}' <= c <= '\U{1F}')
  }

  /** Kotlin `isBlank`: empty or whitespace only. */
  predicate IsBlank(s: string) {
    forall i :: 0 <= i < |s| ==> IsWhitespace(s[i])
  }

  /** No whitespace at either end (vacuously true of the empty string). */
  predicate Trimmed(s: string) {
    |s| == 0 || (!IsWhitespace(s[0]) && !IsWhitespace(s[|s| - 1]))
  }

  /** Kotlin `trim()`: whitespace is dropped from both ends, one character
      at a time. */
  function Trim(s: string): (r: string)
    ensures |r| <= |s|
    ensures Trimmed(r)
    ensures r == [] <==> IsBlank(s)
  {
    if |s| > 0 && IsWhitespace(s[0]) then
      assert IsBlank(s) <==> IsBlank(s[1..]) by {
        assert forall i :: 0 < i < |s| ==> s[i] == s[1..][i - 1];
      }
      Trim(s[1..])
    else if |s| > 0 && IsWhitespace(s[|s| - 1]) then
      assert IsBlank(s) <==> IsBlank(s[..|s| - 1]) by {
        assert forall i :: 0 <= i < |s| - 1 ==> s[i] == s[..|s| - 1][i];
      }
      Trim(s[..|s| - 1])
    else
      s
  }

  /** Trimming a non-empty trimmed string with blanks around it gives the
      string back. */
  lemma {:induction false} TrimPadded(pre: string, x: string, post: string)
    requires IsBlank(pre) && IsBlank(post) && Trimmed(x) && |x| > 0
    ensures Trim(pre + x + post) == x
    decreases |pre| + |post|
  {
    var s := pre + x + post;
    if |pre| > 0 {
      assert pre == [pre[0]] + pre[1..];
      assert s == [pre[0]] + (pre[1..] + x + post);
      assert s[1..] == pre[1..] + x + post;
      TrimPadded(pre[1..], x, post);
    } else if |post| > 0 {
      assert s == x + post;
      assert s[0] == x[0];
      assert s[|s| - 1] == post[|post| - 1];
      assert s[..|s| - 1] == pre + x + post[..|post| - 1];
      TrimPadded(pre, x, post[..|post| - 1]);
    } else {
      assert s == x;
    }
  }

  /** A string without whitespace at its ends is its own trim. */
  lemma TrimOfTrimmed(s: string)
    requires Trimmed(s)
    ensures Trim(s) == s
  {
  }

  /** A non-empty trimmed string is never blank. */
  lemma TrimmedNonEmptyNotBlank(s: string)
    requires Trimmed(s) && |s| > 0
    ensures !IsBlank(s)
  {
    assert !IsWhitespace(s[0]);
  }

  function LowerChar(c: char): char {
    if 'A' <= c <= 'Z' then (c as int + 32) as char else c
  }

  /** Kotlin `lowercase()` on the ASCII letters; every other character is
      kept as is. */
  function ToLower(s: string): (r: string)
    ensures |r| == |s|
    ensures forall i :: 0 <= i < |s| ==> r[i] == LowerChar(s[i])
  {
    if |s| == 0 then [] else [LowerChar(s[0])] + ToLower(s[1..])
  }

  /** Lowercasing neither creates nor removes whitespace. */
  lemma ToLowerKeepsTrimmed(s: string)
    requires Trimmed(s)
    ensures Trimmed(ToLower(s))
  {
  }

  /** Lowercasing a string without capital letters changes nothing. */
  lemma ToLowerOfLower(s: string)
    requires forall i :: 0 <= i < |s| ==> !('A' <= s[i] <= 'Z')
    ensures ToLower(s) == s
  {
  }

  /** Kotlin `removePrefix`: one occurrence of `p` is removed from the front. */
  function RemovePrefix(s: string, p: string): string {
    if |p| <= |s| && s[..|p|] == p then s[|p|..] else s
  }

  /** Kotlin `joinToString(sep)`. */
  function Join(xs: seq<string>, sep: string): (r: string)
    ensures |xs| == 0 ==> r == []
    ensures |xs| == 1 ==> r == xs[0]
  {
    if |xs| == 0 then []
    else if |xs| == 1 then xs[0]
    else xs[0] + sep + Join(xs[1..], sep)
  }

  /** With a separator that is not blank (Kotlin's default `", "`), a joined
      list is blank exactly when it is empty or its single entry is blank. */
  lemma {:induction false} JoinBlank(xs: seq<string>, sep: string)
    requires !IsBlank(sep)
    ensures IsBlank(Join(xs, sep)) <==> |xs| == 0 || (|xs| == 1 && IsBlank(xs[0]))
  {
    if |xs| >= 2 {
      var k :| 0 <= k < |sep| && !IsWhitespace(sep[k]);
      var r := Join(xs, sep);
      assert r == xs[0] + sep + Join(xs[1..], sep);
      assert r[|xs[0]| + k] == sep[k];
    }
  }

  function DigitChar(d: int): char
    requires 0 <= d < 10
  {
    "0123456789"[d]
  }

  /** Decimal rendering of a natural number, most significant digit first,
      with no leading zero. */
  function NatToString(n: nat): (r: string)
    ensures |r| >= 1
    ensures forall i :: 0 <= i < |r| ==> '0' <= r[i] <= '9'
    ensures |r| > 1 ==> r[0] != '0'
  {
    if n < 10 then [DigitChar(n)] else NatToString(n / 10) + [DigitChar(n % 10)]
  }

  /** Kotlin's `Int.toString()`: a minus sign before the magnitude of a
      negative number. */
  function IntToString(n: int): string {
    if n < 0 then "-" + NatToString(-n) else NatToString(n)
  }

  /** The value of a string of decimal digits. */
  function DigitsValue(s: string): nat
    requires forall i :: 0 <= i < |s| ==> '0' <= s[i] <= '9'
  {
    if |s| == 0 then 0 else 10 * DigitsValue(s[..|s| - 1]) + (s[|s| - 1] as int - '0' as int)
  }

  /** Reading the digits back recovers the number. */
  lemma {:induction false} NatToStringRoundTrip(n: nat)
    ensures DigitsValue(NatToString(n)) == n
  {
    var s := NatToString(n);
    if n >= 10 {
      NatToStringRoundTrip(n / 10);
      assert s[..|s| - 1] == NatToString(n / 10);
    }
  }

  lemma NatToStringInjective(m: nat, n: nat)
    requires NatToString(m) == NatToString(n)
    ensures m == n
  {
    NatToStringRoundTrip(m);
    NatToStringRoundTrip(n);
  }

  /** Different integers render differently. */
  lemma IntToStringInjective(a: int, b: int)
    requires IntToString(a) == IntToString(b)
    ensures a == b
  {
    var sa, sb := IntToString(a), IntToString(b);
    if a < 0 && b < 0 {
      assert NatToString(-a) == sa[1..];
      assert NatToString(-b) == sb[1..];
      NatToStringInjective(-a, -b);
    } else if a >= 0 && b >= 0 {
      NatToStringInjective(a, b);
    }
  }
}

=== FILE: user_repository.dfy ===
/** The user repository over an abstract document store: username
    normalisation, the atomic profile update that claims a username, role
    lookup, the user listing and search by username. */
module UserRepository {
  import opened Wrappers
  import opened Text
  import opened Constants
  import opened Model
  import opened Sorting
  import opened Sequences

  /** A stored field value; only the kinds the repository reads are modelled. */
  datatype Value = Str(s: string) | Num(n: int)

  /** The field names the repository reads or writes; any other field a
      document may hold is `Other`. `Other` never carries the stored name of
      a field listed here (`Other("username")` would be a second spelling of
      `Username`), and no operation of this model creates one. */
  datatype Field =
    | FullName | Username | City | District | AvatarSeed | Title
    | Email | Role | Points | Uid | Admin | Official | RoleEnum
    | Other(name: string)

  /** A document is a map from field to value. */
  type Doc = map<Field, Value>

  /** The two collections: `users` keyed by uid, and `usernames` keyed by the
      claimed name, each name document holding the owner's uid. */
  datatype Store = Store(users: map<string, Doc>, usernames: map<string, Doc>)

  const InvalidUsername: string := "Geçersiz kullanıcı adı"
  const UsernameImmutable: string := "Kullanıcı adı değiştirilemez"
  const UsernameTaken: string := "Bu kullanıcı adı zaten alınmış"
  const UserNotFound: string := "Kullanıcı bulunamadı."
  const NoSuchUser: string := "Böyle bir kullanıcı yok"

  /** The fields the older schema kept and every profile write deletes. */
  const LegacyFields: set<Field> := {Admin, Official, RoleEnum}

  /** The fields a profile write sets. */
  const ProfileFields: set<Field> := {FullName, Username, City, District, AvatarSeed, Title}

  /** A string field, `None` when missing or not a string. */
  function GetString(d: Doc, field: Field): Option<string> {
    if field in d && d[field].Str? then Some(d[field].s) else None
  }

  /** A number field, `None` when missing or not a number. */
  function GetNumber(d: Doc, field: Field): Option<int> {
    if field in d && d[field].Num? then Some(d[field].n) else None
  }

  /** The user document for `uid`; a missing document reads as empty. */
  function UserDoc(st: Store, uid: string): Doc {
    if uid in st.users then st.users[uid] else map[]
  }

  predicate IsUsernameChar(c: char) {
    'a' <= c <= 'z' || '0' <= c <= '9' || c == '_'
  }

  /** The pattern `^[a-z0-9_]{3,20}$`. */
  predicate MatchesUsernamePattern(s: string) {
    3 <= |s| <= 20 && forall i :: 0 <= i < |s| ==> IsUsernameChar(s[i])
  }

  /** A name in the accepted form is already trimmed and lower case. */
  lemma PatternIsCanonical(s: string)
    requires MatchesUsernamePattern(s)
    ensures Trimmed(s) && Trim(s) == s && ToLower(s) == s
  {
    TrimOfTrimmed(s);
    ToLowerOfLower(s);
  }

  /** A name in the accepted form has no blank ends and no leading "@", so
      normalising leaves it alone. */
  lemma NormalizeFixesPattern(s: string)
    ensures MatchesUsernamePattern(s) ==> ToLower(Trim(RemovePrefix(Trim(s), "@"))) == s
  {
    if MatchesUsernamePattern(s) {
      PatternIsCanonical(s);
      assert s[..1] != "@" by { assert IsUsernameChar(s[0]); }
    }
  }

  /** Trim, drop one leading "@", trim again, lower-case. The result is
      trimmed, and a name already in the accepted form is left alone. */
  function NormalizeUsername(input: string): (r: string)
    ensures Trimmed(r) && |r| <= |input|
    ensures MatchesUsernamePattern(input) ==> r == input
  {
    ToLowerKeepsTrimmed(Trim(RemovePrefix(Trim(input), "@")));
    NormalizeFixesPattern(input);
    ToLower(Trim(RemovePrefix(Trim(input), "@")))
  }

  /** A handle typed with a leading "@", surrounding blanks or capitals
      normalises to the bare lower-case name. */
  lemma NormalizeDecorated(name: string, pre: string, post: string)
    requires MatchesUsernamePattern(name)
    requires IsBlank(pre) && IsBlank(post)
    ensures NormalizeUsername(pre + "@" + name + post) == name
  {
    assert IsUsernameChar(name[0]) && IsUsernameChar(name[|name| - 1]);
    assert pre + "@" + name + post == pre + ("@" + name) + post;
    TrimPadded(pre, "@" + name, post);
    assert RemovePrefix("@" + name, "@") == name;
    PatternIsCanonical(name);
  }

  /** The stored username as the update compares it: trimmed, lower case. */
  function StoredUsername(d: Doc): (r: string)
    ensures Trimmed(r)
    ensures r == [] <==> IsBlank(GetString(d, Username).GetOr(""))
  {
    var t := Trim(GetString(d, Username).GetOr(""));
    ToLowerKeepsTrimmed(t);
    ToLower(t)
  }

  /** The merge write of a profile update: the six profile fields are set,
      the legacy fields deleted, and every other field kept. */
  function MergeProfile(d: Doc, fullName: string, username: string, city: string,
                        district: string, avatarSeed: string): (r: Doc)
    ensures GetString(r, FullName) == Some(fullName) && GetString(r, Username) == Some(username)
    ensures GetString(r, City) == Some(city) && GetString(r, District) == Some(district)
    ensures GetString(r, AvatarSeed) == Some(avatarSeed)
    ensures GetString(r, Title) == Some(TitleSensitiveCitizen)
    ensures Admin !in r && Official !in r && RoleEnum !in r
    ensures forall f :: f in d && f !in ProfileFields && f !in LegacyFields ==> f in r && r[f] == d[f]
    ensures forall f :: f in r ==> f in d || f in ProfileFields
  {
    (d - LegacyFields) + map[
      FullName := Str(fullName), Username := Str(username), City := Str(city),
      District := Str(district), AvatarSeed := Str(avatarSeed),
      Title := Str(TitleSensitiveCitizen)]
  }

  /** A field outside the profile and legacy sets reads the same after a
      merge. */
  lemma MergeKeeps(d: Doc, fullName: string, username: string, city: string,
                   district: string, avatarSeed: string, f: Field)
    requires f !in ProfileFields && f !in LegacyFields
    ensures GetString(MergeProfile(d, fullName, username, city, district, avatarSeed), f) == GetString(d, f)
  {
    var r := MergeProfile(d, fullName, username, city, district, avatarSeed);
    assert f in r ==> f in d;
  }

  /** The registry document written for a fresh claim. The server timestamp
      it also carries is not modelled. */
  function ClaimDoc(uid: string): (r: Doc)
    ensures GetString(r, Uid) == Some(uid)
  {
    map[Uid := Str(uid)]
  }

  /** The profile fields an update writes besides the username. */
  datatype ProfileInput = ProfileInput(fullName: string, city: string, district: string, avatarSeed: string)

  /** The merge write of `p` with the username `n`. */
  function Merged(d: Doc, n: string, p: ProfileInput): Doc {
    MergeProfile(d, p.fullName, n, p.city, p.district, p.avatarSeed)
  }

  /** The result of an update and the store after it. */
  datatype Update = Update(result: Resource<()>, store: Store)

  /** The transaction run for a validated name `n`: changing a set username
      and claiming a taken name fail without writing; otherwise the profile
      is merged into the user document and, on a first claim, `n` is
      registered to `uid`. */
  function Transaction(st: Store, uid: string, n: string, p: ProfileInput): (o: Update)
    ensures var e := StoredUsername(UserDoc(st, uid));
      !IsBlank(e) && e != n ==> o == Update(Fail(UsernameImmutable), st)
    ensures var e := StoredUsername(UserDoc(st, uid));
      IsBlank(e) && n in st.usernames ==> o == Update(Fail(UsernameTaken), st)
    ensures var e := StoredUsername(UserDoc(st, uid));
      o.result.Success? <==> (!IsBlank(e) && e == n) || (IsBlank(e) && n !in st.usernames)
    ensures !o.result.Success? ==> o.store == st
    ensures o.result.Success? ==> o.store.users == st.users[uid := Merged(UserDoc(st, uid), n, p)]
    ensures var e := StoredUsername(UserDoc(st, uid));
      o.result.Success? ==> o.store.usernames == if IsBlank(e) then st.usernames[n := ClaimDoc(uid)] else st.usernames
  {
    var e := StoredUsername(UserDoc(st, uid));
    if !IsBlank(e) && e != n then Update(Fail(UsernameImmutable), st)
    else if IsBlank(e) && n in st.usernames then Update(Fail(UsernameTaken), st)
    else
      var names := if IsBlank(e) then st.usernames[n := ClaimDoc(uid)] else st.usernames;
      Update(Done(()), Store(st.users[uid := Merged(UserDoc(st, uid), n, p)], names))
  }

  /** The profile update: a name that does not normalise to the accepted
      form fails without writing; any other runs the transaction. */
  function UpdateUserProfile(st: Store, uid: string, username: string, p: ProfileInput): (o: Update)
    ensures !MatchesUsernamePattern(NormalizeUsername(username)) ==> o == Update(Fail(InvalidUsername), st)
    ensures MatchesUsernamePattern(NormalizeUsername(username)) ==> o == Transaction(st, uid, NormalizeUsername(username), p)
  {
    var n := NormalizeUsername(username);
    assert MatchesUsernamePattern(n) ==> IsUsernameChar(n[0]) && !IsWhitespace(n[0]);
    if IsBlank(n) || !MatchesUsernamePattern(n) then Update(Fail(InvalidUsername), st)
    else Transaction(st, uid, n, p)
  }

  /** `n` is registered to `uid`. */
  predicate ClaimedBy(st: Store, n: string, uid: string) {
    n in st.usernames && GetString(st.usernames[n], Uid) == Some(uid)
  }

  /** Every user with a username holds the registry entry for it. */
  ghost predicate Consistent(st: Store) {
    forall u | u in st.users :: !IsBlank(StoredUsername(st.users[u])) ==> ClaimedBy(st, StoredUsername(st.users[u]), u)
  }

  /** In a consistent store no two users share a username. */
  lemma ConsistentUnique(st: Store, u: string, v: string)
    requires Consistent(st) && u in st.users && v in st.users
    requires !IsBlank(StoredUsername(st.users[u]))
    requires StoredUsername(st.users[u]) == StoredUsername(st.users[v])
    ensures u == v
  {
  }

  /** After a successful transaction the stored username is `n`. */
  lemma {:induction false} TransactionStoresName(st: Store, uid: string, n: string, p: ProfileInput)
    requires MatchesUsernamePattern(n)
    requires Transaction(st, uid, n, p).result.Success?
    ensures StoredUsername(UserDoc(Transaction(st, uid, n, p).store, uid)) == n
  {
    var o := Transaction(st, uid, n, p);
    PatternIsCanonical(n);
    assert GetString(UserDoc(o.store, uid), Username) == Some(n);
  }

  /** A username once set never changes, whatever the update asks for. */
  lemma {:induction false} UsernameNeverChanges(st: Store, uid: string, username: string, p: ProfileInput)
    requires !IsBlank(StoredUsername(UserDoc(st, uid)))
    ensures StoredUsername(UserDoc(UpdateUserProfile(st, uid, username, p).store, uid)) == StoredUsername(UserDoc(st, uid))
  {
    var n := NormalizeUsername(username);
    if MatchesUsernamePattern(n) && Transaction(st, uid, n, p).result.Success? {
      TransactionStoresName(st, uid, n, p);
    }
  }

  /** After a successful transaction `n` is registered to the writer. */
  lemma TransactionClaims(st: Store, uid: string, n: string, p: ProfileInput)
    requires Consistent(st)
    requires Transaction(st, uid, n, p).result.Success?
    ensures ClaimedBy(Transaction(st, uid, n, p).store, n, uid)
  {
    var e := StoredUsername(UserDoc(st, uid));
    if !IsBlank(e) {
      assert uid in st.users;
    }
  }

  /** A successful transaction keeps every other user's registration. */
  lemma TransactionKeepsOtherClaims(st: Store, uid: string, n: string, p: ProfileInput, u: string)
    requires Consistent(st)
    requires Transaction(st, uid, n, p).result.Success?
    requires u != uid && u in st.users && !IsBlank(StoredUsername(st.users[u]))
    ensures ClaimedBy(Transaction(st, uid, n, p).store, StoredUsername(st.users[u]), u)
  {
    var o := Transaction(st, uid, n, p);
    var e := StoredUsername(UserDoc(st, uid));
    var m := StoredUsername(st.users[u]);
    assert ClaimedBy(st, m, u);
    if m == n && !IsBlank(e) {
      assert uid in st.users;
      assert ClaimedBy(st, n, uid);
    }
  }

  /** The transaction keeps every user's username registered to them. */
  lemma {:induction false} TransactionPreservesConsistent(st: Store, uid: string, n: string, p: ProfileInput)
    requires Consistent(st) && MatchesUsernamePattern(n)
    ensures Consistent(Transaction(st, uid, n, p).store)
  {
    var o := Transaction(st, uid, n, p);
    if o.result.Success? {
      TransactionStoresName(st, uid, n, p);
      TransactionClaims(st, uid, n, p);
      forall u | u in o.store.users && !IsBlank(StoredUsername(o.store.users[u]))
        ensures ClaimedBy(o.store, StoredUsername(o.store.users[u]), u)
      {
        if u != uid {
          assert o.store.users[u] == st.users[u];
          TransactionKeepsOtherClaims(st, uid, n, p, u);
        }
      }
    }
  }

  /** Every profile update keeps every user's username registered to them. */
  lemma UpdatePreservesConsistent(st: Store, uid: string, username: string, p: ProfileInput)
    requires Consistent(st)
    ensures Consistent(UpdateUserProfile(st, uid, username, p).store)
  {
    var n := NormalizeUsername(username);
    if MatchesUsernamePattern(n) {
      TransactionPreservesConsistent(st, uid, n, p);
    }
  }

  /** The user's role, "citizen" when the document has none; an error for a
      missing user. */
  function GetUserRole(st: Store, uid: string): (r: Resource<string>)
    ensures uid !in st.users <==> r == Fail(UserNotFound)
    ensures uid in st.users && GetString(st.users[uid], Role).Some? ==> r == Done(GetString(st.users[uid], Role).value)
    ensures uid in st.users && GetString(st.users[uid], Role).None? ==> r == Done(RoleCitizen)
  {
    if uid in st.users then Done(GetString(st.users[uid], Role).GetOr(RoleCitizen)) else Fail(UserNotFound)
  }

  /** The document written when an account is registered: the record's
      fields with their defaults, the given name and email, and the
      citizen role. */
  function NewUserDoc(uid: string, fullName: string, email: string): Doc {
    map[Uid := Str(uid), Email := Str(email), FullName := Str(fullName), Username := Str(""),
        City := Str(""), District := Str(""), Role := Str(RoleCitizen), Points := Num(0),
        Title := Str(TitleNewUser)]
  }

  /** Profile creation replaces the user's document with a fresh citizen
      record (the follow-up deletion of the legacy fields finds none) and
      leaves the registry alone. */
  function CreateUserProfile(st: Store, uid: string, fullName: string, email: string): (o: Update)
    ensures o.result == Done(())
    ensures o.store.usernames == st.usernames
    ensures uid in o.store.users && o.store.users.Keys == st.users.Keys + {uid}
    ensures forall u :: u in st.users && u != uid ==> o.store.users[u] == st.users[u]
    ensures GetUserRole(o.store, uid) == Done(RoleCitizen)
    ensures StoredUsername(o.store.users[uid]) == []
    ensures forall f :: f in LegacyFields ==> f !in o.store.users[uid]
  {
    var d := NewUserDoc(uid, fullName, email) - LegacyFields;
    assert GetString(d, Username) == Some("");
    Update(Done(()), Store(st.users[uid := d], st.usernames))
  }

  /** A freshly created profile decodes to the record's defaults with the
      given uid, name and email. */
  lemma CreatedUserDecodes(st: Store, uid: string, fullName: string, email: string)
    ensures var st' := CreateUserProfile(st, uid, fullName, email).store;
      UserFromDoc(uid, st'.users[uid]) == User(uid, email, fullName, "", "", "", RoleCitizen, 0, TitleNewUser, "")
  {
  }

  /** Creating a profile keeps every username registered to its owner. */
  lemma CreatePreservesConsistent(st: Store, uid: string, fullName: string, email: string)
    requires Consistent(st)
    ensures Consistent(CreateUserProfile(st, uid, fullName, email).store)
  {
    var st' := CreateUserProfile(st, uid, fullName, email).store;
    forall u | u in st'.users && !IsBlank(StoredUsername(st'.users[u]))
      ensures ClaimedBy(st', StoredUsername(st'.users[u]), u)
    {
      assert u != uid;
      assert st'.users[u] == st.users[u];
      assert ClaimedBy(st, StoredUsername(st.users[u]), u);
    }
  }

  /** A newly registered user may claim exactly the names nobody holds. */
  lemma {:induction false} CreatedUserCanClaim(st: Store, uid: string, fullName: string, email: string,
                                               n: string, p: ProfileInput)
    ensures var st' := CreateUserProfile(st, uid, fullName, email).store;
      Transaction(st', uid, n, p).result.Success? <==> n !in st.usernames
  {
    var st' := CreateUserProfile(st, uid, fullName, email).store;
    assert UserDoc(st', uid) == st'.users[uid];
    assert IsBlank(StoredUsername(UserDoc(st', uid)));
  }

  /** The user record as stored: the uid is read from the document's own
      field, not from its id; a missing document is an error. */
  function GetUser(st: Store, uid: string): (r: Resource<User>)
    ensures uid !in st.users <==> r == Fail(UserNotFound)
    ensures uid in st.users ==> r == Done(UserFromDoc(GetString(st.users[uid], Uid).GetOr(""), st.users[uid]))
    ensures r.Success? ==> r.data.Some? && r.data.value.uid == GetString(st.users[uid], Uid).GetOr("")
    ensures r.Success? ==> r.data.value.role == GetUserRole(st, uid).data.value
  {
    if uid in st.users then Done(UserFromDoc(GetString(st.users[uid], Uid).GetOr(""), st.users[uid]))
    else Fail(UserNotFound)
  }

  /** Reading back a profile just created gives the record that was written. */
  lemma GetCreatedUser(st: Store, uid: string, fullName: string, email: string)
    ensures GetUser(CreateUserProfile(st, uid, fullName, email).store, uid)
         == Done(User(uid, email, fullName, "", "", "", RoleCitizen, 0, TitleNewUser, ""))
  {
  }

  /** The role change of the admin panel: the role field is overwritten; a
      missing document is an error raised by the store. */
  function UpdateUserRole(st: Store, uid: string, newRole: string): (o: Update)
    ensures uid !in st.users <==> !o.result.Success?
    ensures !o.result.Success? ==> o.store == st
    ensures o.store.usernames == st.usernames && o.store.users.Keys == st.users.Keys
    ensures o.result.Success? ==> GetUserRole(o.store, uid) == Done(newRole)
    ensures forall u :: u in st.users && u != uid ==> o.store.users[u] == st.users[u]
  {
    if uid in st.users then Update(Done(()), Store(st.users[uid := st.users[uid][Role := Str(newRole)]], st.usernames))
    else Update(Error(None), st)
  }

  /** Changing a role leaves every username, and the registry, as it was. */
  lemma UpdateRolePreservesConsistent(st: Store, uid: string, newRole: string)
    requires Consistent(st)
    ensures Consistent(UpdateUserRole(st, uid, newRole).store)
  {
    var st' := UpdateUserRole(st, uid, newRole).store;
    forall u | u in st'.users && !IsBlank(StoredUsername(st'.users[u]))
      ensures ClaimedBy(st', StoredUsername(st'.users[u]), u)
    {
      assert GetString(st'.users[u], Username) == GetString(st.users[u], Username);
      assert StoredUsername(st'.users[u]) == StoredUsername(st.users[u]);
      assert ClaimedBy(st, StoredUsername(st.users[u]), u);
    }
  }

  /** The transaction leaves the role alone; a first write to a user with
      no document makes a citizen. */
  lemma TransactionKeepsRole(st: Store, uid: string, n: string, p: ProfileInput)
    ensures var o := Transaction(st, uid, n, p);
      uid in st.users ==> GetUserRole(o.store, uid) == GetUserRole(st, uid)
    ensures var o := Transaction(st, uid, n, p);
      uid !in st.users && o.result.Success? ==> GetUserRole(o.store, uid) == Done(RoleCitizen)
  {
    var o := Transaction(st, uid, n, p);
    if o.result.Success? {
      MergeKeeps(UserDoc(st, uid), p.fullName, n, p.city, p.district, p.avatarSeed, Role);
    }
  }

  /** A user decoded from a document: each missing field takes the record's
      default and the uid is the document id. */
  function UserFromDoc(id: string, d: Doc): (u: User)
    ensures u.uid == id
    ensures u.role == GetString(d, Role).GetOr(RoleCitizen)
    ensures u.title == GetString(d, Title).GetOr(TitleNewUser)
    ensures GetString(d, Username).Some? ==> u.username == GetString(d, Username).value
    ensures GetString(d, Username).None? ==> u.username == ""
    ensures u.email == GetString(d, Email).GetOr("") && u.fullName == GetString(d, FullName).GetOr("")
    ensures u.city == GetString(d, City).GetOr("") && u.district == GetString(d, District).GetOr("")
    ensures u.avatarSeed == GetString(d, AvatarSeed).GetOr("")
    ensures u.points == GetNumber(d, Points).GetOr(0)
  {
    User(
      uid := id,
      email := GetString(d, Email).GetOr(""),
      fullName := GetString(d, FullName).GetOr(""),
      username := GetString(d, Username).GetOr(""),
      city := GetString(d, City).GetOr(""),
      district := GetString(d, District).GetOr(""),
      role := GetString(d, Role).GetOr(RoleCitizen),
      points := GetNumber(d, Points).GetOr(0),
      title := GetString(d, Title).GetOr(TitleNewUser),
      avatarSeed := GetString(d, AvatarSeed).GetOr(""))
  }

  /** An empty document decodes to the record's declared defaults: empty
      strings, the citizen role, no points and the new-user title. */
  lemma EmptyDocDecodesToDefaults(id: string)
    ensures UserFromDoc(id, map[]) == User(id, "", "", "", "", "", RoleCitizen, 0, TitleNewUser, "")
  {
  }

  /** Decoding a merged document shows the merged fields and the email,
      role and points of the original. */
  lemma DecodeMerged(uid: string, d: Doc, n: string, p: ProfileInput)
    ensures UserFromDoc(uid, Merged(d, n, p))
         == UserFromDoc(uid, d).(fullName := p.fullName, username := n, city := p.city,
                                 district := p.district, avatarSeed := p.avatarSeed, title := TitleSensitiveCitizen)
  {
    var d' := Merged(d, n, p);
    MergeKeeps(d, p.fullName, n, p.city, p.district, p.avatarSeed, Email);
    MergeKeeps(d, p.fullName, n, p.city, p.district, p.avatarSeed, Role);
    assert Points !in ProfileFields && Points !in LegacyFields;
    assert Points in d' <==> Points in d;
    assert Points in d ==> d'[Points] == d[Points];
  }

  /** After a successful transaction the decoded profile shows what was
      written, with the email, role and points it had before. */
  lemma TransactionProfile(st: Store, uid: string, n: string, p: ProfileInput)
    requires Transaction(st, uid, n, p).result.Success?
    ensures var before := UserFromDoc(uid, UserDoc(st, uid));
      var after := UserFromDoc(uid, UserDoc(Transaction(st, uid, n, p).store, uid));
      after == before.(fullName := p.fullName, username := n, city := p.city,
                       district := p.district, avatarSeed := p.avatarSeed, title := TitleSensitiveCitizen)
  {
    assert UserDoc(Transaction(st, uid, n, p).store, uid) == Merged(UserDoc(st, uid), n, p);
    DecodeMerged(uid, UserDoc(st, uid), n, p);
  }

  /** The listing's sort key: the full name, or the email when it is empty. */
  function SortKey(u: User): string {
    if u.fullName == "" then u.email else u.fullName
  }

  predicate ByKey(a: User, b: User) {
    LexLe(SortKey(a), SortKey(b))
  }

  lemma ByKeyTotal()
    ensures Total(ByKey)
  {
    forall a: User, b: User ensures ByKey(a, b) || ByKey(b, a) {
      LexTotal(SortKey(a), SortKey(b));
    }
  }

  function DecodeAll(snapshot: seq<(string, Doc)>): (r: seq<User>)
    ensures |r| == |snapshot|
    ensures forall i :: 0 <= i < |r| ==> r[i] == UserFromDoc(snapshot[i].0, snapshot[i].1)
  {
    if |snapshot| == 0 then [] else [UserFromDoc(snapshot[0].0, snapshot[0].1)] + DecodeAll(snapshot[1..])
  }

  lemma ByKeyTransitive()
    ensures Transitive(ByKey)
  {
    forall a: User, b: User, c: User | ByKey(a, b) && ByKey(b, c) ensures ByKey(a, c) {
      LexTrans(SortKey(a), SortKey(b), SortKey(c));
    }
  }

  /** Two users tie in the listing exactly when their sort keys are equal. */
  lemma TiedMeansSameKey(a: User, b: User)
    ensures Tied(ByKey, a, b) <==> SortKey(a) == SortKey(b)
  {
    if Tied(ByKey, a, b) {
      LexAntisymmetric(SortKey(a), SortKey(b));
    } else {
      LexTotal(SortKey(a), SortKey(b));
    }
  }

  /** Every user of the snapshot, ordered by sort key; users with equal keys
      keep the snapshot's order, as Kotlin's stable `sortedBy` keeps them. */
  function GetAllUsers(snapshot: seq<(string, Doc)>): (r: Resource<seq<User>>)
    ensures r.Success? && r.data.Some?
    ensures multiset(r.data.value) == multiset(DecodeAll(snapshot))
    ensures forall i :: 0 <= i < |r.data.value| - 1 ==> LexLe(SortKey(r.data.value[i]), SortKey(r.data.value[i + 1]))
    ensures forall k :: Ties(r.data.value, ByKey, k) == Ties(DecodeAll(snapshot), ByKey, k)
  {
    ByKeyTotal();
    ByKeyTransitive();
    var users := DecodeAll(snapshot);
    assert forall k :: Ties(SortBy(users, ByKey), ByKey, k) == Ties(users, ByKey, k) by {
      forall k ensures Ties(SortBy(users, ByKey), ByKey, k) == Ties(users, ByKey, k) {
        SortByStable(users, ByKey, k);
      }
    }
    Done(SortBy(users, ByKey))
  }

  /** The query for privileged users: documents whose role field is the
      string "admin" or "official". */
  predicate Privileged(entry: (string, Doc)) {
    GetString(entry.1, Role) == Some(RoleAdmin) || GetString(entry.1, Role) == Some(RoleOfficial)
  }

  /** Decoding keeps order: a subsequence of the snapshot decodes to a
      subsequence of the decoded snapshot. */
  lemma {:induction false} DecodeAllSubsequence(a: seq<(string, Doc)>, b: seq<(string, Doc)>)
    requires IsSubsequence(a, b)
    ensures IsSubsequence(DecodeAll(a), DecodeAll(b))
    decreases |b|
  {
    if |a| > 0 {
      var da, db := DecodeAll(a), DecodeAll(b);
      assert DecodeAll(a[..|a| - 1]) == da[..|da| - 1];
      assert DecodeAll(b[..|b| - 1]) == db[..|db| - 1];
      if a[|a| - 1] == b[|b| - 1] && IsSubsequence(a[..|a| - 1], b[..|b| - 1]) {
        DecodeAllSubsequence(a[..|a| - 1], b[..|b| - 1]);
      } else {
        DecodeAllSubsequence(a, b[..|b| - 1]);
      }
    }
  }

  /** The decoded privileged documents are officials and include every
      privileged document. */
  lemma PrivilegedAreListed(snapshot: seq<(string, Doc)>)
    ensures var users := DecodeAll(Filter(snapshot, Privileged));
      (forall u :: u in users ==> u.IsOfficial())
      && (forall e :: e in snapshot && Privileged(e) ==> UserFromDoc(e.0, e.1) in users)
  {
    var kept := Filter(snapshot, Privileged);
    var users := DecodeAll(kept);
    forall u | u in users ensures u.IsOfficial() {
      var i :| 0 <= i < |users| && users[i] == u;
      assert kept[i] in kept;
    }
    forall e | e in snapshot && Privileged(e) ensures UserFromDoc(e.0, e.1) in users {
      var i :| 0 <= i < |kept| && kept[i] == e;
      assert users[i] == UserFromDoc(e.0, e.1);
    }
  }

  /** Every decoded privileged document comes from a privileged entry of
      the snapshot. */
  lemma ListedArePrivileged(snapshot: seq<(string, Doc)>)
    ensures forall u :: u in DecodeAll(Filter(snapshot, Privileged)) ==>
      exists e :: e in snapshot && Privileged(e) && u == UserFromDoc(e.0, e.1)
  {
    var kept := Filter(snapshot, Privileged);
    var users := DecodeAll(kept);
    forall u | u in users ensures exists e :: e in snapshot && Privileged(e) && u == UserFromDoc(e.0, e.1) {
      var i :| 0 <= i < |users| && users[i] == u;
      assert kept[i] in kept;
    }
  }

  /** The admins and officials of the snapshot, in snapshot order: exactly
      the decoded privileged documents, each once. */
  function GetPrivilegedUsers(snapshot: seq<(string, Doc)>): (r: Resource<seq<User>>)
    ensures r.Success? && r.data.Some?
    ensures forall u :: u in r.data.value ==> u.IsOfficial()
    ensures forall e :: e in snapshot && Privileged(e) ==> UserFromDoc(e.0, e.1) in r.data.value
    ensures forall u :: u in r.data.value ==> exists e :: e in snapshot && Privileged(e) && u == UserFromDoc(e.0, e.1)
    ensures IsSubsequence(r.data.value, DecodeAll(snapshot))
    ensures |r.data.value| == Count(snapshot, Privileged)
  {
    var kept := Filter(snapshot, Privileged);
    PrivilegedAreListed(snapshot);
    ListedArePrivileged(snapshot);
    DecodeAllSubsequence(kept, snapshot);
    CountIsFilterLength(snapshot, Privileged);
    Done(DecodeAll(kept))
  }

  /** A user is listed as privileged exactly when the role field of their
      document makes them an official or an admin. */
  lemma {:induction false} PrivilegedMeansOfficial(id: string, d: Doc)
    ensures Privileged((id, d)) <==> UserFromDoc(id, d).IsOfficial()
  {
  }

  // ---------------------------------------------------------------------
  // Document paths
  // ---------------------------------------------------------------------

  /** The pieces of `s` between its '/' characters, empty pieces included. */
  function SlashPieces(s: string): (r: seq<string>)
    ensures |r| >= 1
  {
    if |s| == 0 then [""]
    else
      var p := SlashPieces(s[..|s| - 1]);
      var c := s[|s| - 1];
      if c == '/' then p + [""] else p[..|p| - 1] + [p[|p| - 1] + [c]]
  }

  predicate NonEmpty(x: string) {
    x != []
  }

  /** The segments a document path names: a leading or trailing '/' adds
      none. */
  function Segments(s: string): seq<string> {
    Filter(SlashPieces(s), NonEmpty)
  }

  predicate HasDoubleSlash(s: string) {
    exists i :: 0 <= i < |s| - 1 && s[i] == '/' && s[i + 1] == '/'
  }

  /** `collection("usernames").document(n)` accepts `n`: it holds no "//",
      and it has an odd number of segments, so that the whole path has an
      even number. For any other `n` the SDK throws. */
  predicate ValidDocumentPath(n: string) {
    !HasDoubleSlash(n) && |Segments(n)| % 2 == 1
  }

  /** The id of the `usernames` document that `n` names. A valid path of
      three or more segments names a document in a sub-collection, where no
      name is ever registered. */
  function RegistryKey(n: string): Option<string> {
    if ValidDocumentPath(n) && |Segments(n)| == 1 then Some(Segments(n)[0]) else None
  }

  lemma {:induction false} NoSlashOnePiece(s: string)
    requires forall i :: 0 <= i < |s| ==> s[i] != '/'
    ensures SlashPieces(s) == [s]
  {
    if |s| > 0 {
      NoSlashOnePiece(s[..|s| - 1]);
      assert s == s[..|s| - 1] + [s[|s| - 1]];
    }
  }

  /** A name in the accepted form is its own registry key. */
  lemma PatternNameIsKey(n: string)
    requires MatchesUsernamePattern(n)
    ensures RegistryKey(n) == Some(n)
  {
    NoSlashOnePiece(n);
    assert Filter([n], NonEmpty) == Filter([], NonEmpty) + [n] by {
      assert [n][..0] == [];
    }
    assert !HasDoubleSlash(n) by {
      forall i | 0 <= i < |n| - 1 ensures !(n[i] == '/' && n[i + 1] == '/') {
        assert IsUsernameChar(n[i]);
      }
    }
  }

  // ---------------------------------------------------------------------
  // Search
  // ---------------------------------------------------------------------

  /** The uid the registry entry `key` holds, or "" when it holds none. */
  function RegisteredUid(st: Store, key: string): string
    requires key in st.usernames
  {
    GetString(st.usernames[key], Uid).GetOr("")
  }

  /** `key` is registered to a non-blank uid whose document exists. */
  predicate Resolves(st: Store, key: string) {
    key in st.usernames && !IsBlank(RegisteredUid(st, key)) && RegisteredUid(st, key) in st.users
  }

  /** The registry step of the search: the user the entry `key` names, or
      "Böyle bir kullanıcı yok" when it names none. */
  function FindRegistered(st: Store, key: string): (r: Resource<User>)
    ensures !Resolves(st, key) <==> r == Fail(NoSuchUser)
    ensures Resolves(st, key) ==>
      var uid := RegisteredUid(st, key);
      r == Done(UserFromDoc(uid, st.users[uid]))
    ensures r.Success? ==>
      r.data.Some? && ClaimedBy(st, key, r.data.value.uid)
      && r.data.value.uid in st.users && r.data.value == UserFromDoc(r.data.value.uid, st.users[r.data.value.uid])
  {
    if !Resolves(st, key) then Fail(NoSuchUser)
    else
      var uid := RegisteredUid(st, key);
      var u := UserFromDoc(uid, st.users[uid]);
      assert u.uid == uid;
      Done(u)
  }

  /** Looks a user up through the registry. A name that is not a valid
      document path makes the SDK throw, and the error carries its message. */
  function SearchUserByUsername(st: Store, username: string): (r: Resource<User>)
    ensures var n := NormalizeUsername(username);
      !ValidDocumentPath(n) <==> r == Error(None)
    ensures var n := NormalizeUsername(username);
      ValidDocumentPath(n) && (RegistryKey(n).None? || !Resolves(st, RegistryKey(n).value)) ==> r == Fail(NoSuchUser)
    ensures var n := NormalizeUsername(username);
      RegistryKey(n).Some? && Resolves(st, RegistryKey(n).value) ==>
        var uid := RegisteredUid(st, RegistryKey(n).value);
        r == Done(UserFromDoc(uid, st.users[uid]))
    ensures r.Success? ==> var n := NormalizeUsername(username);
      r.data.Some? && RegistryKey(n).Some? && ClaimedBy(st, RegistryKey(n).value, r.data.value.uid)
      && r.data.value.uid in st.users && r.data.value == UserFromDoc(r.data.value.uid, st.users[r.data.value.uid])
  {
    var n := NormalizeUsername(username);
    if !ValidDocumentPath(n) then Error(None)
    else
      match RegistryKey(n)
      case None => Fail(NoSuchUser)
      case Some(key) => FindRegistered(st, key)
  }

  lemma PiecesOfSlashed(s: string)
    requires s == "a/b"
    ensures SlashPieces(s) == ["a", "b"]
  {
    var p0 := SlashPieces(s[..0]);
    assert p0 == [""];
    var p1 := SlashPieces(s[..1]);
    assert s[..1][..0] == s[..0];
    assert p1 == p0[..0] + [p0[0] + [s[0]]];
    assert p0[0] + [s[0]] == [s[0]] == "a";
    assert p1 == ["a"];
    var p2 := SlashPieces(s[..2]);
    assert s[..2][..1] == s[..1];
    assert p2 == p1 + [""];
    assert s[..|s| - 1] == s[..2];
    assert SlashPieces(s) == p2[..1] + [p2[1] + [s[2]]];
    assert p2[1] + [s[2]] == [s[2]] == "b";
  }

  lemma SlashedIsNormal()
    ensures NormalizeUsername("a/b") == "a/b"
  {
    var s := "a/b";
    assert Trim(s) == s;
    assert RemovePrefix(s, "@") == s;
    assert s[1..] == "/b" && s[1..][1..] == "b";
    assert ToLower(s) == s;
  }

  /** A name with a single inner '/' names a collection, not a document:
      the search fails with the SDK's message, not "no such user". */
  lemma SlashedQueryFails(st: Store)
    ensures SearchUserByUsername(st, "a/b") == Error(None)
  {
    SlashedIsNormal();
    PiecesOfSlashed("a/b");
    assert Filter(["a", "b"], NonEmpty) == ["a", "b"] by {
      assert ["a", "b"][..1] == ["a"];
      assert ["a"][..0] == [];
    }
    assert |Segments("a/b")| == 2;
  }

  /** After a successful update, searching for the same name (in any
      spelling that normalises to it) finds the user. */
  lemma {:induction false} SearchFindsUpdatedUser(st: Store, uid: string, username: string, p: ProfileInput, query: string)
    requires Consistent(st) && !IsBlank(uid)
    requires UpdateUserProfile(st, uid, username, p).result.Success?
    requires NormalizeUsername(query) == NormalizeUsername(username)
    ensures var st' := UpdateUserProfile(st, uid, username, p).store;
      SearchUserByUsername(st', query) == Done(UserFromDoc(uid, st'.users[uid]))
  {
    var n := NormalizeUsername(username);
    var o := Transaction(st, uid, n, p);
    var e := StoredUsername(UserDoc(st, uid));
    if !IsBlank(e) {
      assert uid in st.users;
      assert ClaimedBy(st, e, uid);
    }
    assert ClaimedBy(o.store, n, uid);
    assert MatchesUsernamePattern(n);
    PatternNameIsKey(n);
    assert o == UpdateUserProfile(st, uid, username, p);
    assert uid in o.store.users;
    assert RegisteredUid(o.store, n) == uid;
    assert Resolves(o.store, n);
  }
}

=== FILE: user_role.dfy ===
/** The three user roles and their stored string values. */
module UserRole {

  datatype Role = Citizen | Official | Admin

  /** The string stored in the user document for each role. */
  function Value(r: Role): string {
    match r
    case Citizen => "citizen"
    case Official => "official"
    case Admin => "admin"
  }

  /** The role whose value is `v`; any other string reads as `Citizen`.
      Total: every string yields a role. */
  function FromString(v: string): (r: Role)
    ensures Value(r) == v || r == Citizen
    ensures (forall x: Role :: Value(x) != v) ==> r == Citizen
  {
    if v == "official" then Official
    else if v == "admin" then Admin
    else Citizen
  }

  /** Parsing a role's own value gives the role back. */
  lemma FromStringValue(r: Role)
    ensures FromString(Value(r)) == r
  {
  }

  /** The three values are pairwise distinct. */
  lemma ValueInjective(a: Role, b: Role)
    ensures Value(a) == Value(b) <==> a == b
  {
  }
}

=== FILE: validation.dfy ===
/** Field validators and the message lookup used by the forms. Email syntax
    is the platform's pattern and is passed in as a predicate. */
module Validation {
  import opened Wrappers
  import opened Text
  import opened Constants

  predicate IsValidPassword(password: string) {
    |password| >= MinPasswordLength
  }

  predicate IsValidPostTitle(title: string) {
    !IsBlank(title) && |title| <= MaxPostTitleLength
  }

  predicate IsValidPostDescription(description: string) {
    !IsBlank(description) && |description| <= MaxPostDescriptionLength
  }

  predicate IsValidComment(comment: string) {
    !IsBlank(comment) && |comment| <= MaxCommentLength
  }

  const EmailMessage: string := "Geçerli bir e-posta adresi giriniz"

  /** The messages spell out the limits they enforce. */
  function PasswordMessage(): string {
    "Şifre en az " + NatToString(MinPasswordLength) + " karakter olmalıdır"
  }

  function TitleMessage(): string {
    "Başlık boş olamaz ve " + NatToString(MaxPostTitleLength) + " karakteri geçemez"
  }

  function DescriptionMessage(): string {
    "Açıklama boş olamaz ve " + NatToString(MaxPostDescriptionLength) + " karakteri geçemez"
  }

  function CommentMessage(): string {
    "Yorum boş olamaz ve " + NatToString(MaxCommentLength) + " karakteri geçemez"
  }

  /** The error for `value` in the named field, `None` when it is valid or
      the field is not one of the five known ones. */
  function GetValidationError(field: string, value: string, isEmail: string -> bool): (r: Option<string>)
    ensures field == "email" ==> (r == None <==> isEmail(value)) && (r != None ==> r == Some(EmailMessage))
    ensures field == "password" ==> (r == None <==> |value| >= 6) && (r != None ==> r == Some(PasswordMessage()))
    ensures field == "title" ==> (r == None <==> !IsBlank(value) && |value| <= 100) && (r != None ==> r == Some(TitleMessage()))
    ensures field == "description" ==>
              (r == None <==> !IsBlank(value) && |value| <= 500) && (r != None ==> r == Some(DescriptionMessage()))
    ensures field == "comment" ==> (r == None <==> !IsBlank(value) && |value| <= 200) && (r != None ==> r == Some(CommentMessage()))
    ensures field !in ["email", "password", "title", "description", "comment"] ==> r == None
  {
    if field == "email" then (if !isEmail(value) then Some(EmailMessage) else None)
    else if field == "password" then (if !IsValidPassword(value) then Some(PasswordMessage()) else None)
    else if field == "title" then (if !IsValidPostTitle(value) then Some(TitleMessage()) else None)
    else if field == "description" then (if !IsValidPostDescription(value) then Some(DescriptionMessage()) else None)
    else if field == "comment" then (if !IsValidComment(value) then Some(CommentMessage()) else None)
    else None
  }

  /** For each known field, no error means the field's validator accepts. */
  lemma ErrorMatchesValidator(value: string, isEmail: string -> bool)
    ensures GetValidationError("password", value, isEmail).None? <==> IsValidPassword(value)
    ensures GetValidationError("title", value, isEmail).None? <==> IsValidPostTitle(value)
    ensures GetValidationError("description", value, isEmail).None? <==> IsValidPostDescription(value)
    ensures GetValidationError("comment", value, isEmail).None? <==> IsValidComment(value)
  {
  }

  /** The comment limit is inclusive: 200 characters pass, 201 do not. */
  lemma CommentLimitInclusive(comment: string)
    requires !IsBlank(comment)
    ensures |comment| == 200 ==> IsValidComment(comment)
    ensures |comment| == 201 ==> !IsValidComment(comment)
  {
  }

  /** Every accepted title, description and comment has a non-whitespace
      character, so trimming never empties it. */
  lemma ValidTextSurvivesTrim(text: string)
    requires IsValidPostTitle(text) || IsValidPostDescription(text) || IsValidComment(text)
    ensures Trim(text) != []
  {
  }
}

=== FILE: wrappers.dfy ===
/** Nullable values and the app's `Resource` result wrapper. */
module Wrappers {

  /** A Kotlin nullable value: `None` is `null`. */
  datatype Option<+T> = None | Some(value: T) {

    /** Kotlin's elvis operator `?:`. */
    function GetOr(default: T): T {
      match this
      case Some(v) => v
      case None => default
    }
  }

  /** The app's `Resource<T>`: a success that may carry data, an error that
      may carry a message, or a load in progress. */
  datatype Resource<+T> = Success(data: Option<T>) | Error(message: Option<string>) | Loading

  /** An error with a message. */
  function Fail<T>(message: string): Resource<T> {
    Error(Some(message))
  }

  /** A success carrying `v`. */
  function Done<T>(v: T): Resource<T> {
    Success(Some(v))
  }
}
